=== FILE: README.md ===
# ModelManagement console: session, error and list rules in Dafny

ModelManagement is a React console for a modelling agency. Managers and models sign in with a JSON Web Token. They browse jobs, models, managers and expenses that a REST backend serves. This project models the decision rules the console keeps on the client side:

- The session resolver, with its token store:
  - the startup check of a stored token;
  - `login`, which accepts a raw token or a `{jwt}` object;
  - `logout`;
  - the `loadModelData` lookup ladder;
  - the `updateModelData` guard;
  - the derived `isAuthenticated`, `isManager`, `isModel` and `getModelId`.
- Token decoding: exactly three dot-separated parts, as in the JWS compact serialisation of section 7.1 of RFC 7515. Only the payload is decoded, after mapping the base64url alphabet (section 5 of RFC 4648) to base64. The signature is never checked.
- Error classification:
  - the API client's response interceptor;
  - `handleApiError`, which maps an HTTP status to a message;
  - the user-facing `formatErrorMessage`, `getStatusMessage` and `createErrorNotification`.
- The list hooks:
  - de-duplication of expenses by id, keeping the first copy;
  - the job and text filters;
  - the ordered union of job options;
  - replace-by-id and remove-by-id;
  - URL selection, reselection after a delete, and the filter that keeps a model's own jobs;
  - the permission predicates.
- The route guard, and the navigation bar's role-gated links and active-link test.

How the model is built:

- **JavaScript values.** Values the code compares loosely are the datatype `Js.Value`: undefined, null, boolean, integer or string. `===` becomes `==`, `String(x)` becomes `Js.ToStr` and truthiness becomes `Js.Truthy`.
- **Backend calls** are inputs of type `Call<T>`: either `Fetched(value)` or `Rejected(error)`.
- **Decoding.** `atob`, `decodeURIComponent` and `JSON.parse` together form the partial function `decode`, which is a parameter.
- **Clock.** The clock is the parameter `nowMs`.
- **Component state.** State that a component or hook updates in place is a class, whose methods change its fields:
  - `AuthContext.Session`, together with `Storage.TokenStore`;
  - `ErrorHandling.ErrorState`;
  - the page classes of each hook;
  - the response object that `useModelJobs` patches.
- **Session steps.** Each session method is proved equal to a pure step function. The properties are proved about those step functions.

## Model

| member | source | states |
|---|---|---|
| AuthService.ReplaceAll | src/services/auth.js:55 | one `replace(/c/g, …)`: same length, and each position maps only the replaced character |
| AuthService.Base64UrlToBase64 | src/services/auth.js:55 | `-` becomes `+`, `_` becomes `/`, every other character and the length are kept |
| AuthService.Base64UrlAlphabet | src/services/auth.js:55 | base64url letters become base64 letters, no `-` or `_` survives, and other characters pass through |
| AuthService.DecodeToken | src/services/auth.js:42-77 | any failure is the single message 'Invalid token'; a part count other than 3 fails; otherwise the result is the decode of the substituted middle part |
| AuthService.DecodeRejectsPartCount | src/services/auth.js:46-52 | a token without exactly two dots is rejected with 'Invalid token' |
| AuthService.DecodeReadsPayloadOnly | src/services/auth.js:54-67 | for `header.payload.signature` the outcome depends on the payload alone |
| AuthService.LoginError | src/services/auth.js:17-23 | `login` rethrows a plain error whose message is the response body's message, else 'Login failed' |
| AuthService.LoginAlwaysFailsGenerically | src/services/auth.js:17-23 | every error that reaches `login` through the API client has no `response`, so the message is always 'Login failed' |
| AuthContext.ParseTokenClaims | src/context/AuthContext.jsx:25-37 | each claim prefers the long URI key (or the listed key) over its alternative, defaulting to '' (and to null for `modelId`) |
| AuthContext.MakeUser | src/context/AuthContext.jsx:166-174 | the user record built from the claims; no user when `role.toLowerCase` would throw; `isManager` iff the role lower-cases to 'manager' |
| AuthContext.ModelToLoad | src/context/AuthContext.jsx:180-182 | model data is loaded, by `modelId` or else by email, exactly when there is a model id or the role is 'model' |
| AuthContext.IsTokenExpired | src/context/AuthContext.jsx:40-55 | expired iff decoding fails or `exp` is truthy and lies before now; a missing or zero `exp` never expires |
| AuthContext.SignedInRoles | src/context/AuthContext.jsx:285-287 | for a user from a token, `isManager` iff the role is 'manager'; `isModel` iff the role is 'model' or a model id exists; such a user is authenticated |
| AuthContext.GetModelId | src/context/AuthContext.jsx:302-323 | the first truthy of `currentUser.modelId`, `modelData.id`, or the email of a user whose role is 'model'; otherwise null |
| AuthContext.ModelHasModelId | src/context/AuthContext.jsx:302-323 | a model with an email always has a truthy model id |
| AuthContext.StartupStep | src/context/AuthContext.jsx:145-191 | a missing or empty (falsy) stored token changes nothing; an expired or undecodable one is removed and nobody is signed in; an unexpired token whose claims give a user (a string role) signs exactly that user in and loads `ModelToLoad` of its claims, one whose role is not a string is removed |
| AuthContext.StartupSignsInIffTokenKept | src/context/AuthContext.jsx:149-186 | after startup, a user is signed in iff a non-empty token is still stored, and a non-empty token stays iff it decodes, has not expired and has a string role; an empty stored token stays, with nobody signed in and nothing loaded |
| AuthContext.ReplyToken | src/context/AuthContext.jsx:200-211 | the token is `data.jwt` for an object with a truthy `jwt`, else `data` itself; it is accepted only when it is a non-empty string |
| AuthContext.LoginStep | src/context/AuthContext.jsx:193-258 | a missing or non-string token stores nothing and sets the error; for a string token, login succeeds iff it decodes and its claims give a user; then the token is stored, exactly that user is signed in, the error cleared and `ModelToLoad` of its claims loaded; otherwise the token is removed again, the invalid-token error set and the result is false; a rejected request sets the formatted error |
| AuthContext.LoginAcceptsBothReplyShapes | src/context/AuthContext.jsx:201-204 | a raw token string and `{jwt: token}` give the same outcome |
| AuthContext.LoginRejectionMessage | src/context/AuthContext.jsx:249-256 | a rejected login request always shows 'Login failed', whatever the server answered |
| AuthContext.LogoutStep | src/context/AuthContext.jsx:260-267 | logout clears the token, the user and the model data, and keeps the errors |
| AuthContext.LogoutIdempotent | src/context/AuthContext.jsx:260-267 | logging out twice gives the same state as logging out once |
| AuthContext.FindByEmail | src/context/AuthContext.jsx:74-81 | the first model whose email matches case-insensitively; 'Model not found by email' when none does |
| AuthContext.ModelLookup | src/context/AuthContext.jsx:67-85 | the id lookup is tried first; only a 404 with a captured user that has an email falls back to the email search; any other failure is rethrown |
| AuthContext.Backfilled | src/context/AuthContext.jsx:92-95 | the previous user with only `modelId` replaced |
| AuthContext.LoadModelDataStep | src/context/AuthContext.jsx:58-105 | a falsy identifier changes nothing; a found record, by id or by email, is stored with the error cleared, and when it has a truthy `id` and a user was captured, `currentUser` becomes the current user with `modelId` set to that id, otherwise it is left as it is; failure sets the formatted model error |
| AuthContext.LoadBackfillsModelId | src/context/AuthContext.jsx:70-98 | after a successful load, through the id request or the email fallback, with a captured user and a truthy `data.id`, `currentUser.modelId` is `data.id` and every other user field is unchanged |
| AuthContext.LoadFallsBackToEmail | src/context/AuthContext.jsx:70-81 | after a 404, the model found is the first whose email matches the captured user's email case-insensitively; with no match the error is 'Model not found by email' |
| AuthContext.LoadWithoutCapturedUser | src/context/AuthContext.jsx:71-98 | when the closure captured no user, as at startup or after a `login` made while nobody was signed in, a failed id lookup, a 404 included, is reported as it is, with no email search and the user untouched |
| AuthContext.UpdateTarget | src/context/AuthContext.jsx:295-298 | the model updated is `currentUser.modelId`, else `modelData.id` |
| AuthContext.UpdateModelDataStep | src/context/AuthContext.jsx:108-127 | a falsy id skips the call; success stores the data; failure sets the formatted error and rethrows |
| AuthContext.Session.Startup | src/context/AuthContext.jsx:145-191 | the session and its token store move as `StartupStep` says |
| AuthContext.Session.Login | src/context/AuthContext.jsx:193-258 | the session and its token store move as `LoginStep` says, and the result is its success flag |
| AuthContext.Session.Logout | src/context/AuthContext.jsx:260-267 | the session and its token store move as `LogoutStep` says |
| AuthContext.Session.LoadModelData | src/context/AuthContext.jsx:58-105 | the session moves as `LoadModelDataStep` says |
| AuthContext.Session.UpdateModelData | src/context/AuthContext.jsx:108-127 | the session moves as `UpdateModelDataStep` says |
| Storage.TokenStore.Remove | src/services/api.js:78-81 | the stored token is gone |
| Storage.TokenStore.Put | src/context/AuthContext.jsx:214 | the stored token is the one given |
| Api.InterceptedMessage | src/services/api.js:90 | the response body's message, else the error's message, else 'Unknown API error'; never empty |
| Api.InterceptResponseError | src/services/api.js:65-110 | a 401 clears the token; `ECONNABORTED` becomes 408 before a missing response becomes status 0; otherwise the status and body are kept with the intercepted message |
| Api.OnResponseError | src/services/api.js:65-110 | the interceptor removes the stored token exactly on a 401 and rejects with the classified error |
| Api.HandleApiErrorTable | src/services/api.js:127-153 | the message for each status of the table: fixed texts for 401, 403, 409 and 500; 404 names the operation; 400 and 422 carry the server's message or their default; any other status is reported with its number and the server's message or 'Unknown error' |
| Api.HandleApiError | src/services/api.js:114-162 | the result is always an `APIError`; an existing `APIError` comes back unchanged; a response keeps its status and body; no response means 408 for a timeout and 0 otherwise; an unsent request is a set-up error |
| Api.AccountLoginError | src/services/api.js:180-190 | as written: a raw 400 becomes 'Invalid email or password', anything else goes through `handleApiError` |
| Api.LoginBadRequestUnrecognised | src/services/api.js:185-189 | every error the client delivers to this catch passes through unchanged, so the 400 branch never fires |
| Api.LoginBadRequestExample | src/services/api.js:185-189 | a 400 whose body says 'Invalid credentials' reaches the caller as 'Invalid credentials' |
| Api.AccountLoginErrorChecked | src/services/api.js:185-188 | corrected: a 400 is recognised on the raw response or on the `APIError`'s status |
| Api.LoginBadRequestRecognised | src/services/api.js:185-188 | with the correction, every non-timeout 400 to login ends as 'Invalid email or password' |
| Api.ModelJobsError | src/services/api.js:376-394 | 404, 401 and 400 get their own messages naming the model id or the server's message; other errors go through `handleApiError` |
| Api.UpdateExpenseRequest | src/services/api.js:431-443 | the PUT targets `expenseData.expenseId \|\| id`; its body has every key but `expenseId`, with values unchanged |
| ErrorHandling.BodyMessageFor | src/utils/errorHandling.js:21-48 | body precedence: string body, then `message`, then `error`, then the joined validation messages (the fallback if that join is empty); nothing for other bodies |
| ErrorHandling.FormatErrorMessage | src/utils/errorHandling.js:9-53 | a string is returned as is; an `APIError` gives its message; a truthy response body gives the body's message; otherwise the error message, or the fallback when it is empty |
| ErrorHandling.FormatErrorMessageNonEmpty | src/utils/errorHandling.js:9-53 | with a non-empty fallback, a thrown error always gives a non-empty message drawn from the error, its body or the fallback |
| ErrorHandling.GetStatusMessage | src/utils/errorHandling.js:60-82 | the fixed labels for 400, 401, 403, 404, 409, 422, 500 and 503 |
| ErrorHandling.StatusMessageRanges | src/utils/errorHandling.js:78-80 | other codes: 'Request Error' in [400, 500), 'Server Error' from 500, 'Unknown Error' below 400 |
| ErrorHandling.CreateErrorNotification | src/utils/errorHandling.js:116-130 | the kind is always 'error'; the title is the status label only for an `APIError` with a truthy status, else the fallback title |
| ErrorHandling.ErrorState.HandleApiError | src/utils/errorHandling.js:91-107 | the error is set to the formatted message, which is returned; loading is cleared only when a setter is given |
| Entities.JobsAssignedTo | src/hooks/useModelExpenses.js:204-211 | the jobs with a `models` array holding an entry whose `id` or `modelId` is String-equal to the target, in order, each with as many copies as the input has |
| Entities.AssignedToNumberOrItsText | src/hooks/useModelExpenses.js:204-211 | jobs without a `models` array are dropped, and a numeric target selects the same jobs as its decimal text |
| Entities.FindByKeyText | src/hooks/useJobsList.js:44 | a `find` on `key.toString() === text`: a pick is the first element whose key is present and prints as the text, every earlier key being present and different; no match iff no key is missing or equal; a throw iff a missing key comes before any match |
| ModelExpenses.PermissionsNest | src/hooks/useModelExpenses.js:37-47 | every manager may view; modifying needs the model role; a model with an email may view and modify its own route |
| ModelExpenses.LookupCustomer | src/hooks/useModelExpenses.js:115-117 | the customer stored for a job, `customer`, else `name`, else 'Job #' and the key, is never empty |
| ModelExpenses.JobLookupKeys | src/hooks/useModelExpenses.js:113-120 | the lookup holds exactly the keys `job.id \|\| job.jobId` of the jobs |
| ModelExpenses.JobLookupLastWins | src/hooks/useModelExpenses.js:113-120 | for each key, the lookup holds the customer of the last job with that key |
| ModelExpenses.BuildJobLookup | src/hooks/useModelExpenses.js:113-120 | the `forEach` that fills `jobLookup` builds the lookup the lemmas describe |
| ModelExpenses.NormalizeExpense | src/hooks/useModelExpenses.js:122-129 | `id` becomes `id \|\| expenseId`; `jobCustomer` is its own value, else the lookup's customer, else 'Job #<jobId>' |
| ModelExpenses.NormalizeAll | src/hooks/useModelExpenses.js:122-129 | every expense is normalised, in order |
| ModelExpenses.KeepFirstSpec | src/hooks/useModelExpenses.js:134-161 | keeping first copies gives an ordered subsequence with unique ids, loses no id, and every kept entry is the first of the list with its id |
| ModelExpenses.KeepFirstKeepsUnique | src/hooks/useModelExpenses.js:141-161 | a list whose ids are already unique is kept as is |
| ModelExpenses.OccursOnce | src/hooks/useModelExpenses.js:134-138 | every id present is counted at least once |
| ModelExpenses.OccursTwice | src/hooks/useModelExpenses.js:134-139 | two entries whose ids print alike give a count of at least two |
| ModelExpenses.NoCountedDuplicates | src/hooks/useModelExpenses.js:139-161 | when no count exceeds one, the ids are unique and the list is left as it is |
| ModelExpenses.DedupedSpec | src/hooks/useModelExpenses.js:141-161 | deduplication keeps an ordered subsequence with unique ids and every id, and each kept entry is the first in the list with its id |
| ModelExpenses.DedupeById | src/hooks/useModelExpenses.js:134-161 | the counting loop and the `seenIds` loop give `KeepFirst` from nothing seen, whose meaning `DedupedSpec` states |
| ModelExpenses.FilteredExpenses | src/hooks/useModelExpenses.js:231-245 | an ordered subsequence holding exactly the expenses that pass both filters, every copy of each; empty filters keep everything |
| ModelExpenses.TextFilterIgnoresCase | src/hooks/useModelExpenses.js:238-243 | the text filter gives the same answer for a filter and its lower-case form |
| ModelExpenses.ExpenseJobOption | src/hooks/useModelExpenses.js:253-262 | an expense's option uses its `jobId`, with a non-empty customer |
| ModelExpenses.ModelJobOption | src/hooks/useModelExpenses.js:264-274 | a model job's option uses `id \|\| jobId`, with a non-empty customer |
| ModelExpenses.OptionIdsAppend | src/hooks/useModelExpenses.js:248-277 | appending an option adds its id, and keeps ids unique when the id is new |
| ModelExpenses.WithExpenseJobsSpec | src/hooks/useModelExpenses.js:253-262 | the expense pass keeps ids unique, extends what came before, and collects exactly the expenses' job ids |
| ModelExpenses.WithModelJobsSpec | src/hooks/useModelExpenses.js:264-274 | the model-job pass keeps ids unique, only appends, and leaves every model job represented |
| ModelExpenses.WithExpenseJobsPicks | src/hooks/useModelExpenses.js:253-262 | the expense pass appends exactly the entries of the expenses that are the first with a job id not yet listed, in their order, and nothing else |
| ModelExpenses.WithModelJobsPicks | src/hooks/useModelExpenses.js:264-274 | the model-job pass appends exactly the entries of the model jobs neither of whose ids was listed when the pass reached them, in their order, and nothing else |
| ModelExpenses.ExpenseJobsSpec | src/hooks/useModelExpenses.js:248-277 | the options have unique ids: first the entry of the first expense of each job id, in order of first appearance, then the entries of the model jobs whose ids were not listed yet, in order, and nothing else |
| ModelExpenses.BuildExpenseJobs | src/hooks/useModelExpenses.js:248-277 | the two loops guarded by the `jobIds` set build those options |
| ModelExpenses.FormatModelJob | src/hooks/useModelExpenses.js:214-218 | a model job carries `id \|\| jobId` in both id fields and a non-empty customer |
| ModelExpenses.ModelJobsFor | src/hooks/useModelExpenses.js:195-227 | one formatted entry for each job the target is assigned to, in order |
| ModelExpenses.ReplaceById | src/hooks/useModelExpenses.js:398-401 | the same length; exactly the entries with the id are replaced, all others kept |
| ModelExpenses.RemoveById | src/hooks/useModelExpenses.js:423-426 | an ordered subsequence holding exactly the entries with another id, every copy of each |
| ModelExpenses.RemoveAfterReplace | src/hooks/useModelExpenses.js:398-426 | removing an id after replacing it equals removing it directly |
| ModelExpenses.UnknownIdChangesNothing | src/hooks/useModelExpenses.js:370-374 | replacing or removing an id that no entry has changes nothing |
| ModelExpenses.WithIdFilled | src/hooks/useModelExpenses.js:393-395 | the server's copy gets `id := expenseId` only when it has an `expenseId` and no `id` |
| ModelExpenses.ExpensesPage.Load | src/hooks/useModelExpenses.js:81-177 | without permission only the error is set; with jobs and an id, the expenses are fetched, normalised and de-duplicated |
| ModelExpenses.ExpensesPage.LoadModelJobs | src/hooks/useModelExpenses.js:195-227 | with permission and jobs, the model jobs are those of `id \|\| currentModelId` |
| ModelExpenses.ExpensesPage.AddExpense | src/hooks/useModelExpenses.js:295-332 | a created expense is appended; without permission or on failure the list is unchanged and the error set |
| ModelExpenses.ExpensesPage.StartEdit | src/hooks/useModelExpenses.js:334-349 | editing starts on `id \|\| expenseId`, or the permission error is set |
| ModelExpenses.ExpensesPage.SaveEdit | src/hooks/useModelExpenses.js:361-409 | an unknown id gives 'Expense not found' and no change; success replaces exactly the matching entries and ends editing |
| ModelExpenses.ExpensesPage.Delete | src/hooks/useModelExpenses.js:411-431 | after confirmation and with permission, exactly the matching entries are removed, in order |
| JobsList.VisibleJobs | src/hooks/useJobsList.js:24-38 | a model that is not a manager and has an id sees exactly the jobs assigned to it, in order, every copy of each; everyone else sees every job |
| JobsList.JobFromUrl | src/hooks/useJobsList.js:43-51 | the picked job is the first listed job with a present `jobId` that prints as the URL id, every earlier job having a present, different `jobId`; no match iff no job has that id and none lacks one; a throw iff a job without `jobId` comes before any match |
| JobsList.JobFromUrlThrowsOnlyOnMissingIds | src/hooks/useJobsList.js:44 | the lookup throws only on a job without `jobId`; when every job has one, a job is picked iff some id prints as the URL id |
| JobsList.RefreshedSelection | src/hooks/useJobsList.js:79-103 | only a selected job with the affected `jobId` is replaced, by the refreshed job with that id at the first such index, or by nothing when it is gone |
| JobsList.WithoutJob | src/hooks/useJobsList.js:117 | an ordered subsequence holding exactly the jobs with another `jobId`, every copy of each |
| JobsList.DeleteKeepsSelectionListed | src/hooks/useJobsList.js:117-122 | after a delete, a selection is still listed or has been cleared |
| JobsList.JobsListPage.Load | src/hooks/useJobsList.js:16-66 | the visible jobs are stored first; the URL id selects a job; models are fetched only for a manager; any failure sets 'Failed to fetch jobs data' |
| JobsList.JobsListPage.AddModelToJob | src/hooks/useJobsList.js:68-89 | nothing happens without a selected model; success stores the refetched list, refreshes the selection and clears the chosen model |
| JobsList.JobsListPage.RemoveModelFromJob | src/hooks/useJobsList.js:91-108 | success stores the refetched list and refreshes the selection; failure names the job |
| JobsList.JobsListPage.DeleteJob | src/hooks/useJobsList.js:110-127 | after confirmation, the job is removed and the selection cleared iff it was that job |
| ManagersList.ManagerFromUrl | src/hooks/useManagersList.js:22-30 | the picked manager is the first listed one with a present `managerId` that prints as the URL id, every earlier one having a present, different `managerId`; no match iff none matches and none lacks an id; a throw iff a manager without `managerId` comes before any match |
| ManagersList.WithoutManager | src/hooks/useManagersList.js:52 | an ordered subsequence holding exactly the managers with another id, every copy of each |
| ManagersList.SelectionAfterDelete | src/hooks/useManagersList.js:55-61 | a selection with another id stays; the deleted selection becomes the first manager with another id when more than one existed, else null |
| ManagersList.SelectionMovesToFirstRemaining | src/hooks/useManagersList.js:52-61 | a listed, deleted selection moves to the head of the remaining list, or to null when none remains |
| ManagersList.DeleteKeepsSelectionListed | src/hooks/useManagersList.js:52-61 | after a delete, the selection is still listed or null |
| ManagersList.ManagersPage.Load | src/hooks/useManagersList.js:14-44 | the list is stored; a URL id selects its manager; without an id the first manager is selected; failures set 'Failed to fetch managers' |
| ManagersList.ManagersPage.DeleteManager | src/hooks/useManagersList.js:46-66 | after confirmation, success removes the manager and reselects; failure keeps everything and sets the error |
| ModelsList.ModelFromUrl | src/hooks/useModelsList.js:23-33 | the model at the first index whose truthy `id` or `modelId` prints as the URL id; none when no model matches |
| ModelsList.ZeroIdNeverMatches | src/hooks/useModelsList.js:24-27 | a model whose ids are both 0 can never be selected from the URL |
| ModelsList.WithoutModel | src/hooks/useModelsList.js:58 | an ordered subsequence holding exactly the models whose `id` and `modelId` both differ from the deleted id, every copy of each |
| ModelsList.SelectionAfterDelete | src/hooks/useModelsList.js:60-62 | the selection is cleared iff its `id` or `modelId` is the deleted id |
| ModelsList.DeleteKeepsSelectionListed | src/hooks/useModelsList.js:58-62 | after a delete, the selection is still listed or null |
| ModelsList.FormatDate | src/hooks/useModelsList.js:70-73 | 'N/A' for an empty date, otherwise the locale's rendering |
| ModelsList.ModelsPage.Load | src/hooks/useModelsList.js:15-48 | only a manager fetches; the list is stored and a URL id selects its model; failure sets 'Failed to fetch models' |
| ModelsList.ModelsPage.DeleteModel | src/hooks/useModelsList.js:51-67 | after confirmation, success removes the model and clears a matching selection; failure sets 'Failed to delete model' |
| ModelJobs.EmailNamesModel | src/hooks/useModelJobs.js:24 | the case-insensitive email test holds iff the user's email is a string equal to the route id up to case; it throws on a non-string email |
| ModelJobs.EffectPermission | src/hooks/useModelJobs.js:21-24 | access is granted iff the user is a manager, or a model with a truthy id that prints as the route id or whose email names it; otherwise it is refused, or it throws when a non-matching model's email is not a string |
| ModelJobs.CanViewModelJobs | src/hooks/useModelJobs.js:85-90 | managers pass; otherwise it needs a model whose id prints as the route id or whose email names it |
| ModelJobs.EffectPermissionImpliesCanView | src/hooks/useModelJobs.js:21-90 | whoever the effect lets through is shown as allowed |
| ModelJobs.CanViewWithoutModelId | src/hooks/useModelJobs.js:21-90 | a model without an id on the route 'null' is shown as allowed while the effect refuses it |
| ModelJobs.ClassifyError | src/hooks/useModelJobs.js:65-75 | '404' first, then '401' or '403', then '400', else the message itself |
| ModelJobs.AxiosNotFoundShowsModelNotFound | src/hooks/useModelJobs.js:48-68 | a 404 without a body message keeps axios's text through the client and shows 'Model not found' |
| ModelJobs.ServerMessageShownAsIs | src/hooks/useModelJobs.js:48-75 | a 404 explained in its body without a status code shows the server's text |
| ModelJobs.ModelDetails.EnsureJobsArray | src/hooks/useModelJobs.js:53-58 | afterwards `jobs` is an array: the old one if there was one, else empty |
| ModelJobs.ModelJobsPage.Load | src/hooks/useModelJobs.js:11-82 | denied permission sets the error and fetches nothing; the jobs endpoint is used, else the model endpoint; the data always gets a jobs array; a failure is classified |
| JobDetail.ExpensesPath | src/hooks/useJobDetail.js:24-27 | the path lies under '/models/' |
| JobDetail.ExpensesNavigation | src/hooks/useJobDetail.js:19-31 | with no user nothing happens; a model with an id goes to its own page; otherwise a manager whose job has a truthy `modelId` goes to that model's page, and only then; otherwise the error is shown |
| JobDetail.ModelNavigatesToOwnExpenses | src/hooks/useJobDetail.js:23-24 | a model with an email always goes to its own expenses page |
| JobDetail.VisibleExpenses | src/hooks/useJobDetail.js:41-45 | a model that is not a manager and has an id sees exactly its own expenses, in order, every copy of each; everyone else sees all |
| JobDetail.ModelIds | src/hooks/useJobDetail.js:50 | the model id of each expense, in order |
| JobDetail.Distinct | src/hooks/useJobDetail.js:50 | exactly the values of the list, each appearing once |
| JobDetail.DistinctInFirstOrder | src/hooks/useJobDetail.js:50 | the values come in order of first appearance: each occurs in the list before the first occurrence of every later value |
| JobDetail.ModelsMapKeys | src/hooks/useJobDetail.js:53-61 | every key of the map is the printed form of an id whose model was fetched |
| JobDetail.ModelsMapLookup | src/hooks/useJobDetail.js:53-61 | for ids that print differently, the map holds exactly the fetched model of each id |
| JobDetail.BuildModelsMap | src/hooks/useJobDetail.js:53-61 | the `for` loop fills the map as specified, skipping failed fetches |
| JobDetail.ModelName | src/hooks/useJobDetail.js:65-68 | 'first last' of the fetched model, else 'Model #<id>'; never empty |
| JobDetail.Enrich | src/hooks/useJobDetail.js:64-70 | each expense gains a non-empty name and is otherwise unchanged |
| JobDetail.RefreshedExpenses | src/hooks/useJobDetail.js:38-71 | the visible expenses unchanged when there are none or the first has a name; otherwise each visible expense named by `ModelName` against the map of models fetched once per distinct id, nothing else changed, every name non-empty |
| JobDetail.FetchedModelNamesExpense | src/hooks/useJobDetail.js:48-71 | an expense whose model was fetched is named after that model |
| JobDetail.JobDetailPage.RefreshExpenses | src/hooks/useJobDetail.js:34-79 | without a job id nothing happens; failure sets the expense error; success stores the refreshed expenses and clears that error |
| JobDetail.JobDetailPage.Load | src/hooks/useJobDetail.js:82-109 | without a job id the error is 'No job ID provided' and nothing else changes; a rejected job fetch sets its error and nothing else changes; otherwise the job is stored, then the expenses are refreshed |
| JobDetail.JobDetailPage.GoToModelExpenses | src/hooks/useJobDetail.js:19-31 | navigates as `ExpensesNavigation` decides, or sets its error |
| ProtectedRoute.Guard | src/components/ProtectedRoute.jsx:4-16 | redirect to '/login' iff nobody is signed in; redirect to '/dashboard' iff a manager is required and the user is not one |
| ProtectedRoute.GuardAdmitsExactly | src/components/ProtectedRoute.jsx:4-15 | a page renders iff the user is signed in and, when required, is a manager; a manager-only page admits a subset |
| ProtectedRoute.LogoutClosesEveryPage | src/components/ProtectedRoute.jsx:7-9 | after logout every guarded page redirects to '/login' |
| Layout.LayoutModelId | src/components/Layout.jsx:7 | `getModelId` is consulted only for a model; otherwise null |
| Layout.NavEntries | src/components/Layout.jsx:22-41 | Dashboard and Jobs always come first; the six management links appear iff the user is a manager; 'My Expenses' points at the model's own page |
| Layout.NavEntriesByRole | src/components/Layout.jsx:10-41 | management links and 'My Expenses' never appear together; a model with an email always gets 'My Expenses' |
| Layout.ActiveMeansAtOrBelow | src/components/Layout.jsx:73 | a link is active iff the path is its target or continues it with '/', so '/jobsX' does not activate '/jobs' |

## Left out

- HTTP, axios set-up and request headers (src/services/api.js:20-62). Backend answers are inputs.
- `window.location` redirects and `navigate` calls are left out. `goToModelExpenses` returns the path instead.
- `atob`, `decodeURIComponent` and `JSON.parse` are the parameter `decode`. Payloads that are not JSON objects are not modelled.
- Concurrency is not modelled: the interleaving of `loadModelData` with `logout`, effect ordering and dependency re-runs. Each handler is one sequential step.
- Loading flags (`loading`, `modelLoading`) are left out.
- Clock and locale: `Date.now` is the parameter `nowMs`, and `toLocaleDateString` is a parameter.
- `IsTokenExpired`: a numeric `exp` is an integer number of seconds; fractional or string `exp` values are not modelled.
- Floating-point amounts, dates and `toFixed` are left out. Expenses carry no amount or date.
- `Js.Lower` maps ASCII letters only. JavaScript's `toLowerCase` also maps non-ASCII letters.
- The texts of engine `TypeError`s, such as the one raised by `toLowerCase` on a non-string email, are written as V8 words them.
- Form state in `useModelExpenses` (`newExpense`, `editFormData`, the input handlers, `cancelEditExpense`) is left out. So are the body `saveEditExpense` sends, the `jobId` query parameter and the `modelDetails` fetch. None of them takes part in a list rule.
- `AuthContext`'s `getFullName`, `getModelJobs`, `refreshModelData`, `clearAuthError` and `clearModelError` are left out, as are `auth.js`'s `changePassword`. They are plain forwards or setters without a rule of their own.
- `formatDate` in `useJobsList` and `useModelJobs` is left out. It returns '' for an empty date and otherwise depends only on the locale.
- `useJobDetail` reads model names from a plain object, so ids such as 'constructor' would hit inherited properties. The model uses a map.
- DedupeById: `useModelExpenses` counts ids in a plain object (src/hooks/useModelExpenses.js:133-138). An id such as 'constructor' or '__proto__' hits an inherited property: its count becomes a string or is dropped, so it is never found to repeat. When no other id repeats, the source then keeps that id's duplicates. The model counts in a map, so it always finds them.
- `expensesAPI.getJobExpenses` is an input. It is not part of this model.
- JSX rendering, forms, `cn.js` and console logging are left out.

## Findings

| source | as written | input that shows it | evidently intended | confidence | as-written member | corrected member |
|---|---|---|---|---|---|---|
| src/services/api.js:185-188 | `accountAPI.login` tests `error.response?.status === 400`. The error it catches is the response interceptor's `APIError`, which has no `response`. | A login answered with status 400 and body `{message: 'Invalid credentials'}`: the caller receives 'Invalid credentials', not 'Invalid email or password'. | Recognise a 400 by the `APIError`'s `status` too. | high, not executed | Api.LoginBadRequestExample | Api.LoginBadRequestRecognised |

=== FILE: api.dfy ===
/**
 * The error side of the REST client in src/services/api.js: the `APIError`
 * shape, the response interceptor's classification of failed requests,
 * `handleApiError`'s status table, the special cases of `accountAPI.login`
 * and `modelsAPI.getModelJobs`, and how `updateExpense` shapes its request.
 * The HTTP calls themselves are not modelled: their outcomes are inputs.
 */
module Api {
  import opened Js
  import opened Wrappers
  import Storage

  /** `response.data` of a failed request. In an object body a missing or falsy
      `message`/`error` is the empty string; `errors` is present when it is an
      object, each of its values given as the list of strings it flattens to. */
  datatype Body =
    | NoBody
    | TextBody(text: string)
    | ObjectBody(message: string, error: string, errors: Option<seq<seq<string>>>)

  /** `!!data`. */
  predicate BodyTruthy(data: Body) {
    data.ObjectBody? || (data.TextBody? && data.text != "")
  }

  /** `data?.message`, with "" for a missing or falsy message. */
  function BodyMessage(data: Body): string {
    if data.ObjectBody? then data.message else ""
  }

  datatype HttpResponse = HttpResponse(status: int, data: Body)

  /** A thrown value. `ApiError` is `new APIError(message, status, data)`, with
      `None` for a null or undefined status. `JsError` is any other `Error`, with
      the `code`, `response` and `request` that axios attaches ("" / None / false
      when absent). */
  datatype ErrorValue =
    | Text(text: string)
    | ApiError(message: string, status: Option<int>, data: Body)
    | JsError(message: string, code: string, response: Option<HttpResponse>, requestSent: bool)

  /** The outcome of one backend call. */
  type Call<T> = Fetch<T, ErrorValue>

  /** `error.response?.status`. */
  function ResponseStatus(e: ErrorValue): Option<int> {
    if e.JsError? && e.response.Some? then Some(e.response.value.status) else None
  }

  /** `error.status`: only an `APIError` carries one. */
  function StatusOf(e: ErrorValue): Option<int> {
    if e.ApiError? then e.status else None
  }

  const TimeoutMessage := "Request timed out. Please try again later."
  const NetworkMessage := "Network error. Please check your connection."

  // ---------------------------------------------------------------------------
  // The response interceptor.

  /** What the response interceptor does with a failed request: whether it
      clears the stored token, and the `APIError` it rejects with. */
  datatype Interception = Interception(clearsToken: bool, rejected: ErrorValue)

  /** `error.response?.data?.message || error.message || 'Unknown API error'`. */
  function InterceptedMessage(e: ErrorValue): (msg: string)
    requires e.JsError?
    ensures msg != ""
    ensures e.response.Some? && BodyMessage(e.response.value.data) != "" ==> msg == BodyMessage(e.response.value.data)
    ensures (e.response.None? || BodyMessage(e.response.value.data) == "") && e.message != "" ==> msg == e.message
  {
    var fromBody := if e.response.Some? then BodyMessage(e.response.value.data) else "";
    OrText(fromBody, OrText(e.message, "Unknown API error"))
  }

  /** The classification the response interceptor applies to an axios error. */
  function InterceptResponseError(e: ErrorValue): (r: Interception)
    requires e.JsError?
    ensures r.clearsToken <==> ResponseStatus(e) == Some(401)
    ensures r.rejected.ApiError?
    ensures e.code == "ECONNABORTED" ==> r.rejected == ApiError(TimeoutMessage, Some(408), NoBody)
    ensures e.code != "ECONNABORTED" && e.response.None? ==> r.rejected == ApiError(NetworkMessage, Some(0), NoBody)
    ensures e.code != "ECONNABORTED" && e.response.Some? ==>
      r.rejected == ApiError(InterceptedMessage(e), Some(e.response.value.status), e.response.value.data)
  {
    var clears := e.response.Some? && e.response.value.status == 401;
    if e.code == "ECONNABORTED" then Interception(clears, ApiError(TimeoutMessage, Some(408), NoBody))
    else if e.response.None? then Interception(clears, ApiError(NetworkMessage, Some(0), NoBody))
    else Interception(clears, ApiError(InterceptedMessage(e), Some(e.response.value.status), e.response.value.data))
  }

  /** The interceptor as it runs: it removes the stored token on a 401 and
      rejects with the classified error. Every request made through the client
      fails with what this returns. */
  method OnResponseError(store: Storage.TokenStore, e: ErrorValue) returns (rejected: ErrorValue)
    requires e.JsError?
    modifies store
    ensures rejected == InterceptResponseError(e).rejected
    ensures store.token == if ResponseStatus(e) == Some(401) then None else old(store.token)
  {
    if e.response.Some? && e.response.value.status == 401 {
      store.Remove();
    }
    rejected := InterceptResponseError(e).rejected;
  }

  // ---------------------------------------------------------------------------
  // handleApiError: every endpoint's catch block.

  /** The message `handleApiError` gives a response with this status. */
  function StatusText(status: int, data: Body, operation: string): string {
    if status == 400 then "Invalid request: " + OrText(BodyMessage(data), "Bad request")
    else if status == 401 then "Unauthorized: Please login again"
    else if status == 403 then "Forbidden: You do not have permission to perform this action"
    else if status == 404 then "Resource not found for this " + operation
    else if status == 409 then "Conflict: This operation conflicts with the current state"
    else if status == 422 then "Validation error: " + OrText(BodyMessage(data), "Invalid data provided")
    else if status == 500 then "Server error: Please try again later"
    else "Error (" + IntToDecimal(status) + "): " + OrText(BodyMessage(data), "Unknown error")
  }

  /** `handleApiError(error, operation)`: it never returns normally; this is the
      error it throws. An `APIError` is rethrown unchanged; a response keeps its
      status and body; a request without a response is a timeout (408) or a
      network failure (0). */
  function HandleApiError(e: ErrorValue, operation: string): (thrown: ErrorValue)
    ensures thrown.ApiError?
    ensures e.ApiError? ==> thrown == e
    ensures ResponseStatus(e).Some? ==>
      thrown.status == ResponseStatus(e) && thrown.data == e.response.value.data &&
      thrown.message == StatusText(e.response.value.status, e.response.value.data, operation)
    ensures e.JsError? && e.response.None? && e.requestSent ==>
      thrown == (if e.code == "ECONNABORTED" then ApiError(TimeoutMessage, Some(408), NoBody)
                 else ApiError(NetworkMessage, Some(0), NoBody))
    ensures e.JsError? && e.response.None? && !e.requestSent ==>
      thrown == ApiError("Error setting up request: " + e.message, None, NoBody)
  {
    match e
    case ApiError(_, _, _) => e
    case Text(_) => ApiError("Error setting up request: undefined", None, NoBody)
    case JsError(message, code, response, requestSent) =>
      if response.Some? then
        ApiError(StatusText(response.value.status, response.value.data, operation), Some(response.value.status), response.value.data)
      else if requestSent then
        if code == "ECONNABORTED" then ApiError(TimeoutMessage, Some(408), NoBody)
        else ApiError(NetworkMessage, Some(0), NoBody)
      else ApiError("Error setting up request: " + message, None, NoBody)
  }

  /** The fixed messages of `handleApiError`'s status table; 400 and 422 embed the
      server's message or a default, 404 names the operation, any other status
      is reported with its number. */
  lemma HandleApiErrorTable(status: int, data: Body, operation: string)
    ensures var t := HandleApiError(JsError("", "", Some(HttpResponse(status, data)), true), operation);
      && (status == 401 ==> t.message == "Unauthorized: Please login again")
      && (status == 403 ==> t.message == "Forbidden: You do not have permission to perform this action")
      && (status == 404 ==> t.message == "Resource not found for this " + operation)
      && (status == 409 ==> t.message == "Conflict: This operation conflicts with the current state")
      && (status == 500 ==> t.message == "Server error: Please try again later")
      && (status == 400 ==> t.message == "Invalid request: " + (if BodyMessage(data) != "" then BodyMessage(data) else "Bad request"))
      && (status == 422 ==> t.message == "Validation error: " + (if BodyMessage(data) != "" then BodyMessage(data) else "Invalid data provided"))
      && (status !in {400, 401, 403, 404, 409, 422, 500} ==>
            t.message == "Error (" + IntToDecimal(status) + "): " + (if BodyMessage(data) != "" then BodyMessage(data) else "Unknown error"))
  {
    assert HandleApiError(JsError("", "", Some(HttpResponse(status, data)), true), operation).message
      == StatusText(status, data, operation);
  }

  // ---------------------------------------------------------------------------
  // Endpoint-specific error handling.

  /** The error `accountAPI.login` throws when the request fails: a response
      with status 400 becomes 'Invalid email or password'; anything else goes
      through `handleApiError`. */
  function AccountLoginError(e: ErrorValue): (thrown: ErrorValue)
    ensures thrown.ApiError?
    ensures ResponseStatus(e) == Some(400) ==> thrown == ApiError("Invalid email or password", Some(400), NoBody)
    ensures ResponseStatus(e) != Some(400) ==> thrown == HandleApiError(e, "login")
  {
    if ResponseStatus(e) == Some(400) then ApiError("Invalid email or password", Some(400), NoBody)
    else HandleApiError(e, "login")
  }

  /** As written, the 400 branch of `accountAPI.login` never fires for a request
      made through the client: the error its catch block sees is the one the
      response interceptor rejected with, an `APIError` without a `response`,
      so it is passed on unchanged. */
  lemma LoginBadRequestUnrecognised(raw: ErrorValue)
    requires raw.JsError?
    ensures AccountLoginError(InterceptResponseError(raw).rejected) == InterceptResponseError(raw).rejected
  {
  }

  /** A 400 from the login endpoint whose body says 'Invalid credentials' reaches
      the caller with the server's message, not 'Invalid email or password'. */
  lemma LoginBadRequestExample()
    ensures
      var raw := JsError("Request failed with status code 400", "ERR_BAD_REQUEST",
                         Some(HttpResponse(400, ObjectBody("Invalid credentials", "", None))), true);
      AccountLoginError(InterceptResponseError(raw).rejected).message == "Invalid credentials"
  {
    var raw := JsError("Request failed with status code 400", "ERR_BAD_REQUEST",
                       Some(HttpResponse(400, ObjectBody("Invalid credentials", "", None))), true);
    assert InterceptedMessage(raw) == "Invalid credentials";
  }

  /** The login error handling as intended: a 400 is recognised whether it
      arrives as a raw response or as the interceptor's `APIError`. */
  function AccountLoginErrorChecked(e: ErrorValue): (thrown: ErrorValue)
    ensures thrown.ApiError?
    ensures ResponseStatus(e) == Some(400) || StatusOf(e) == Some(400) ==>
      thrown == ApiError("Invalid email or password", Some(400), NoBody)
    ensures ResponseStatus(e) != Some(400) && StatusOf(e) != Some(400) ==> thrown == HandleApiError(e, "login")
  {
    if ResponseStatus(e) == Some(400) || StatusOf(e) == Some(400) then ApiError("Invalid email or password", Some(400), NoBody)
    else HandleApiError(e, "login")
  }

  /** With the check on the `APIError`'s status, every 400 response to a login
      request that did not time out ends as 'Invalid email or password'. */
  lemma LoginBadRequestRecognised(raw: ErrorValue)
    requires raw.JsError? && ResponseStatus(raw) == Some(400) && raw.code != "ECONNABORTED"
    ensures AccountLoginErrorChecked(InterceptResponseError(raw).rejected) == ApiError("Invalid email or password", Some(400), NoBody)
  {
    assert StatusOf(InterceptResponseError(raw).rejected) == Some(400);
  }

  /** The error `modelsAPI.getModelJobs` throws for a model id: 404, 401 and 400
      responses get their own messages; anything else goes through `handleApiError`. */
  function ModelJobsError(e: ErrorValue, id: Value): (thrown: ErrorValue)
    ensures thrown.ApiError?
    ensures ResponseStatus(e) == Some(404) ==> thrown == ApiError("Model with ID " + ToStr(id) + " not found", Some(404), NoBody)
    ensures ResponseStatus(e) == Some(401) ==> thrown == ApiError("You are not authorized to view these jobs", Some(401), NoBody)
    ensures ResponseStatus(e) == Some(400) ==>
      thrown == ApiError("Invalid request parameters: " + OrText(BodyMessage(e.response.value.data), "Check model ID format"), Some(400), NoBody)
    ensures ResponseStatus(e) !in {Some(400), Some(401), Some(404)} ==>
      thrown == HandleApiError(e, "retrieving jobs for model " + ToStr(id))
  {
    var status := ResponseStatus(e);
    if status == Some(404) then ApiError("Model with ID " + ToStr(id) + " not found", Some(404), NoBody)
    else if status == Some(401) then ApiError("You are not authorized to view these jobs", Some(401), NoBody)
    else if status == Some(400) then
      ApiError("Invalid request parameters: " + OrText(BodyMessage(e.response.value.data), "Check model ID format"), Some(400), NoBody)
    else HandleApiError(e, "retrieving jobs for model " + ToStr(id))
  }

  // ---------------------------------------------------------------------------
  // updateExpense request shaping.

  /** `obj[key]`, undefined when the key is missing. */
  function Field(obj: map<string, Value>, key: string): Value {
    if key in obj then obj[key] else Undefined
  }

  datatype UpdateRequest = UpdateRequest(path: string, body: map<string, Value>)

  /** The PUT that `expensesAPI.updateExpense(id, expenseData)` sends: it targets
      `expenseData.expenseId || id`, and its body is `expenseData` without the
      `expenseId` key, every other key unchanged. */
  function UpdateExpenseRequest(id: Value, expenseData: map<string, Value>): (req: UpdateRequest)
    ensures req.path == "/Expenses/" + ToStr(Or(Field(expenseData, "expenseId"), id))
    ensures "expenseId" !in req.body
    ensures req.body.Keys == expenseData.Keys - {"expenseId"}
    ensures forall k :: k in req.body ==> req.body[k] == expenseData[k]
  {
    var target := Or(Field(expenseData, "expenseId"), id);
    UpdateRequest("/Expenses/" + ToStr(target), map k | k in expenseData && k != "expenseId" :: expenseData[k])
  }
}

=== FILE: auth_context.dfy ===
/**
 * The session kept by src/context/AuthContext.jsx: who is signed in, the
 * stored token, the signed-in model's record, and the two error slots.
 *
 * Each handler is one sequential step. A step function computes the new
 * session from the old one and from the handler's inputs: backend replies,
 * the clock, and the token decoder. The `Session` class carries the same
 * fields and applies the steps in place. `loadModelData` reads `currentUser`
 * from the render that created it, so that value is the explicit parameter
 * `captured`: at startup it is null, and so it is right after a `login`
 * made while nobody was signed in.
 */
module AuthContext {
  import opened Js
  import opened Wrappers
  import opened Sequences
  import opened Api
  import opened AuthService
  import opened Entities
  import ErrorHandling
  import Storage

  const EmailClaim := "http://schemas.xmlsoap.org/ws/2005/05/identity/claims/emailaddress"
  const RoleClaim := "http://schemas.microsoft.com/ws/2008/06/identity/claims/role"
  const NameIdClaim := "http://schemas.xmlsoap.org/ws/2005/05/identity/claims/nameidentifier"

  /** What `parseTokenClaims` extracts from a decoded token. */
  datatype Claims = Claims(email: Value, role: Value, sub: Value, firstName: Value, lastName: Value, name: Value, modelId: Value)

  /** `parseTokenClaims(decodedToken)`. */
  function ParseTokenClaims(p: Payload): (c: Claims)
    ensures Truthy(Claim(p, EmailClaim)) ==> c.email == Claim(p, EmailClaim)
    ensures !Truthy(Claim(p, EmailClaim)) && Truthy(Claim(p, "email")) ==> c.email == Claim(p, "email")
    ensures !Truthy(Claim(p, EmailClaim)) && !Truthy(Claim(p, "email")) ==> c.email == Str("")
    ensures Truthy(Claim(p, RoleClaim)) ==> c.role == Claim(p, RoleClaim)
    ensures !Truthy(Claim(p, RoleClaim)) && Truthy(Claim(p, "role")) ==> c.role == Claim(p, "role")
    ensures !Truthy(Claim(p, RoleClaim)) && !Truthy(Claim(p, "role")) ==> c.role == Str("")
    ensures Truthy(Claim(p, "ModelId")) ==> c.modelId == Claim(p, "ModelId")
    ensures !Truthy(Claim(p, "ModelId")) && Truthy(Claim(p, "modelId")) ==> c.modelId == Claim(p, "modelId")
    ensures !Truthy(Claim(p, "ModelId")) && !Truthy(Claim(p, "modelId")) ==> c.modelId == Null
    ensures c.firstName == Or(Claim(p, "firstName"), Or(Claim(p, "given_name"), Str("")))
    ensures c.lastName == Or(Claim(p, "lastName"), Or(Claim(p, "family_name"), Str("")))
  {
    Claims(
      email := Or(Claim(p, EmailClaim), Or(Claim(p, "email"), Str(""))),
      role := Or(Claim(p, RoleClaim), Or(Claim(p, "role"), Str(""))),
      sub := Or(Claim(p, "sub"), Or(Claim(p, NameIdClaim), Str(""))),
      firstName := Or(Claim(p, "firstName"), Or(Claim(p, "given_name"), Str(""))),
      lastName := Or(Claim(p, "lastName"), Or(Claim(p, "family_name"), Str(""))),
      name := Or(Claim(p, "name"), Str("")),
      modelId := Or(Claim(p, "ModelId"), Or(Claim(p, "modelId"), Null)))
  }

  /** The signed-in user. Every field is a JavaScript value because the
      `modelId` backfill can build a user from nothing but `modelId`. */
  datatype User = User(email: Value, firstName: Value, lastName: Value, role: Value, isManager: Value, modelId: Value, token: Value)

  /** `{...null}`: an object with no fields. */
  const NoUser := User(Undefined, Undefined, Undefined, Undefined, Undefined, Undefined, Undefined)

  /** The `userData` built from the claims, or `None` when `claims.role` is not
      a string, so `claims.role.toLowerCase()` throws. */
  function MakeUser(c: Claims, token: string): (u: Option<User>)
    ensures u.Some? <==> c.role.Str?
    ensures u.Some? ==>
      u.value.role == c.role && u.value.email == c.email && u.value.modelId == c.modelId &&
      u.value.token == Str(token) && u.value.isManager == Bool(Lower(c.role.s) == "manager")
  {
    if c.role.Str? then
      Some(User(c.email, c.firstName, c.lastName, c.role, Bool(Lower(c.role.s) == "manager"), c.modelId, Str(token)))
    else None
  }

  /** The identifier `loadModelData` is started with after a sign-in, if any:
      `claims.modelId || userData.email` for a user with a model id or the
      model role. */
  function ModelToLoad(c: Claims, u: User): (id: Option<Value>)
    requires c.role.Str?
    ensures id.Some? <==> Truthy(c.modelId) || Lower(c.role.s) == "model"
    ensures id.Some? ==> id.value == (if Truthy(c.modelId) then c.modelId else u.email)
  {
    if Truthy(c.modelId) || Lower(c.role.s) == "model" then Some(Or(c.modelId, u.email)) else None
  }

  /** `decodedToken.exp && decodedToken.exp < Date.now() / 1000`, with the clock
      in milliseconds. A numeric `exp` is compared exactly; `true` counts as 1. */
  predicate ExpiredAt(p: Payload, nowMs: int) {
    match Claim(p, "exp")
    case Num(n) => n != 0 && n * 1000 < nowMs
    case Bool(b) => b && 1000 < nowMs
    case _ => false
  }

  /** `isTokenExpired(token)`. */
  function IsTokenExpired(token: string, decode: string -> Option<Payload>, nowMs: int): (expired: bool)
    ensures DecodeToken(token, decode).Failure? ==> expired
    ensures DecodeToken(token, decode).Success? && !Truthy(Claim(DecodeToken(token, decode).value, "exp")) ==> !expired
    ensures DecodeToken(token, decode).Success? && Claim(DecodeToken(token, decode).value, "exp").Num? ==>
      (expired <==> Claim(DecodeToken(token, decode).value, "exp").n != 0 &&
                    Claim(DecodeToken(token, decode).value, "exp").n * 1000 < nowMs)
  {
    match DecodeToken(token, decode)
    case Failure(_) => true
    case Success(p) => ExpiredAt(p, nowMs)
  }

  /** The session, with `None` for null. */
  datatype State = State(
    token: Option<string>,
    currentUser: Option<User>,
    modelData: Option<ModelRecord>,
    modelError: Option<string>,
    authError: Option<string>)

  /** The session before the startup effect runs. */
  function Initial(stored: Option<string>): State {
    State(stored, None, None, None, None)
  }

  // ---------------------------------------------------------------------------
  // Derived values.

  /** `!!currentUser`. */
  predicate IsAuthenticated(s: State) {
    s.currentUser.Some?
  }

  /** `currentUser?.isManager || false`. */
  predicate IsManager(s: State) {
    s.currentUser.Some? && Truthy(s.currentUser.value.isManager)
  }

  /** `currentUser.role?.toLowerCase() === role`. */
  predicate HasRole(u: User, role: string) {
    u.role.Str? && Lower(u.role.s) == role
  }

  /** `currentUser ? (role is 'model' || !!currentUser.modelId) : false`. */
  predicate IsModel(s: State) {
    s.currentUser.Some? && (HasRole(s.currentUser.value, "model") || Truthy(s.currentUser.value.modelId))
  }

  /** For a user signed in from a token, being a manager is exactly having a role
      that lower-cases to 'manager'; only a signed-in user can be a manager or a model. */
  lemma SignedInRoles(s: State, c: Claims, token: string)
    requires MakeUser(c, token).Some? && s.currentUser == MakeUser(c, token)
    ensures IsManager(s) <==> Lower(c.role.s) == "manager"
    ensures IsModel(s) <==> Lower(c.role.s) == "model" || Truthy(c.modelId)
    ensures IsAuthenticated(s)
  {
  }

  /** `getModelId()`: the user's `modelId`, else the model record's `id`, else
      the email of a user with the model role, else null. */
  function GetModelId(s: State): (id: Value)
    ensures Truthy(id) || id == Null
    ensures s.currentUser.Some? && Truthy(s.currentUser.value.modelId) ==> id == s.currentUser.value.modelId
    ensures (!(s.currentUser.Some? && Truthy(s.currentUser.value.modelId)) &&
             s.modelData.Some? && Truthy(s.modelData.value.id)) ==> id == s.modelData.value.id
    ensures (!(s.currentUser.Some? && Truthy(s.currentUser.value.modelId)) &&
             !(s.modelData.Some? && Truthy(s.modelData.value.id))) ==>
      id == (if s.currentUser.Some? && HasRole(s.currentUser.value, "model") && Truthy(s.currentUser.value.email)
             then s.currentUser.value.email else Null)
  {
    if s.currentUser.Some? && Truthy(s.currentUser.value.modelId) then s.currentUser.value.modelId
    else if s.modelData.Some? && Truthy(s.modelData.value.id) then s.modelData.value.id
    else if s.currentUser.Some? && HasRole(s.currentUser.value, "model") && Truthy(s.currentUser.value.email) then s.currentUser.value.email
    else Null
  }

  /** A model that has an email always has some id to go by. */
  lemma ModelHasModelId(s: State)
    requires IsModel(s) && Truthy(s.currentUser.value.email)
    ensures Truthy(GetModelId(s))
  {
  }

  // ---------------------------------------------------------------------------
  // Startup.

  /** What the startup effect leaves behind, and the identifier it starts
      `loadModelData` with (with `captured` null), if any. */
  datatype Startup = Startup(state: State, load: Option<Value>)

  /** The startup effect: a missing or empty (falsy) stored token is left
      alone; an expired or undecodable one, or one whose role claim is not a
      string, is removed; otherwise its user is signed in. */
  function StartupStep(s: State, decode: string -> Option<Payload>, nowMs: int): (r: Startup)
    ensures s.token.None? || s.token == Some("") ==> r == Startup(s, None)
    ensures s.token.Some? && s.token.value != "" && IsTokenExpired(s.token.value, decode, nowMs) ==>
      r == Startup(s.(token := None), None)
    ensures r.state.modelData == s.modelData && r.state.modelError == s.modelError && r.state.authError == s.authError
    ensures r.state.token == s.token || r.state.token.None?
    ensures r.state.currentUser != s.currentUser ==>
      r.state.token == s.token && r.state.token.Some? && r.state.token.value != "" && r.state.currentUser.Some? &&
      r.state.currentUser.value.token == Str(s.token.value) && !IsTokenExpired(s.token.value, decode, nowMs)
    ensures r.load.Some? ==> r.state.currentUser.Some?
    ensures s.token.Some? && s.token.value != "" && !IsTokenExpired(s.token.value, decode, nowMs) ==>
      var t := s.token.value;
      var c := ParseTokenClaims(DecodeToken(t, decode).value);
      if MakeUser(c, t).Some? then r == Startup(s.(currentUser := MakeUser(c, t)), ModelToLoad(c, MakeUser(c, t).value))
      else r == Startup(s.(token := None), None)
  {
    match s.token
    case None => Startup(s, None)
    case Some(t) =>
      if t == "" then Startup(s, None)
      else
      match DecodeToken(t, decode)
      case Failure(_) => Startup(s.(token := None), None)
      case Success(p) =>
        if ExpiredAt(p, nowMs) then Startup(s.(token := None), None)
        else
          var c := ParseTokenClaims(p);
          match MakeUser(c, t)
          case None => Startup(s.(token := None), None)
          case Some(u) => Startup(s.(currentUser := Some(u)), ModelToLoad(c, u))
  }

  /** On a fresh page, a user is signed in exactly when a non-empty stored
      token is kept: such a token survives iff it decodes, has not expired, and
      carries a string role, and then the user is the one its claims describe.
      An empty stored token is skipped: it stays stored, nobody is signed in
      and nothing is loaded. */
  lemma StartupSignsInIffTokenKept(stored: Option<string>, decode: string -> Option<Payload>, nowMs: int)
    ensures var r := StartupStep(Initial(stored), decode, nowMs).state;
      && (r.currentUser.Some? <==> r.token.Some? && r.token.value != "")
      && (r.token.Some? <==>
            stored.Some? &&
            (stored.value == "" ||
             (!IsTokenExpired(stored.value, decode, nowMs) &&
              MakeUser(ParseTokenClaims(DecodeToken(stored.value, decode).value), stored.value).Some?)))
      && (r.currentUser.Some? ==>
            r.currentUser == MakeUser(ParseTokenClaims(DecodeToken(stored.value, decode).value), stored.value))
    ensures stored == Some("") ==>
      StartupStep(Initial(stored), decode, nowMs) == Startup(Initial(Some("")), None)
  {
  }

  // ---------------------------------------------------------------------------
  // Login.

  /** What `authService.login` resolves with: a primitive (normally the token
      itself) or an object, of which only `jwt` is read. */
  datatype LoginReply = Prim(v: Value) | Obj(jwt: Value)

  const LoginFallback := "Login failed. Please check your credentials and try again."
  const InvalidResponseMessage := "Authentication failed: Invalid response from server"
  const InvalidTokenMessage := "Authentication failed: Invalid token"
  /** The `TypeError` that reading `null.jwt` raises. */
  const NullReplyMessage := "Cannot read properties of null (reading 'jwt')"

  /** The token `login` takes from the reply: `data.jwt` when the reply is an
      object with a truthy `jwt`, otherwise the reply itself; kept only if it is
      a non-empty string. */
  function ReplyToken(reply: LoginReply): (t: Option<string>)
    ensures t.Some? ==> t.value != ""
    ensures t.Some? <==> (reply.Prim? && reply.v.Str? && reply.v.s != "") || (reply.Obj? && reply.jwt.Str? && reply.jwt.s != "")
  {
    match reply
    case Prim(v) => if v.Str? && v.s != "" then Some(v.s) else None
    case Obj(jwt) => if jwt.Str? && jwt.s != "" then Some(jwt.s) else None
  }

  /** The outcome of a sign-in: the new session, whether `login` resolves to
      true, and the identifier it starts `loadModelData` with, if any. */
  datatype LoginResult = LoginResult(state: State, ok: bool, load: Option<Value>)

  /** `login(email, password)`; `reply` is what the login request resolved
      with, or the error it rejected with. */
  function LoginStep(s: State, reply: Call<LoginReply>, decode: string -> Option<Payload>): (r: LoginResult)
    ensures r.state.modelData == s.modelData && r.state.modelError == s.modelError
    ensures r.ok <==> r.state.authError.None?
    ensures r.ok ==>
      r.state.token.Some? && r.state.currentUser.Some? &&
      r.state.currentUser.value.token == Str(r.state.token.value) &&
      DecodeToken(r.state.token.value, decode).Success?
    ensures !r.ok ==> r.state.currentUser == s.currentUser && r.load.None?
    ensures reply.Rejected? ==>
      r.state == s.(authError := Some(ErrorHandling.FormatErrorMessage(LoginError(reply.error), LoginFallback)))
    ensures reply.Fetched? && reply.value != Prim(Null) && ReplyToken(reply.value).None? ==>
      r.state == s.(authError := Some(InvalidResponseMessage))
    ensures reply.Fetched? && ReplyToken(reply.value).Some? && !r.ok ==>
      r.state == s.(token := None, authError := Some(InvalidTokenMessage))
    ensures reply.Fetched? && ReplyToken(reply.value).Some? ==>
      var t := ReplyToken(reply.value).value;
      (r.ok <==> DecodeToken(t, decode).Success? && MakeUser(ParseTokenClaims(DecodeToken(t, decode).value), t).Some?)
    ensures r.ok ==>
      reply.Fetched? && ReplyToken(reply.value).Some? &&
      var t := ReplyToken(reply.value).value;
      var c := ParseTokenClaims(DecodeToken(t, decode).value);
      r.state == s.(authError := None, token := Some(t), currentUser := MakeUser(c, t)) &&
      r.load == ModelToLoad(c, MakeUser(c, t).value)
  {
    var s1 := s.(authError := None);
    match reply
    case Rejected(e) =>
      LoginResult(s1.(authError := Some(ErrorHandling.FormatErrorMessage(LoginError(e), LoginFallback))), false, None)
    case Fetched(data) =>
      if data == Prim(Null) then
        LoginResult(s1.(authError := Some(ErrorHandling.FormatErrorMessage(JsError(NullReplyMessage, "", None, false), LoginFallback))), false, None)
      else
        match ReplyToken(data)
        case None => LoginResult(s1.(authError := Some(InvalidResponseMessage)), false, None)
        case Some(t) =>
          var stored := s1.(token := Some(t));
          match DecodeToken(t, decode)
          case Failure(_) => LoginResult(stored.(token := None, authError := Some(InvalidTokenMessage)), false, None)
          case Success(p) =>
            var c := ParseTokenClaims(p);
            match MakeUser(c, t)
            case None => LoginResult(stored.(token := None, authError := Some(InvalidTokenMessage)), false, None)
            case Some(u) => LoginResult(stored.(currentUser := Some(u)), true, ModelToLoad(c, u))
  }

  /** A bare token and an object carrying it as `jwt` sign in the same way. */
  lemma LoginAcceptsBothReplyShapes(s: State, t: string, decode: string -> Option<Payload>)
    requires t != ""
    ensures LoginStep(s, Fetched(Prim(Str(t))), decode) == LoginStep(s, Fetched(Obj(Str(t))), decode)
  {
  }

  /** A rejected sign-in always reports the same message: the login request
      fails with an `APIError`, which has no `response` for `login` to read. */
  lemma LoginRejectionMessage(s: State, raw: ErrorValue, decode: string -> Option<Payload>)
    requires raw.JsError?
    ensures LoginStep(s, Rejected(AccountLoginError(InterceptResponseError(raw).rejected)), decode).state.authError ==
      Some("Login failed")
  {
    LoginAlwaysFailsGenerically(raw);
  }

  // ---------------------------------------------------------------------------
  // Logout.

  /** `logout()`: the token, the user and the model record are dropped; the
      error slots are left as they are. */
  function LogoutStep(s: State): (r: State)
    ensures r.token.None? && r.currentUser.None? && r.modelData.None?
    ensures !IsAuthenticated(r) && !IsManager(r) && !IsModel(r) && GetModelId(r) == Null
    ensures r.modelError == s.modelError && r.authError == s.authError
  {
    s.(token := None, currentUser := None, modelData := None)
  }

  /** Logging out twice is logging out once. */
  lemma LogoutIdempotent(s: State)
    ensures LogoutStep(LogoutStep(s)) == LogoutStep(s)
  {
  }

  // ---------------------------------------------------------------------------
  // loadModelData.

  const LoadFallback := "Failed to load model information."
  const NotFoundByEmail := "Model not found by email"
  /** The `TypeError` `currentUser.email.toLowerCase()` raises for a non-string email. */
  const EmailTypeErrorMessage := "currentUser.email.toLowerCase is not a function"

  /** How the model lookup ends: with the record (null when the server sent
      none) or with the error that escapes it. */
  datatype Lookup = Found(data: Option<ModelRecord>) | LookupFailed(error: ErrorValue)

  /** `model.email && model.email.toLowerCase() === email.toLowerCase()`. */
  predicate EmailMatches(m: ModelRecord, email: string) {
    m.email != "" && Lower(m.email) == Lower(email)
  }

  /** The search by email after a 404: the first model whose email matches
      ignoring case, or 'Model not found by email'. */
  function FindByEmail(models: seq<ModelRecord>, email: Value): (r: Lookup)
    ensures email.Str? && (exists i :: 0 <= i < |models| && EmailMatches(models[i], email.s)) ==>
      exists i :: 0 <= i < |models| && EmailMatches(models[i], email.s) && r == Found(Some(models[i])) &&
        forall k :: 0 <= k < i ==> !EmailMatches(models[k], email.s)
    ensures email.Str? && (forall i :: 0 <= i < |models| ==> !EmailMatches(models[i], email.s)) ==>
      r == LookupFailed(JsError(NotFoundByEmail, "", None, false))
    ensures !email.Str? ==> r.LookupFailed?
  {
    if email.Str? then
      FindSpec(models, m => EmailMatches(m, email.s));
      match Find(models, m => EmailMatches(m, email.s))
      case Some(m) => Found(Some(m))
      case None => LookupFailed(JsError(NotFoundByEmail, "", None, false))
    else if Find(models, (m: ModelRecord) => m.email != "").Some? then LookupFailed(JsError(EmailTypeErrorMessage, "", None, false))
    else LookupFailed(JsError(NotFoundByEmail, "", None, false))
  }

  /** The lookup ladder: the model by id; after a 404, and only when the
      captured user has an email, the search through all models by email. */
  function ModelLookup(captured: Option<User>, byId: Call<Option<ModelRecord>>, all: Call<seq<ModelRecord>>): (r: Lookup)
    ensures byId.Fetched? ==> r == Found(byId.value)
    ensures byId.Rejected? && !(StatusOf(byId.error) == Some(404) && captured.Some? && Truthy(captured.value.email)) ==>
      r == LookupFailed(byId.error)
    ensures byId.Rejected? && StatusOf(byId.error) == Some(404) && captured.Some? && Truthy(captured.value.email) ==>
      r == match all
           case Rejected(e) => LookupFailed(e)
           case Fetched(models) => FindByEmail(models, captured.value.email)
  {
    match byId
    case Fetched(d) => Found(d)
    case Rejected(e) =>
      if StatusOf(e) == Some(404) && captured.Some? && Truthy(captured.value.email) then
        match all
        case Rejected(e2) => LookupFailed(e2)
        case Fetched(models) => FindByEmail(models, captured.value.email)
      else LookupFailed(e)
  }

  /** `{...prevUser, modelId: id}`. */
  function Backfilled(prev: Option<User>, id: Value): (u: User)
    ensures prev.Some? ==> u == prev.value.(modelId := id)
    ensures prev.None? ==> u == NoUser.(modelId := id)
  {
    (if prev.Some? then prev.value else NoUser).(modelId := id)
  }

  /** `loadModelData(identifier)`, with `captured` the `currentUser` of the
      render that created it. */
  function LoadModelDataStep(s: State, identifier: Value, captured: Option<User>,
                             byId: Call<Option<ModelRecord>>, all: Call<seq<ModelRecord>>): (r: State)
    ensures !Truthy(identifier) ==> r == s
    ensures r.token == s.token && r.authError == s.authError
    ensures captured.None? ==> r.currentUser == s.currentUser
    ensures Truthy(identifier) && ModelLookup(captured, byId, all).LookupFailed? ==>
      r == s.(modelError := Some(ErrorHandling.FormatErrorMessage(ModelLookup(captured, byId, all).error, LoadFallback)))
    ensures Truthy(identifier) && ModelLookup(captured, byId, all).Found? ==>
      r.modelError.None? && r.modelData == ModelLookup(captured, byId, all).data
    ensures Truthy(identifier) && ModelLookup(captured, byId, all).Found? ==>
      var d := ModelLookup(captured, byId, all).data;
      r.currentUser == if d.Some? && Truthy(d.value.id) && captured.Some? then Some(Backfilled(s.currentUser, d.value.id))
                       else s.currentUser
  {
    if !Truthy(identifier) then s
    else
      match ModelLookup(captured, byId, all)
      case LookupFailed(e) => s.(modelError := Some(ErrorHandling.FormatErrorMessage(e, LoadFallback)))
      case Found(d) =>
        var user := if d.Some? && Truthy(d.value.id) && captured.Some? then Some(Backfilled(s.currentUser, d.value.id)) else s.currentUser;
        s.(modelError := None, modelData := d, currentUser := user)
  }

  /** Once the model record is loaded, by id or through the email fallback,
      the signed-in user takes its id as `modelId` and keeps every other
      field. */
  lemma LoadBackfillsModelId(s: State, identifier: Value, captured: Option<User>, m: ModelRecord,
                             byId: Call<Option<ModelRecord>>, all: Call<seq<ModelRecord>>)
    requires Truthy(identifier) && captured.Some? && s.currentUser.Some? && Truthy(m.id)
    requires ModelLookup(captured, byId, all) == Found(Some(m))
    ensures var r := LoadModelDataStep(s, identifier, captured, byId, all);
      r.currentUser == Some(s.currentUser.value.(modelId := m.id)) && r.modelData == Some(m) && r.modelError.None? &&
      GetModelId(r) == m.id
  {
  }

  /** After a 404, the model is looked up by the captured user's email ignoring
      case: the first match is loaded; with none, 'Model not found by email'. */
  lemma LoadFallsBackToEmail(s: State, identifier: Value, u: User, e: ErrorValue, models: seq<ModelRecord>)
    requires Truthy(identifier) && StatusOf(e) == Some(404) && u.email.Str? && u.email.s != ""
    ensures var r := LoadModelDataStep(s, identifier, Some(u), Rejected(e), Fetched(models));
      && ((exists i :: 0 <= i < |models| && EmailMatches(models[i], u.email.s)) ==>
            r.modelError.None? && r.modelData.Some? &&
            exists i :: 0 <= i < |models| && r.modelData == Some(models[i]) && EmailMatches(models[i], u.email.s) &&
              forall k :: 0 <= k < i ==> !EmailMatches(models[k], u.email.s))
      && ((forall i :: 0 <= i < |models| ==> !EmailMatches(models[i], u.email.s)) ==>
            r == s.(modelError := Some(NotFoundByEmail)))
  {
    var r := LoadModelDataStep(s, identifier, Some(u), Rejected(e), Fetched(models));
    if exists i :: 0 <= i < |models| && EmailMatches(models[i], u.email.s) {
      var i :| 0 <= i < |models| && EmailMatches(models[i], u.email.s) &&
        FindByEmail(models, u.email) == Found(Some(models[i])) &&
        forall k :: 0 <= k < i ==> !EmailMatches(models[k], u.email.s);
      assert r.modelData == Some(models[i]);
    }
  }

  /** At startup, and right after a `login` made while nobody was signed in,
      the captured user is null: a 404
      ends the load with the error and the user is never touched. */
  lemma LoadWithoutCapturedUser(s: State, identifier: Value, e: ErrorValue, all: Call<seq<ModelRecord>>)
    requires Truthy(identifier)
    ensures LoadModelDataStep(s, identifier, None, Rejected(e), all) ==
      s.(modelError := Some(ErrorHandling.FormatErrorMessage(e, LoadFallback)))
  {
  }

  // ---------------------------------------------------------------------------
  // updateModelData.

  const UpdateFallback := "Failed to update model information."

  /** The id the exposed `updateModelData` passes on: `currentUser?.modelId || modelData?.id`. */
  function UpdateTarget(s: State): (id: Value)
    ensures s.currentUser.Some? && Truthy(s.currentUser.value.modelId) ==> id == s.currentUser.value.modelId
    ensures !(s.currentUser.Some? && Truthy(s.currentUser.value.modelId)) ==>
      id == (if s.modelData.Some? then s.modelData.value.id else Undefined)
  {
    Or(if s.currentUser.Some? then s.currentUser.value.modelId else Undefined,
       if s.modelData.Some? then s.modelData.value.id else Undefined)
  }

  /** How `updateModelData` ends: skipped for a falsy id, resolved with the
      updated record, or rethrowing the request's error. */
  datatype UpdateOutcome = Skipped | Updated(data: Option<ModelRecord>) | Rethrown(error: ErrorValue)

  datatype UpdateResult = UpdateResult(state: State, outcome: UpdateOutcome)

  /** `updateModelData(modelId, updateData)`. */
  function UpdateModelDataStep(s: State, modelId: Value, reply: Call<Option<ModelRecord>>): (r: UpdateResult)
    ensures !Truthy(modelId) ==> r == UpdateResult(s, Skipped)
    ensures Truthy(modelId) && reply.Fetched? ==>
      r == UpdateResult(s.(modelData := reply.value, modelError := None), Updated(reply.value))
    ensures Truthy(modelId) && reply.Rejected? ==>
      r == UpdateResult(s.(modelError := Some(ErrorHandling.FormatErrorMessage(reply.error, UpdateFallback))), Rethrown(reply.error))
  {
    if !Truthy(modelId) then UpdateResult(s, Skipped)
    else
      match reply
      case Fetched(d) => UpdateResult(s.(modelData := d, modelError := None), Updated(d))
      case Rejected(e) => UpdateResult(s.(modelError := Some(ErrorHandling.FormatErrorMessage(e, UpdateFallback))), Rethrown(e))
  }

  // ---------------------------------------------------------------------------
  // The provider's state, updated in place.

  class Session {
    const store: Storage.TokenStore
    var currentUser: Option<User>
    var modelData: Option<ModelRecord>
    var modelError: Option<string>
    var authError: Option<string>

    /** The session as a value. */
    function Snapshot(): State
      reads this, store
    {
      State(store.token, currentUser, modelData, modelError, authError)
    }

    /** The provider on first render, over a token store holding `stored`. */
    constructor (stored: Option<string>)
      ensures Snapshot() == Initial(stored)
      ensures fresh(store)
    {
      store := new Storage.TokenStore(stored);
      currentUser := None;
      modelData := None;
      modelError := None;
      authError := None;
    }

    method Startup(decode: string -> Option<Payload>, nowMs: int) returns (load: Option<Value>)
      modifies this, store
      ensures Snapshot() == StartupStep(old(Snapshot()), decode, nowMs).state
      ensures load == StartupStep(old(Snapshot()), decode, nowMs).load
    {
      load := None;
      if store.token.Some? && store.token.value != "" {
        var t := store.token.value;
        var decoded := DecodeToken(t, decode);
        if decoded.Failure? || ExpiredAt(decoded.value, nowMs) {
          store.Remove();
        } else {
          var c := ParseTokenClaims(decoded.value);
          var u := MakeUser(c, t);
          if u.Some? {
            currentUser := u;
            load := ModelToLoad(c, u.value);
          } else {
            store.Remove();
          }
        }
      }
    }

    method Login(reply: Call<LoginReply>, decode: string -> Option<Payload>) returns (ok: bool, load: Option<Value>)
      modifies this, store
      ensures Snapshot() == LoginStep(old(Snapshot()), reply, decode).state
      ensures ok == LoginStep(old(Snapshot()), reply, decode).ok
      ensures load == LoginStep(old(Snapshot()), reply, decode).load
    {
      authError := None;
      ok, load := false, None;
      if reply.Rejected? {
        authError := Some(ErrorHandling.FormatErrorMessage(LoginError(reply.error), LoginFallback));
      } else if reply.value == Prim(Null) {
        authError := Some(ErrorHandling.FormatErrorMessage(JsError(NullReplyMessage, "", None, false), LoginFallback));
      } else {
        var token := ReplyToken(reply.value);
        if token.None? {
          authError := Some(InvalidResponseMessage);
        } else {
          var t := token.value;
          store.Put(t);
          var decoded := DecodeToken(t, decode);
          var u := if decoded.Success? then MakeUser(ParseTokenClaims(decoded.value), t) else None;
          if u.Some? {
            currentUser := u;
            ok := true;
            load := ModelToLoad(ParseTokenClaims(decoded.value), u.value);
          } else {
            authError := Some(InvalidTokenMessage);
            store.Remove();
          }
        }
      }
    }

    method Logout()
      modifies this, store
      ensures Snapshot() == LogoutStep(old(Snapshot()))
    {
      store.Remove();
      currentUser := None;
      modelData := None;
    }

    method LoadModelData(identifier: Value, captured: Option<User>,
                         byId: Call<Option<ModelRecord>>, all: Call<seq<ModelRecord>>)
      modifies this
      ensures Snapshot() == LoadModelDataStep(old(Snapshot()), identifier, captured, byId, all)
    {
      if Truthy(identifier) {
        modelError := None;
        var lookup := ModelLookup(captured, byId, all);
        if lookup.LookupFailed? {
          modelError := Some(ErrorHandling.FormatErrorMessage(lookup.error, LoadFallback));
        } else {
          var d := lookup.data;
          if d.Some? && Truthy(d.value.id) && captured.Some? {
            currentUser := Some(Backfilled(currentUser, d.value.id));
          }
          modelData := d;
        }
      }
    }

    method UpdateModelData(modelId: Value, reply: Call<Option<ModelRecord>>) returns (outcome: UpdateOutcome)
      modifies this
      ensures Snapshot() == UpdateModelDataStep(old(Snapshot()), modelId, reply).state
      ensures outcome == UpdateModelDataStep(old(Snapshot()), modelId, reply).outcome
    {
      outcome := Skipped;
      if Truthy(modelId) {
        modelError := None;
        if reply.Fetched? {
          modelData := reply.value;
          outcome := Updated(reply.value);
        } else {
          modelError := Some(ErrorHandling.FormatErrorMessage(reply.error, UpdateFallback));
          outcome := Rethrown(reply.error);
        }
      }
    }
  }
}

=== FILE: auth_service.dfy ===
/**
 * src/services/auth.js: reading the claims out of a JSON Web Token, and the
 * error `login` rethrows. A token is taken apart as a JWS compact
 * serialisation (section 7.1 of RFC 7515): three dot-separated parts, of which
 * only the middle one, the payload, is decoded. The signature is never checked.
 * `atob`, `decodeURIComponent` and `JSON.parse` are one partial function
 * `decode`, given as a parameter.
 */
module AuthService {
  import opened Js
  import opened Wrappers
  import opened Api

  /** A decoded JSON payload: the claims by name. */
  type Payload = map<string, Value>

  /** The value of a claim, `undefined` when it is absent. */
  function Claim(p: Payload, name: string): Value {
    if name in p then p[name] else Undefined
  }

  /** `s.replace(/from/g, to)` for one character. */
  function ReplaceAll(s: string, from: char, to: char): (r: string)
    ensures |r| == |s|
    ensures forall i :: 0 <= i < |s| ==> r[i] == (if s[i] == from then to else s[i])
  {
    seq(|s|, i requires 0 <= i < |s| => if s[i] == from then to else s[i])
  }

  /** `base64Url.replace(/-/g, '+').replace(/_/g, '/')`. */
  function Base64UrlToBase64(s: string): (r: string)
    ensures |r| == |s|
    ensures forall i :: 0 <= i < |s| ==>
      r[i] == (if s[i] == '-' then '+' else if s[i] == '_' then '/' else s[i])
  {
    ReplaceAll(ReplaceAll(s, '-', '+'), '_', '/')
  }

  /** The base64url alphabet of section 5 of RFC 4648. */
  predicate Base64UrlChar(c: char) {
    'A' <= c <= 'Z' || 'a' <= c <= 'z' || '0' <= c <= '9' || c == '-' || c == '_'
  }

  /** The base64 alphabet of section 4 of RFC 4648. */
  predicate Base64Char(c: char) {
    'A' <= c <= 'Z' || 'a' <= c <= 'z' || '0' <= c <= '9' || c == '+' || c == '/'
  }

  /** The substitution turns base64url text into base64 text, and every other
      character (padding, stray symbols) passes through untouched. */
  lemma Base64UrlAlphabet(s: string)
    ensures forall i :: 0 <= i < |s| && Base64UrlChar(s[i]) ==> Base64Char(Base64UrlToBase64(s)[i])
    ensures forall i :: 0 <= i < |s| && s[i] != '-' && s[i] != '_' ==> Base64UrlToBase64(s)[i] == s[i]
    ensures '-' !in Base64UrlToBase64(s) && '_' !in Base64UrlToBase64(s)
  {
  }

  const InvalidToken := "Invalid token"

  /** `decodeToken(token)`: every failure, whether the part count or the
      decoding of the payload, surfaces as the one message 'Invalid token'. */
  function DecodeToken(token: string, decode: string -> Option<Payload>): (r: Result<Payload, string>)
    ensures r.Failure? ==> r.error == InvalidToken
    ensures |Split(token, '.')| != 3 ==> r == Failure(InvalidToken)
    ensures |Split(token, '.')| == 3 ==>
      r == match decode(Base64UrlToBase64(Split(token, '.')[1]))
           case Some(p) => Success(p)
           case None => Failure(InvalidToken)
  {
    var parts := Split(token, '.');
    if |parts| != 3 then Failure(InvalidToken)
    else
      match decode(Base64UrlToBase64(parts[1]))
      case Some(p) => Success(p)
      case None => Failure(InvalidToken)
  }

  /** A token without exactly two dots is rejected before anything is decoded. */
  lemma DecodeRejectsPartCount(token: string, decode: string -> Option<Payload>)
    requires Count(token, '.') != 2
    ensures DecodeToken(token, decode) == Failure(InvalidToken)
  {
    SplitCount(token, '.');
  }

  /** For a compact serialisation `header.payload.signature`, the result
      depends on the payload alone: the header and signature are never read. */
  lemma DecodeReadsPayloadOnly(header: string, payload: string, signature: string, decode: string -> Option<Payload>)
    requires '.' !in header && '.' !in payload && '.' !in signature
    ensures DecodeToken(header + "." + payload + "." + signature, decode) ==
      match decode(Base64UrlToBase64(payload))
      case Some(p) => Success(p)
      case None => Failure(InvalidToken)
  {
    var token := header + "." + payload + "." + signature;
    assert token == header + ['.'] + (payload + ['.'] + signature);
    SplitAtFirstSeparator(header, '.', payload + ['.'] + signature);
    SplitAtFirstSeparator(payload, '.', signature);
    SplitWithoutSeparator(signature, '.');
    assert Split(token, '.') == [header, payload, signature];
  }

  /** `login`'s catch: `new Error(error.response?.data?.message || 'Login failed')`. */
  function LoginError(e: ErrorValue): (thrown: ErrorValue)
    ensures thrown.JsError? && thrown.response.None? && thrown.message != ""
    ensures e.JsError? && e.response.Some? && BodyMessage(e.response.value.data) != "" ==>
      thrown.message == BodyMessage(e.response.value.data)
    ensures !(e.JsError? && e.response.Some? && BodyMessage(e.response.value.data) != "") ==>
      thrown.message == "Login failed"
  {
    var message := if e.JsError? && e.response.Some? then BodyMessage(e.response.value.data) else "";
    JsError(OrText(message, "Login failed"), "", None, false)
  }

  /** Every failed sign-in reaches `login` as an `APIError`, which carries no
      `response`; so, whatever the server answered, the rethrown message is
      'Login failed'. */
  lemma LoginAlwaysFailsGenerically(raw: ErrorValue)
    requires raw.JsError?
    ensures LoginError(AccountLoginError(InterceptResponseError(raw).rejected)).message == "Login failed"
  {
  }
}

=== FILE: entities.dfy ===
/**
 * The backend records the console keeps in its lists, as the hooks read them,
 * and the job-to-model assignment test that several hooks share.
 * Text fields the hooks only test for truthiness are strings, with "" standing
 * for a missing or falsy value; ids are JavaScript values, because the hooks
 * compare them both with `===` and through `String(...)`.
 */
module Entities {
  import opened Js
  import opened Wrappers
  import opened Sequences

  /** A model as `/Models` returns it. */
  datatype ModelRecord = ModelRecord(id: Value, modelId: Value, email: string, firstName: Value, lastName: Value)

  /** An entry of a job's `models` array. */
  datatype ModelRef = ModelRef(id: Value, modelId: Value)

  /** A job as `/Jobs` returns it; `models` is `None` when the field is
      missing or is not an array. */
  datatype Job = Job(id: Value, jobId: Value, customer: string, name: string, modelId: Value, models: Option<seq<ModelRef>>)

  /** A manager as `/Managers` returns it. */
  datatype Manager = Manager(managerId: Value, email: string)

  /** The nested `job` object some expenses carry. */
  datatype JobInfo = JobInfo(customer: string, name: string)

  /** An expense as `/Expenses` returns it (amounts and dates left out). */
  datatype Expense = Expense(
    id: Value, expenseId: Value, jobId: Value, modelId: Value,
    text: string, jobCustomer: string, modelName: string, job: Option<JobInfo>)

  /** `String(model.id) === String(target) || String(model.modelId) === String(target)`. */
  predicate RefersTo(m: ModelRef, target: Value) {
    ToStr(m.id) == ToStr(target) || ToStr(m.modelId) == ToStr(target)
  }

  /** The job's `models` array is an array with an entry that refers to `target`. */
  predicate IsAssignedTo(job: Job, target: Value) {
    job.models.Some? && exists m :: m in job.models.value && RefersTo(m, target)
  }

  /** `jobs.filter(job => ...models.some(...))`: the jobs `target` is assigned to. */
  function JobsAssignedTo(jobs: seq<Job>, target: Value): (r: seq<Job>)
    ensures forall j :: j in r <==> j in jobs && IsAssignedTo(j, target)
    ensures forall j :: multiset(r)[j] == if IsAssignedTo(j, target) then multiset(jobs)[j] else 0
    ensures IsSubseq(r, jobs)
  {
    FilterSpec(jobs, j => IsAssignedTo(j, target));
    Filter(jobs, j => IsAssignedTo(j, target))
  }

  /** A job without a `models` array is never listed, and the filter compares
      numeric ids by value, so an id and its decimal string select the same jobs. */
  lemma AssignedToNumberOrItsText(jobs: seq<Job>, n: int)
    ensures forall j :: j in JobsAssignedTo(jobs, Num(n)) ==> j.models.Some?
    ensures JobsAssignedTo(jobs, Num(n)) == JobsAssignedTo(jobs, Str(IntToDecimal(n)))
  {
    assert forall m :: RefersTo(m, Num(n)) == RefersTo(m, Str(IntToDecimal(n)));
    FilterCongruent(jobs, j => IsAssignedTo(j, Num(n)), j => IsAssignedTo(j, Str(IntToDecimal(n))));
  }

  /** `list.find(x => x.<key>.toString() === text)`: the call throws on the
      first element whose key is `null` or `undefined`, if it gets that far. */
  function FindByKeyText<T>(s: seq<T>, key: T -> Value, text: string): (r: Pick<T>)
    ensures r.Picked? ==>
      exists i :: 0 <= i < |s| && s[i] == r.value && ToStringMethod(key(s[i])).Some? && ToStr(key(s[i])) == text &&
        forall k :: 0 <= k < i ==> ToStringMethod(key(s[k])).Some? && ToStr(key(s[k])) != text
    ensures r.NoMatch? <==> forall k :: 0 <= k < |s| ==> ToStringMethod(key(s[k])).Some? && ToStr(key(s[k])) != text
    ensures r.Thrown? <==>
      exists i :: 0 <= i < |s| && ToStringMethod(key(s[i])).None? &&
        forall k :: 0 <= k < i ==> ToStringMethod(key(s[k])).Some? && ToStr(key(s[k])) != text
    ensures r.Thrown? ==> exists k :: 0 <= k < |s| && (key(s[k]).Undefined? || key(s[k]).Null?)
  {
    FindCheckedSpec(s, x => ToStringMethod(key(x)).None?, x => ToStringMethod(key(x)) == Some(text));
    FindCheckedThrows(s, x => ToStringMethod(key(x)).None?, x => ToStringMethod(key(x)) == Some(text));
    FindChecked(s, x => ToStringMethod(key(x)).None?, x => ToStringMethod(key(x)) == Some(text))
  }
}

=== FILE: error_handling.dfy ===
/**
 * The user-facing error helpers of src/utils/errorHandling.js: turning any
 * thrown value into one message, labelling HTTP statuses, and building the
 * error notification.
 */
module ErrorHandling {
  import opened Js
  import opened Wrappers
  import opened Api

  /** `Object.values(errors).flat()`: the validation messages in order. */
  function Flatten(groups: seq<seq<string>>): (r: seq<string>)
    ensures |groups| > 0 ==> r == groups[0] + Flatten(groups[1..])
    decreases |groups|
  {
    if groups == [] then [] else groups[0] + Flatten(groups[1..])
  }

  /** The body of a response attached to an axios error, when it is truthy. */
  predicate HasResponseBody(e: ErrorValue) {
    e.JsError? && e.response.Some? && BodyTruthy(e.response.value.data)
  }

  /** What a response body contributes, if anything: a string body, then
      `message`, then `error`, then the validation messages joined with ', '
      (or the fallback when that join is empty). */
  function BodyMessageFor(data: Body, fallback: string): (r: Option<string>)
    ensures data.TextBody? ==> r == Some(data.text)
    ensures data.ObjectBody? && data.message != "" ==> r == Some(data.message)
    ensures data.ObjectBody? && data.message == "" && data.error != "" ==> r == Some(data.error)
    ensures data.ObjectBody? && data.message == "" && data.error == "" && data.errors.Some? ==>
      r == Some(OrText(Join(Flatten(data.errors.value), ", "), fallback))
    ensures r.None? <==> data.NoBody? || (data.ObjectBody? && data.message == "" && data.error == "" && data.errors.None?)
  {
    match data
    case NoBody => None
    case TextBody(text) => Some(text)
    case ObjectBody(message, error, errors) =>
      if message != "" then Some(message)
      else if error != "" then Some(error)
      else if errors.Some? then Some(OrText(Join(Flatten(errors.value), ", "), fallback))
      else None
  }

  /** `formatErrorMessage(error, fallbackMessage)`. */
  function FormatErrorMessage(e: ErrorValue, fallback: string): (msg: string)
    ensures e.Text? ==> msg == e.text
    ensures e.ApiError? ==> msg == e.message
    ensures HasResponseBody(e) && BodyMessageFor(e.response.value.data, fallback).Some? ==>
      msg == BodyMessageFor(e.response.value.data, fallback).value
    ensures e.JsError? && (!HasResponseBody(e) || BodyMessageFor(e.response.value.data, fallback).None?) ==>
      msg == OrText(e.message, fallback)
  {
    match e
    case Text(text) => text
    case ApiError(message, _, _) => message
    case JsError(message, _, response, _) =>
      if response.Some? && BodyTruthy(response.value.data) && BodyMessageFor(response.value.data, fallback).Some? then
        BodyMessageFor(response.value.data, fallback).value
      else
        OrText(message, fallback)
  }

  /** For an error that is neither a string nor an `APIError`, the message is
      never empty unless the fallback is, and it is drawn from the error itself
      or is the fallback. */
  lemma FormatErrorMessageNonEmpty(e: ErrorValue, fallback: string)
    requires e.JsError? && fallback != ""
    ensures FormatErrorMessage(e, fallback) != ""
    ensures var msg := FormatErrorMessage(e, fallback);
      msg == fallback || msg == e.message ||
      (e.response.Some? && var data := e.response.value.data;
        (data.TextBody? && msg == data.text) ||
        (data.ObjectBody? && (msg == data.message || msg == data.error ||
          (data.errors.Some? && msg == Join(Flatten(data.errors.value), ", ")))))
  {
  }

  /** `getStatusMessage(status)`. */
  function GetStatusMessage(status: int): (caption: string)
    ensures status == 400 ==> caption == "Bad Request"
    ensures status == 401 ==> caption == "Unauthorized - Please log in again"
    ensures status == 403 ==> caption == "Access Denied"
    ensures status == 404 ==> caption == "Not Found"
    ensures status == 409 ==> caption == "Conflict"
    ensures status == 422 ==> caption == "Validation Error"
    ensures status == 500 ==> caption == "Server Error"
    ensures status == 503 ==> caption == "Service Unavailable"
  {
    match status
    case 400 => "Bad Request"
    case 401 => "Unauthorized - Please log in again"
    case 403 => "Access Denied"
    case 404 => "Not Found"
    case 409 => "Conflict"
    case 422 => "Validation Error"
    case 500 => "Server Error"
    case 503 => "Service Unavailable"
    case _ =>
      if 400 <= status < 500 then "Request Error"
      else if status >= 500 then "Server Error"
      else "Unknown Error"
  }

  /** Codes outside the table fall back by range: client errors, server errors,
      and everything below 400. */
  lemma StatusMessageRanges(status: int)
    requires status !in {400, 401, 403, 404, 409, 422, 500, 503}
    ensures 400 <= status < 500 ==> GetStatusMessage(status) == "Request Error"
    ensures status >= 500 ==> GetStatusMessage(status) == "Server Error"
    ensures status < 400 ==> GetStatusMessage(status) == "Unknown Error"
  {
  }

  /** A notification ready for display. */
  datatype Notification = Notification(title: string, message: string, kind: string)

  /** `createErrorNotification(error, fallbackTitle, fallbackMessage)`. */
  function CreateErrorNotification(e: ErrorValue, fallbackTitle: string, fallbackMessage: string): (n: Notification)
    ensures n.kind == "error"
    ensures n.message == FormatErrorMessage(e, fallbackMessage)
    ensures e.ApiError? && e.status.Some? && e.status.value != 0 ==> n.title == GetStatusMessage(e.status.value)
    ensures !(e.ApiError? && e.status.Some? && e.status.value != 0) ==> n.title == fallbackTitle
  {
    var title := if e.ApiError? && e.status.Some? && e.status.value != 0 then GetStatusMessage(e.status.value) else fallbackTitle;
    Notification(title, FormatErrorMessage(e, fallbackMessage), "error")
  }

  /** The state a component hands to `handleApiError` through its `setError`
      and (optionally) `setLoading` setters. */
  class ErrorState {
    var error: string
    var loading: bool

    constructor (loading: bool)
      ensures this.error == "" && this.loading == loading
    {
      this.error := "";
      this.loading := loading;
    }

    /** `handleApiError(error, setError, setLoading, fallbackMessage)`: the
        formatted message goes to `error` and is returned; `loading` is cleared
        only when a `setLoading` setter was given. */
    method HandleApiError(e: ErrorValue, hasLoadingSetter: bool, fallback: string) returns (msg: string)
      modifies this
      ensures msg == FormatErrorMessage(e, fallback)
      ensures error == msg
      ensures loading == if hasLoadingSetter then false else old(loading)
    {
      msg := FormatErrorMessage(e, fallback);
      error := msg;
      if hasLoadingSetter {
        loading := false;
      }
    }
  }
}

=== FILE: js.dfy ===
/**
 * The JavaScript values and built-in operations that the console's decision
 * rules rely on: truthiness, the `||` operator, `String(x)`, `toLowerCase`,
 * `includes`, `startsWith`, `split` and `join`.
 */
module Js {
  import opened Wrappers

  /** A JavaScript primitive. Numbers are integers: the console only ever sees
      ids and HTTP status codes in them. `===` on these values is `==`. */
  datatype Value = Undefined | Null | Bool(b: bool) | Num(n: int) | Str(s: string)

  /** JavaScript truthiness, `!!v`. */
  predicate Truthy(v: Value) {
    match v
    case Undefined | Null => false
    case Bool(b) => b
    case Num(n) => n != 0
    case Str(s) => s != ""
  }

  /** `a || b`: the first operand when it is truthy, otherwise the second. */
  function Or(a: Value, b: Value): (r: Value)
    ensures Truthy(r) <==> Truthy(a) || Truthy(b)
    ensures Truthy(a) ==> r == a
    ensures !Truthy(a) ==> r == b
  {
    if Truthy(a) then a else b
  }

  /** `s || fallback` for a string operand. */
  function OrText(s: string, fallback: string): (r: string)
    ensures s != "" ==> r == s
    ensures s == "" ==> r == fallback
  {
    if s != "" then s else fallback
  }

  // ---------------------------------------------------------------------------
  // Decimal notation, as `String(n)` and template literals print integers.

  function Digit(d: nat): char
    requires d < 10
  {
    "0123456789"[d]
  }

  predicate AllDigits(s: string) {
    forall i :: 0 <= i < |s| ==> '0' <= s[i] <= '9'
  }

  function NatToDecimal(n: nat): (s: string)
    ensures |s| >= 1 && AllDigits(s)
    decreases n
  {
    if n < 10 then [Digit(n)] else NatToDecimal(n / 10) + [Digit(n % 10)]
  }

  /** The number that a string of decimal digits denotes. */
  function DecimalValue(s: string): nat
    requires AllDigits(s)
    decreases |s|
  {
    if s == [] then 0 else 10 * DecimalValue(s[..|s| - 1]) + (s[|s| - 1] as int - '0' as int)
  }

  /** Reading back the digits that `NatToDecimal` prints gives the number again. */
  lemma {:induction false} DecimalRoundTrip(n: nat)
    ensures DecimalValue(NatToDecimal(n)) == n
  {
    if n >= 10 {
      DecimalRoundTrip(n / 10);
      var s := NatToDecimal(n);
      assert s[..|s| - 1] == NatToDecimal(n / 10);
    }
  }

  function IntToDecimal(n: int): (s: string)
  {
    if n < 0 then "-" + NatToDecimal(-n) else NatToDecimal(n)
  }

  lemma NatToDecimalInjective(a: nat, b: nat)
    ensures NatToDecimal(a) == NatToDecimal(b) ==> a == b
  {
    DecimalRoundTrip(a);
    DecimalRoundTrip(b);
  }

  /** Two integers print the same iff they are equal. */
  lemma IntToDecimalInjective(a: int, b: int)
    ensures IntToDecimal(a) == IntToDecimal(b) <==> a == b
  {
    var sa, sb := IntToDecimal(a), IntToDecimal(b);
    assert (a < 0 ==> sa[0] == '-') && (a >= 0 ==> '0' <= sa[0] <= '9');
    assert (b < 0 ==> sb[0] == '-') && (b >= 0 ==> '0' <= sb[0] <= '9');
    if sa == sb && a < 0 && b < 0 {
      assert sa[1..] == NatToDecimal(-a) && sb[1..] == NatToDecimal(-b);
      NatToDecimalInjective(-a, -b);
    } else if sa == sb && a >= 0 && b >= 0 {
      NatToDecimalInjective(a, b);
    }
  }

  /** `String(v)`. */
  function ToStr(v: Value): string {
    match v
    case Undefined => "undefined"
    case Null => "null"
    case Bool(b) => if b then "true" else "false"
    case Num(n) => IntToDecimal(n)
    case Str(s) => s
  }

  /** Comparing two numeric ids through `String(...)` compares the numbers;
      a number and its decimal string are also String-equal, although they are not `===`. */
  lemma StringEqualityOnNumbers(a: int, b: int)
    ensures ToStr(Num(a)) == ToStr(Num(b)) <==> a == b
    ensures ToStr(Num(a)) == ToStr(Str(IntToDecimal(a))) && Num(a) != Str(IntToDecimal(a))
  {
    IntToDecimalInjective(a, b);
  }

  /** `v.toString()`: `None` where it throws, on `null` and `undefined`. */
  function ToStringMethod(v: Value): (r: Option<string>)
    ensures r.None? <==> v.Undefined? || v.Null?
    ensures r.Some? ==> r.value == ToStr(v)
  {
    if v.Undefined? || v.Null? then None else Some(ToStr(v))
  }

  // ---------------------------------------------------------------------------
  // Strings.

  /** `toLowerCase` on one character; only ASCII letters are mapped. */
  function LowerChar(c: char): char {
    if 'A' <= c <= 'Z' then (c as int + 32) as char else c
  }

  function Lower(s: string): (r: string)
    ensures |r| == |s|
    ensures forall i :: 0 <= i < |s| ==> r[i] == LowerChar(s[i])
  {
    seq(|s|, i requires 0 <= i < |s| => LowerChar(s[i]))
  }

  /** `s.startsWith(p)`. */
  predicate StartsWith(s: string, p: string) {
    |p| <= |s| && s[..|p|] == p
  }

  /** `s.includes(sub)`: `sub` occurs in `s` at some position. */
  predicate Includes(s: string, sub: string)
    decreases |s|
  {
    StartsWith(s, sub) || (|s| > 0 && Includes(s[1..], sub))
  }

  /** `sub` occurs in `s` at position `i`. */
  predicate OccursAt(s: string, sub: string, i: int) {
    0 <= i && i + |sub| <= |s| && s[i..i + |sub|] == sub
  }

  /** `includes` holds exactly when `sub` occurs at some position. */
  lemma {:induction false} IncludesAt(s: string, sub: string)
    ensures Includes(s, sub) <==> exists i :: OccursAt(s, sub, i)
    decreases |s|
  {
    if StartsWith(s, sub) {
      assert OccursAt(s, sub, 0);
    } else if |s| > 0 {
      IncludesAt(s[1..], sub);
      if Includes(s[1..], sub) {
        var i :| OccursAt(s[1..], sub, i);
        assert s[i + 1..i + 1 + |sub|] == s[1..][i..i + |sub|];
        assert OccursAt(s, sub, i + 1);
      }
      if i :| OccursAt(s, sub, i) {
        assert i != 0;
        assert s[1..][i - 1..i - 1 + |sub|] == s[i..i + |sub|];
        assert OccursAt(s[1..], sub, i - 1);
      }
    } else {
      assert forall i :: !OccursAt(s, sub, i);
    }
  }

  /** The number of occurrences of `c` in `s`. */
  function Count(s: string, c: char): nat {
    if s == [] then 0 else (if s[0] == c then 1 else 0) + Count(s[1..], c)
  }

  /** `s.split(sep)` for a one-character separator. */
  function Split(s: string, sep: char): (parts: seq<string>)
    ensures |parts| >= 1
    decreases |s|
  {
    if s == [] then [""]
    else
      var rest := Split(s[1..], sep);
      if s[0] == sep then [""] + rest else [[s[0]] + rest[0]] + rest[1..]
  }

  /** `parts.join(sep)`. */
  function Join(parts: seq<string>, sep: string): string
    decreases |parts|
  {
    if |parts| == 0 then ""
    else if |parts| == 1 then parts[0]
    else parts[0] + sep + Join(parts[1..], sep)
  }

  /** `split` yields one more part than there are separators. */
  lemma {:induction false} SplitCount(s: string, sep: char)
    ensures |Split(s, sep)| == Count(s, sep) + 1
  {
    if s != [] {
      SplitCount(s[1..], sep);
    }
  }

  /** No part contains the separator, and joining the parts gives back the string. */
  lemma {:induction false} SplitJoin(s: string, sep: char)
    ensures forall k :: 0 <= k < |Split(s, sep)| ==> sep !in Split(s, sep)[k]
    ensures Join(Split(s, sep), [sep]) == s
  {
    if s != [] {
      SplitJoin(s[1..], sep);
      var rest := Split(s[1..], sep);
      if s[0] == sep {
        assert Split(s, sep) == [""] + rest;
        assert Join([""] + rest, [sep]) == "" + [sep] + Join(rest, [sep]);
      } else {
        var parts := Split(s, sep);
        assert parts == [[s[0]] + rest[0]] + rest[1..];
        if |rest| == 1 {
          assert Join(parts, [sep]) == [s[0]] + rest[0];
        } else {
          assert Join(rest, [sep]) == rest[0] + [sep] + Join(rest[1..], [sep]);
          assert Join(parts, [sep]) == [s[0]] + rest[0] + [sep] + Join(rest[1..], [sep]);
        }
        forall k | 0 <= k < |parts| ensures sep !in parts[k] {
          if k == 0 {
            assert parts[0] == [s[0]] + rest[0];
          } else {
            assert parts[k] == rest[k];
          }
        }
      }
    }
  }

  /** A string without the separator splits into itself alone. */
  lemma {:induction false} SplitWithoutSeparator(s: string, sep: char)
    requires sep !in s
    ensures Split(s, sep) == [s]
  {
    if s != [] {
      assert s[0] != sep && sep !in s[1..] by {
        assert s[0] in s;
        assert forall c :: c in s[1..] ==> c in s;
      }
      SplitWithoutSeparator(s[1..], sep);
      assert [s[0]] + s[1..] == s;
    }
  }

  /** Splitting `a + sep + b`, where `a` holds no separator, yields `a` and then
      the parts of `b`. */
  lemma {:induction false} SplitAtFirstSeparator(a: string, sep: char, b: string)
    requires sep !in a
    ensures Split(a + [sep] + b, sep) == [a] + Split(b, sep)
  {
    if a == [] {
      assert a + [sep] + b == [sep] + b;
      assert ([sep] + b)[1..] == b;
    } else {
      SplitAtFirstSeparator(a[1..], sep, b);
      assert (a + [sep] + b)[1..] == a[1..] + [sep] + b;
      assert [a[0]] + a[1..] == a;
    }
  }
}

=== FILE: layout.dfy ===
/**
 * src/components/Layout.jsx: the navigation bar. Everyone signed in gets
 * the dashboard and the jobs list; managers get the management pages; a model
 * who is not a manager gets a link to their own expenses. A link is
 * highlighted when the current path is its target or lies below it.
 */
module Layout {
  import opened Js
  import AuthContext

  /** A navigation link. */
  datatype NavEntry = NavEntry(to: string, caption: string)

  /** The links shown to managers only. */
  const ManagerEntries := [
    NavEntry("/models", "Models"),
    NavEntry("/managers", "Managers"),
    NavEntry("/expenses", "All Expenses"),
    NavEntry("/create-job", "Create Job"),
    NavEntry("/create-model", "Create Model"),
    NavEntry("/create-manager", "Create Manager")
  ]

  /** `isModel ? getModelId() : null`. */
  function LayoutModelId(auth: AuthContext.State): (id: Value)
    ensures !AuthContext.IsModel(auth) ==> id == Null
    ensures AuthContext.IsModel(auth) ==> id == AuthContext.GetModelId(auth)
  {
    if AuthContext.IsModel(auth) then AuthContext.GetModelId(auth) else Null
  }

  /** `isModelOnly && modelId`: the condition for the 'My Expenses' link. */
  predicate ShowsMyExpenses(auth: AuthContext.State) {
    AuthContext.IsModel(auth) && !AuthContext.IsManager(auth) && Truthy(LayoutModelId(auth))
  }

  /** The links, in the order they appear. */
  function NavEntries(auth: AuthContext.State): (links: seq<NavEntry>)
    ensures |links| >= 2 && links[0] == NavEntry("/dashboard", "Dashboard") && links[1] == NavEntry("/jobs", "Jobs")
    ensures AuthContext.IsManager(auth) ==> links[2..] == ManagerEntries
    ensures ShowsMyExpenses(auth) ==>
      links[2..] == [NavEntry("/models/" + ToStr(AuthContext.GetModelId(auth)) + "/expenses", "My Expenses")]
    ensures !AuthContext.IsManager(auth) && !ShowsMyExpenses(auth) ==> |links| == 2
  {
    var always := [NavEntry("/dashboard", "Dashboard"), NavEntry("/jobs", "Jobs")];
    var managerLinks := if AuthContext.IsManager(auth) then ManagerEntries else [];
    var modelLinks := if ShowsMyExpenses(auth) then
        [NavEntry("/models/" + ToStr(LayoutModelId(auth)) + "/expenses", "My Expenses")]
      else [];
    assert (always + managerLinks + modelLinks)[2..] == managerLinks + modelLinks;
    always + managerLinks + modelLinks
  }

  /** The management links and the own-expenses link never appear together,
      and a model with an email always gets the own-expenses link. */
  lemma NavEntriesByRole(auth: AuthContext.State)
    ensures !(AuthContext.IsManager(auth) && ShowsMyExpenses(auth))
    ensures AuthContext.IsModel(auth) && !AuthContext.IsManager(auth) && Truthy(auth.currentUser.value.email) ==>
      ShowsMyExpenses(auth)
  {
    if AuthContext.IsModel(auth) && !AuthContext.IsManager(auth) && Truthy(auth.currentUser.value.email) {
      AuthContext.ModelHasModelId(auth);
    }
  }

  /** `location.pathname === to || location.pathname.startsWith(`${to}/`)`. */
  predicate IsActive(pathname: string, to: string) {
    pathname == to || StartsWith(pathname, to + "/")
  }

  /** A link is active on its own path and on the paths below it, and on
      nothing else: a path that merely starts with the same letters does not
      count. */
  lemma ActiveMeansAtOrBelow(pathname: string, to: string)
    ensures IsActive(pathname, to) <==>
      pathname == to || (|pathname| > |to| && pathname[..|to|] == to && pathname[|to|] == '/')
  {
    if |pathname| > |to| && pathname[..|to|] == to && pathname[|to|] == '/' {
      assert pathname[..|to| + 1] == to + "/";
    }
    if StartsWith(pathname, to + "/") {
      assert pathname[..|to|] == (to + "/")[..|to|];
      assert pathname[|to|] == (to + "/")[|to|];
    }
  }
}

=== FILE: protected_route.dfy ===
/**
 * src/components/ProtectedRoute.jsx: the guard in front of every page but
 * the login page. Signed-out visitors are sent to the login page; pages that
 * need a manager send everyone else to the dashboard.
 */
module ProtectedRoute {
  import AuthContext

  /** What the guard renders. */
  datatype Outcome = RedirectToLogin | RedirectToDashboard | RenderPage

  /** `ProtectedRoute({ requireManager })`, with `requireManager` false by default. */
  function Guard(auth: AuthContext.State, requireManager: bool): (r: Outcome)
    ensures r == RedirectToLogin <==> !AuthContext.IsAuthenticated(auth)
    ensures r == RedirectToDashboard <==> AuthContext.IsAuthenticated(auth) && requireManager && !AuthContext.IsManager(auth)
  {
    if auth.currentUser.None? then RedirectToLogin
    else if requireManager && !AuthContext.IsManager(auth) then RedirectToDashboard
    else RenderPage
  }

  /** A page is rendered only for a signed-in user, and a manager-only page
      only for a manager; every signed-in user reaches the ordinary pages. */
  lemma GuardAdmitsExactly(auth: AuthContext.State, requireManager: bool)
    ensures Guard(auth, requireManager) == RenderPage <==>
      AuthContext.IsAuthenticated(auth) && (requireManager ==> AuthContext.IsManager(auth))
    ensures Guard(auth, true) == RenderPage ==> Guard(auth, false) == RenderPage
  {
  }

  /** Signing out closes every guarded page. */
  lemma LogoutClosesEveryPage(auth: AuthContext.State, requireManager: bool)
    ensures Guard(AuthContext.LogoutStep(auth), requireManager) == RedirectToLogin
  {
  }
}

=== FILE: sequences.dfy ===
/**
 * `Array.prototype.filter` and `Array.prototype.find`, with the facts about
 * them that the hooks' list updates rely on: a filter keeps exactly the
 * elements that pass, in their original order, and `find` returns the first
 * element that passes.
 */
module Sequences {
  import opened Wrappers

  /** `a` is `b` with some elements left out, the rest in their original order. */
  predicate IsSubseq<T(==)>(a: seq<T>, b: seq<T>)
    decreases |b|
  {
    if a == [] then true
    else if b == [] then false
    else if a[0] == b[0] then IsSubseq(a[1..], b[1..])
    else IsSubseq(a, b[1..])
  }

  /** Every sequence is a subsequence of itself. */
  lemma {:induction false} SubseqOfItself<T>(s: seq<T>)
    ensures IsSubseq(s, s)
    decreases |s|
  {
    if s != [] {
      SubseqOfItself(s[1..]);
    }
  }

  /** Concatenation is associative. */
  lemma AppendAssoc<T>(a: seq<T>, b: seq<T>, c: seq<T>)
    ensures a + (b + c) == a + b + c
  {
  }

  /** `s.filter(p)`. */
  function Filter<T>(s: seq<T>, p: T -> bool): (r: seq<T>)
    ensures |r| <= |s|
    decreases |s|
  {
    if s == [] then []
    else if p(s[0]) then [s[0]] + Filter(s[1..], p)
    else Filter(s[1..], p)
  }

  /** A filter keeps exactly the elements that pass, every copy of each, and
      keeps them in order. */
  lemma {:induction false} FilterSpec<T>(s: seq<T>, p: T -> bool)
    ensures forall x :: x in Filter(s, p) <==> x in s && p(x)
    ensures forall x :: multiset(Filter(s, p))[x] == if p(x) then multiset(s)[x] else 0
    ensures IsSubseq(Filter(s, p), s)
    decreases |s|
  {
    if s != [] {
      FilterSpec(s[1..], p);
      var r := Filter(s, p);
      assert s == [s[0]] + s[1..];
      assert multiset(s) == multiset{s[0]} + multiset(s[1..]);
      if p(s[0]) {
        assert multiset(r) == multiset{s[0]} + multiset(Filter(s[1..], p));
        assert r[0] == s[0] && r[1..] == Filter(s[1..], p);
      } else {
        SubseqOfTail(r, s);
      }
      forall x ensures x in r <==> x in s && p(x) {
        assert x in s <==> x == s[0] || x in s[1..];
      }
    }
  }

  /** A subsequence of the tail is a subsequence of the whole. */
  lemma {:induction false} SubseqOfTail<T>(a: seq<T>, b: seq<T>)
    requires b != [] && IsSubseq(a, b[1..])
    ensures IsSubseq(a, b)
    decreases |b|, 0
  {
    if a != [] && a[0] == b[0] {
      SubseqDropHead(a, b[1..]);
    }
  }

  /** Dropping the first element of a subsequence keeps it a subsequence. */
  lemma {:induction false} SubseqDropHead<T>(a: seq<T>, b: seq<T>)
    requires a != [] && IsSubseq(a, b)
    ensures IsSubseq(a[1..], b)
    decreases |b|, 1
  {
    if a[0] == b[0] {
      if a[1..] != [] {
        SubseqOfTail(a[1..], b);
      }
    } else {
      SubseqDropHead(a, b[1..]);
      SubseqOfTail(a[1..], b);
    }
  }

  /** A filter whose predicate every element passes changes nothing. */
  lemma {:induction false} FilterAllPass<T>(s: seq<T>, p: T -> bool)
    requires forall k :: 0 <= k < |s| ==> p(s[k])
    ensures Filter(s, p) == s
    decreases |s|
  {
    if s != [] {
      assert p(s[0]);
      FilterAllPass(s[1..], p);
      assert s == [s[0]] + s[1..];
    }
  }

  /** Two predicates that agree on every element select the same elements. */
  lemma {:induction false} FilterCongruent<T>(s: seq<T>, p: T -> bool, q: T -> bool)
    requires forall k :: 0 <= k < |s| ==> p(s[k]) == q(s[k])
    ensures Filter(s, p) == Filter(s, q)
    decreases |s|
  {
    if s != [] {
      assert p(s[0]) == q(s[0]);
      FilterCongruent(s[1..], p, q);
    }
  }

  /** Two filters in a row keep what passes both. */
  lemma {:induction false} FilterTwice<T>(s: seq<T>, p: T -> bool, q: T -> bool, pq: T -> bool)
    requires forall k :: 0 <= k < |s| ==> pq(s[k]) == (p(s[k]) && q(s[k]))
    ensures Filter(Filter(s, p), q) == Filter(s, pq)
    decreases |s|
  {
    if s != [] {
      FilterTwice(s[1..], p, q, pq);
      if p(s[0]) {
        assert Filter(s, p) == [s[0]] + Filter(s[1..], p);
        assert Filter(s, p)[1..] == Filter(s[1..], p);
      }
    }
  }

  /** `s.find(p)`: the first element that passes, if any. */
  function Find<T>(s: seq<T>, p: T -> bool): (r: Option<T>)
    decreases |s|
  {
    if s == [] then None
    else if p(s[0]) then Some(s[0])
    else Find(s[1..], p)
  }

  /** `find` returns the element at the first index whose element passes,
      and nothing when no element passes. */
  lemma {:induction false} FindSpec<T>(s: seq<T>, p: T -> bool)
    ensures Find(s, p).None? <==> forall k :: 0 <= k < |s| ==> !p(s[k])
    ensures Find(s, p).Some? ==>
      exists i :: 0 <= i < |s| && s[i] == Find(s, p).value && p(s[i]) &&
        forall k :: 0 <= k < i ==> !p(s[k])
    decreases |s|
  {
    if s != [] && !p(s[0]) {
      FindSpec(s[1..], p);
      if Find(s, p).Some? {
        var i :| 0 <= i < |s[1..]| && s[1..][i] == Find(s, p).value && p(s[1..][i]) &&
          forall k :: 0 <= k < i ==> !p(s[1..][k]);
        assert s[i + 1] == Find(s, p).value;
        assert forall k :: 0 <= k < i + 1 ==> !p(s[k]) by {
          forall k | 0 <= k < i + 1 ensures !p(s[k]) {
            if k > 0 { assert s[k] == s[1..][k - 1]; }
          }
        }
      } else {
        forall k | 0 <= k < |s| ensures !p(s[k]) {
          if k > 0 { assert s[k] == s[1..][k - 1]; }
        }
      }
    } else if s != [] {
      assert 0 <= 0 < |s| && s[0] == Find(s, p).value && p(s[0]);
    }
  }

  /** `find` returns the first element that `filter` would keep. */
  lemma {:induction false} FindIsFirstKept<T>(s: seq<T>, p: T -> bool)
    ensures Find(s, p) == if Filter(s, p) == [] then None else Some(Filter(s, p)[0])
    decreases |s|
  {
    if s != [] && !p(s[0]) {
      FindIsFirstKept(s[1..], p);
    }
  }

  /** How a `find` whose callback can throw ends. */
  datatype Pick<T> = Picked(value: T) | NoMatch | Thrown

  /** `s.find(p)` where the callback throws on an element for which `throws`
      holds, before it tests `p`. */
  function FindChecked<T>(s: seq<T>, throws: T -> bool, p: T -> bool): Pick<T>
    decreases |s|
  {
    if s == [] then NoMatch
    else if throws(s[0]) then Thrown
    else if p(s[0]) then Picked(s[0])
    else FindChecked(s[1..], throws, p)
  }

  /** When the callback throws on no element, it is an ordinary `find`. */
  lemma {:induction false} FindCheckedIsFind<T>(s: seq<T>, throws: T -> bool, p: T -> bool)
    requires forall k :: 0 <= k < |s| ==> !throws(s[k])
    ensures FindChecked(s, throws, p) == if Find(s, p).Some? then Picked(Find(s, p).value) else NoMatch
    decreases |s|
  {
    if s != [] {
      assert !throws(s[0]);
      FindCheckedIsFind(s[1..], throws, p);
    }
  }

  /** Past a head it neither throws on nor matches, the callback reaches an
      element it throws on in the whole list iff it does so in the tail. */
  lemma ThrowReachedInTail<T>(s: seq<T>, throws: T -> bool, p: T -> bool)
    requires s != [] && !throws(s[0]) && !p(s[0])
    ensures (exists i :: 0 <= i < |s| && throws(s[i]) && forall k :: 0 <= k < i ==> !throws(s[k]) && !p(s[k])) <==>
      (exists i :: 0 <= i < |s[1..]| && throws(s[1..][i]) && forall k :: 0 <= k < i ==> !throws(s[1..][k]) && !p(s[1..][k]))
  {
    if exists i :: 0 <= i < |s[1..]| && throws(s[1..][i]) && forall k :: 0 <= k < i ==> !throws(s[1..][k]) && !p(s[1..][k]) {
      var i :| 0 <= i < |s[1..]| && throws(s[1..][i]) && forall k :: 0 <= k < i ==> !throws(s[1..][k]) && !p(s[1..][k]);
      ThrowReachedFromTail(s, throws, p, i);
    }
    if exists i :: 0 <= i < |s| && throws(s[i]) && forall k :: 0 <= k < i ==> !throws(s[k]) && !p(s[k]) {
      var i :| 0 <= i < |s| && throws(s[i]) && forall k :: 0 <= k < i ==> !throws(s[k]) && !p(s[k]);
      ThrowReachedToTail(s, throws, p, i);
    }
  }

  lemma ThrowReachedFromTail<T>(s: seq<T>, throws: T -> bool, p: T -> bool, i: int)
    requires s != [] && !throws(s[0]) && !p(s[0])
    requires 0 <= i < |s| - 1 && throws(s[1..][i]) && forall k :: 0 <= k < i ==> !throws(s[1..][k]) && !p(s[1..][k])
    ensures throws(s[i + 1]) && forall k :: 0 <= k < i + 1 ==> !throws(s[k]) && !p(s[k])
  {
    assert s[i + 1] == s[1..][i];
    forall k | 0 < k < i + 1 ensures !throws(s[k]) && !p(s[k]) {
      assert s[k] == s[1..][k - 1];
    }
  }

  lemma ThrowReachedToTail<T>(s: seq<T>, throws: T -> bool, p: T -> bool, i: int)
    requires s != [] && !throws(s[0]) && !p(s[0])
    requires 0 <= i < |s| && throws(s[i]) && forall k :: 0 <= k < i ==> !throws(s[k]) && !p(s[k])
    ensures 0 < i && throws(s[1..][i - 1]) && forall k :: 0 <= k < i - 1 ==> !throws(s[1..][k]) && !p(s[1..][k])
  {
    assert s[1..][i - 1] == s[i];
    forall k | 0 <= k < i - 1 ensures !throws(s[1..][k]) && !p(s[1..][k]) {
      assert s[1..][k] == s[k + 1];
    }
  }

  /** The callback only throws if it reaches an element it throws on before
      any element that passes. */
  lemma {:induction false} FindCheckedThrows<T>(s: seq<T>, throws: T -> bool, p: T -> bool)
    ensures FindChecked(s, throws, p) == Thrown <==>
      exists i :: 0 <= i < |s| && throws(s[i]) && forall k :: 0 <= k < i ==> !throws(s[k]) && !p(s[k])
    decreases |s|
  {
    if s != [] {
      FindCheckedThrows(s[1..], throws, p);
      if throws(s[0]) {
        assert 0 <= 0 < |s| && throws(s[0]);
      } else if !p(s[0]) {
        ThrowReachedInTail(s, throws, p);
      } else {
        forall i | 0 <= i < |s| && throws(s[i]) ensures exists k :: 0 <= k < i && (throws(s[k]) || p(s[k])) {
          assert i > 0;
          assert 0 <= 0 < i && p(s[0]);
        }
      }
    }
  }

  /** A picked element is the first one the callback matches, and the callback
      neither threw nor matched on any element before it; no match means that
      the callback neither threw nor matched on any element. */
  lemma {:induction false} FindCheckedSpec<T>(s: seq<T>, throws: T -> bool, p: T -> bool)
    ensures FindChecked(s, throws, p).Picked? ==>
      exists i :: 0 <= i < |s| && s[i] == FindChecked(s, throws, p).value && p(s[i]) && !throws(s[i]) &&
        forall k :: 0 <= k < i ==> !throws(s[k]) && !p(s[k])
    ensures FindChecked(s, throws, p).NoMatch? <==> forall k :: 0 <= k < |s| ==> !throws(s[k]) && !p(s[k])
    decreases |s|
  {
    if s != [] && !throws(s[0]) && !p(s[0]) {
      FindCheckedSpec(s[1..], throws, p);
      if FindChecked(s, throws, p).NoMatch? {
        forall k | 0 <= k < |s| ensures !throws(s[k]) && !p(s[k]) {
          if k > 0 { assert s[k] == s[1..][k - 1]; }
        }
      }
      if FindChecked(s, throws, p).Picked? {
        var i :| 0 <= i < |s[1..]| && s[1..][i] == FindChecked(s, throws, p).value && p(s[1..][i]) && !throws(s[1..][i]) &&
          forall k :: 0 <= k < i ==> !throws(s[1..][k]) && !p(s[1..][k]);
        assert s[i + 1] == s[1..][i];
        forall k | 0 <= k < i + 1 ensures !throws(s[k]) && !p(s[k]) {
          if k > 0 { assert s[k] == s[1..][k - 1]; }
        }
      }
    } else if s != [] {
      assert !(!throws(s[0]) && !p(s[0]));
      if FindChecked(s, throws, p).Picked? {
        assert s[0] == FindChecked(s, throws, p).value;
      }
    }
  }
}

=== FILE: storage.dfy ===
/** The browser's durable storage, reduced to the one key the console uses. */
module Storage {
  import opened Wrappers

  /** `localStorage` under the key `'token'`: the stored bearer token, if any. */
  class TokenStore {
    var token: Option<string>

    constructor (initial: Option<string>)
      ensures token == initial
    {
      token := initial;
    }

    /** `localStorage.removeItem('token')`. */
    method Remove()
      modifies this
      ensures token.None?
    {
      token := None;
    }

    /** `localStorage.setItem('token', t)`. */
    method Put(t: string)
      modifies this
      ensures token == Some(t)
    {
      token := Some(t);
    }
  }
}

=== FILE: use_job_detail.dfy ===
/**
 * src/hooks/useJobDetail.js: one job and its expenses. A model (who is not
 * also a manager) sees only their own expenses; expenses that come without a
 * model name get one, looked up once per distinct model id. The route
 * parameter `jobId` is a string, "" when it is missing; `getModel` is the
 * parameter `fetchModel`, `None` where it rejects.
 */
module JobDetail {
  import opened Js
  import opened Wrappers
  import opened Sequences
  import opened Entities
  import opened Api
  import AuthContext

  const NoJobId := "No job ID provided"
  const FetchJobFailed := "Failed to fetch job details"
  const FetchExpensesFailed := "Failed to fetch expenses for this job"
  const CannotNavigate := "Cannot navigate to expenses page - missing required information"

  // ---------------------------------------------------------------------------
  // goToModelExpenses.

  /** What `goToModelExpenses` does. */
  datatype Navigation = Stay | NavigateTo(path: string) | ShowError(message: string)

  /** `/models/${modelId}/expenses?jobId=${jobId}`. */
  function ExpensesPath(modelId: Value, jobId: string): (path: string)
    ensures StartsWith(path, "/models/")
  {
    "/models/" + ToStr(modelId) + "/expenses?jobId=" + jobId
  }

  /** A model goes to their own expenses page; a manager to the page of the
      job's model; anyone else is told that information is missing. */
  function ExpensesNavigation(auth: AuthContext.State, job: Option<Job>, jobId: string): (nav: Navigation)
    ensures auth.currentUser.None? <==> nav == Stay
    ensures nav.ShowError? ==> nav.message == CannotNavigate
    ensures auth.currentUser.Some? && AuthContext.IsModel(auth) && Truthy(AuthContext.GetModelId(auth)) ==>
      nav == NavigateTo(ExpensesPath(AuthContext.GetModelId(auth), jobId))
    ensures auth.currentUser.Some? && !(AuthContext.IsModel(auth) && Truthy(AuthContext.GetModelId(auth))) &&
            AuthContext.IsManager(auth) && job.Some? && Truthy(job.value.modelId) ==>
      nav == NavigateTo(ExpensesPath(job.value.modelId, jobId))
    ensures nav.NavigateTo? && !(AuthContext.IsModel(auth) && Truthy(AuthContext.GetModelId(auth))) ==>
      AuthContext.IsManager(auth) && job.Some? && Truthy(job.value.modelId) &&
      nav.path == ExpensesPath(job.value.modelId, jobId)
  {
    var cmid := AuthContext.GetModelId(auth);
    if auth.currentUser.None? then Stay
    else if AuthContext.IsModel(auth) && Truthy(cmid) then NavigateTo(ExpensesPath(cmid, jobId))
    else if AuthContext.IsManager(auth) && job.Some? && Truthy(job.value.modelId) then
      NavigateTo(ExpensesPath(job.value.modelId, jobId))
    else ShowError(CannotNavigate)
  }

  /** A model with an email always reaches their own expenses page, even when
      they are a manager too and the job names another model. */
  lemma ModelNavigatesToOwnExpenses(auth: AuthContext.State, job: Option<Job>, jobId: string)
    requires AuthContext.IsModel(auth) && Truthy(auth.currentUser.value.email)
    ensures ExpensesNavigation(auth, job, jobId) == NavigateTo(ExpensesPath(AuthContext.GetModelId(auth), jobId))
  {
    AuthContext.ModelHasModelId(auth);
  }

  // ---------------------------------------------------------------------------
  // refreshExpenses.

  /** `String(exp.modelId) === String(currentModelId)`. */
  predicate OwnedBy(e: Expense, modelId: Value) {
    ToStr(e.modelId) == ToStr(modelId)
  }

  /** The expenses a user sees of those the job has. */
  function VisibleExpenses(es: seq<Expense>, auth: AuthContext.State): (r: seq<Expense>)
    ensures IsSubseq(r, es)
    ensures AuthContext.IsModel(auth) && !AuthContext.IsManager(auth) && Truthy(AuthContext.GetModelId(auth)) ==>
      (forall e :: e in r <==> e in es && OwnedBy(e, AuthContext.GetModelId(auth))) &&
      (forall e :: multiset(r)[e] == if OwnedBy(e, AuthContext.GetModelId(auth)) then multiset(es)[e] else 0)
    ensures !(AuthContext.IsModel(auth) && !AuthContext.IsManager(auth) && Truthy(AuthContext.GetModelId(auth))) ==> r == es
  {
    var cmid := AuthContext.GetModelId(auth);
    if AuthContext.IsModel(auth) && !AuthContext.IsManager(auth) && Truthy(cmid) then
      FilterSpec(es, (e: Expense) => OwnedBy(e, cmid));
      Filter(es, (e: Expense) => OwnedBy(e, cmid))
    else
      SubseqOfItself(es);
      es
  }

  /** `jobExpenses.map(exp => exp.modelId)`. */
  function ModelIds(es: seq<Expense>): (ids: seq<Value>)
    ensures |ids| == |es| && forall i :: 0 <= i < |es| ==> ids[i] == es[i].modelId
  {
    seq(|es|, i requires 0 <= i < |es| => es[i].modelId)
  }

  /** `[...new Set(values)]`: each value once, in order of first appearance. */
  function Distinct(vs: seq<Value>): (r: seq<Value>)
    ensures forall v :: v in r <==> v in vs
    ensures forall i, j :: 0 <= i < j < |r| ==> r[i] != r[j]
    decreases |vs|
  {
    if vs == [] then []
    else
      var init := Distinct(vs[..|vs| - 1]);
      assert vs == vs[..|vs| - 1] + [vs[|vs| - 1]];
      if vs[|vs| - 1] in vs[..|vs| - 1] then init else init + [vs[|vs| - 1]]
  }

  /** `u` occurs in `vs` before the first occurrence of `w`. */
  predicate OccursBeforeFirst(vs: seq<Value>, u: Value, w: Value) {
    exists a :: 0 <= a < |vs| && vs[a] == u && w !in vs[..a]
  }

  lemma OccursBeforeFirstExtended(p: seq<Value>, y: Value, u: Value, w: Value)
    requires OccursBeforeFirst(p, u, w)
    ensures OccursBeforeFirst(p + [y], u, w)
  {
    var a :| 0 <= a < |p| && p[a] == u && w !in p[..a];
    assert (p + [y])[..a] == p[..a] && (p + [y])[a] == p[a];
  }

  lemma OccursBeforeNew(p: seq<Value>, y: Value, u: Value)
    requires u in p && y !in p
    ensures OccursBeforeFirst(p + [y], u, y)
  {
    var a :| 0 <= a < |p| && p[a] == u;
    assert (p + [y])[..a] == p[..a] && (p + [y])[a] == p[a];
    assert forall z :: z in p[..a] ==> z in p;
  }

  /** The values come in order of first appearance: each one occurs in `vs`
      before the first occurrence of every value after it. */
  lemma {:induction false} DistinctInFirstOrder(vs: seq<Value>)
    ensures forall i, j :: 0 <= i < j < |Distinct(vs)| ==> OccursBeforeFirst(vs, Distinct(vs)[i], Distinct(vs)[j])
    decreases |vs|
  {
    if vs != [] {
      var p, x := vs[..|vs| - 1], vs[|vs| - 1];
      assert vs == p + [x];
      var init, r := Distinct(p), Distinct(vs);
      DistinctInFirstOrder(p);
      assert r == if x in p then init else init + [x];
      forall i, j | 0 <= i < j < |r| ensures OccursBeforeFirst(vs, r[i], r[j]) {
        assert r[i] == init[i];
        if j < |init| {
          assert r[j] == init[j];
          assert OccursBeforeFirst(p, init[i], init[j]);
          OccursBeforeFirstExtended(p, x, init[i], init[j]);
        } else {
          assert init[i] in init;
          OccursBeforeNew(p, x, init[i]);
        }
      }
    }
  }

  /** `modelsMap` after the loop over `ids`: each id whose model could be
      fetched is stored under its string form, a later id overwriting an
      earlier one with the same string form. */
  function ModelsMapOf(ids: seq<Value>, fetchModel: Value -> Option<ModelRecord>): map<string, ModelRecord>
    decreases |ids|
  {
    if ids == [] then map[]
    else
      var before := ModelsMapOf(ids[..|ids| - 1], fetchModel);
      var last := ids[|ids| - 1];
      if fetchModel(last).Some? then before[ToStr(last) := fetchModel(last).value] else before
  }

  /** Every key of the map is the string form of an id whose model was
      fetched, and it holds the model fetched for the last such id. */
  lemma {:induction false} ModelsMapKeys(ids: seq<Value>, fetchModel: Value -> Option<ModelRecord>, key: string)
    requires key in ModelsMapOf(ids, fetchModel)
    ensures exists i :: 0 <= i < |ids| && ToStr(ids[i]) == key && fetchModel(ids[i]) == Some(ModelsMapOf(ids, fetchModel)[key])
    decreases |ids|
  {
    var last := ids[|ids| - 1];
    if fetchModel(last).Some? && ToStr(last) == key {
      assert ToStr(ids[|ids| - 1]) == key;
    } else {
      ModelsMapKeys(ids[..|ids| - 1], fetchModel, key);
      var i :| 0 <= i < |ids[..|ids| - 1]| && ToStr(ids[..|ids| - 1][i]) == key &&
        fetchModel(ids[..|ids| - 1][i]) == Some(ModelsMapOf(ids[..|ids| - 1], fetchModel)[key]);
      assert ids[i] == ids[..|ids| - 1][i];
    }
  }

  /** When no two ids share a string form, the map holds exactly the model
      fetched for each id, under that id's string form. */
  lemma {:induction false} ModelsMapLookup(ids: seq<Value>, fetchModel: Value -> Option<ModelRecord>, i: int)
    requires 0 <= i < |ids|
    requires forall j, k :: 0 <= j < k < |ids| ==> ToStr(ids[j]) != ToStr(ids[k])
    ensures ToStr(ids[i]) in ModelsMapOf(ids, fetchModel) <==> fetchModel(ids[i]).Some?
    ensures fetchModel(ids[i]).Some? ==> ModelsMapOf(ids, fetchModel)[ToStr(ids[i])] == fetchModel(ids[i]).value
    decreases |ids|
  {
    var init := ids[..|ids| - 1];
    if i < |ids| - 1 {
      assert init[i] == ids[i];
      ModelsMapLookup(init, fetchModel, i);
    } else if ToStr(ids[i]) in ModelsMapOf(init, fetchModel) {
      // the key would come from an earlier id with the same string form
      ModelsMapKeys(init, fetchModel, ToStr(ids[i]));
      assert false;
    }
  }

  /** The loop `for (const modelId of modelIds)` that fills `modelsMap`; a
      model that cannot be fetched is skipped. */
  method BuildModelsMap(ids: seq<Value>, fetchModel: Value -> Option<ModelRecord>) returns (modelsMap: map<string, ModelRecord>)
    ensures modelsMap == ModelsMapOf(ids, fetchModel)
  {
    modelsMap := map[];
    var n := 0;
    while n < |ids|
      invariant 0 <= n <= |ids|
      invariant modelsMap == ModelsMapOf(ids[..n], fetchModel)
    {
      assert ids[..n + 1][..n] == ids[..n];
      var modelData := fetchModel(ids[n]);
      if modelData.Some? {
        modelsMap := modelsMap[ToStr(ids[n]) := modelData.value];
      }
      n := n + 1;
    }
    assert ids[..|ids|] == ids;
  }

  /** The name shown for an expense: the fetched model's first and last name,
      or 'Model #<id>' when no model was fetched for its id. */
  function ModelName(e: Expense, modelsMap: map<string, ModelRecord>): (name: string)
    ensures ToStr(e.modelId) in modelsMap ==>
      name == ToStr(modelsMap[ToStr(e.modelId)].firstName) + " " + ToStr(modelsMap[ToStr(e.modelId)].lastName)
    ensures ToStr(e.modelId) !in modelsMap ==> name == "Model #" + ToStr(e.modelId)
    ensures name != ""
  {
    if ToStr(e.modelId) in modelsMap then
      var m := modelsMap[ToStr(e.modelId)];
      ToStr(m.firstName) + " " + ToStr(m.lastName)
    else "Model #" + ToStr(e.modelId)
  }

  /** Every expense gets a name; nothing else about it changes. */
  function Enrich(es: seq<Expense>, modelsMap: map<string, ModelRecord>): (r: seq<Expense>)
    ensures |r| == |es|
    ensures forall i :: 0 <= i < |es| ==> r[i] == es[i].(modelName := ModelName(es[i], modelsMap)) && r[i].modelName != ""
  {
    seq(|es|, i requires 0 <= i < |es| => es[i].(modelName := ModelName(es[i], modelsMap)))
  }

  /** The expense list `refreshExpenses` stores for the job's expenses `es`:
      names are looked up only when the first visible expense has none. */
  function RefreshedExpenses(es: seq<Expense>, auth: AuthContext.State, fetchModel: Value -> Option<ModelRecord>): (r: seq<Expense>)
    ensures |r| == |VisibleExpenses(es, auth)|
    ensures var own := VisibleExpenses(es, auth);
      forall i :: 0 <= i < |r| ==> r[i].(modelName := own[i].modelName) == own[i]
    ensures var own := VisibleExpenses(es, auth);
      own != [] && own[0].modelName == "" ==> forall i :: 0 <= i < |r| ==> r[i].modelName != ""
    ensures var own := VisibleExpenses(es, auth);
      own == [] || own[0].modelName != "" ==> r == own
    ensures var own := VisibleExpenses(es, auth);
      own != [] && own[0].modelName == "" ==>
        forall i :: 0 <= i < |r| ==> r[i].modelName == ModelName(own[i], ModelsMapOf(Distinct(ModelIds(own)), fetchModel))
  {
    var own := VisibleExpenses(es, auth);
    if |own| > 0 && own[0].modelName == "" then Enrich(own, ModelsMapOf(Distinct(ModelIds(own)), fetchModel))
    else own
  }

  /** Once names are looked up, an expense whose model could be fetched is
      named after that model, provided no two model ids print alike. */
  lemma FetchedModelNamesExpense(es: seq<Expense>, fetchModel: Value -> Option<ModelRecord>, i: int, m: ModelRecord)
    requires 0 <= i < |es|
    requires forall j, k :: 0 <= j < |es| && 0 <= k < |es| && ToStr(es[j].modelId) == ToStr(es[k].modelId) ==>
      es[j].modelId == es[k].modelId
    requires fetchModel(es[i].modelId) == Some(m)
    ensures Enrich(es, ModelsMapOf(Distinct(ModelIds(es)), fetchModel))[i].modelName ==
      ToStr(m.firstName) + " " + ToStr(m.lastName)
  {
    var ids := Distinct(ModelIds(es));
    assert es[i].modelId in ModelIds(es);
    var p :| 0 <= p < |ids| && ids[p] == es[i].modelId;
    forall j, k | 0 <= j < k < |ids| ensures ToStr(ids[j]) != ToStr(ids[k]) {
      assert ids[j] in ModelIds(es) && ids[k] in ModelIds(es);
      var a :| 0 <= a < |es| && es[a].modelId == ids[j];
      var b :| 0 <= b < |es| && es[b].modelId == ids[k];
    }
    ModelsMapLookup(ids, fetchModel, p);
  }

  /** The hook's state (the loading flag is left out). */
  class JobDetailPage {
    var job: Option<Job>
    var expenses: seq<Expense>
    var error: string
    var expenseError: string

    constructor ()
      ensures job.None? && expenses == [] && error == "" && expenseError == ""
    {
      job := None;
      expenses := [];
      error := "";
      expenseError := "";
    }

    /** `refreshExpenses()`. */
    method RefreshExpenses(auth: AuthContext.State, jobId: string, reply: Call<seq<Expense>>,
                           fetchModel: Value -> Option<ModelRecord>)
      modifies this
      ensures jobId == "" ==> expenses == old(expenses) && expenseError == old(expenseError)
      ensures jobId != "" && reply.Rejected? ==> expenses == old(expenses) && expenseError == FetchExpensesFailed
      ensures jobId != "" && reply.Fetched? ==>
        expenses == RefreshedExpenses(reply.value, auth, fetchModel) && expenseError == ""
      ensures job == old(job) && error == old(error)
    {
      if jobId == "" {
        return;
      }
      if reply.Rejected? {
        expenseError := FetchExpensesFailed;
        return;
      }
      var own := VisibleExpenses(reply.value, auth);
      if |own| > 0 && own[0].modelName == "" {
        var modelsMap := BuildModelsMap(Distinct(ModelIds(own)), fetchModel);
        own := Enrich(own, modelsMap);
      }
      expenses := own;
      expenseError := "";
    }

    /** The fetch effect: the job, then its expenses. */
    method Load(auth: AuthContext.State, jobId: string, jobReply: Call<Job>, reply: Call<seq<Expense>>,
                fetchModel: Value -> Option<ModelRecord>)
      modifies this
      ensures jobId == "" ==>
        job == old(job) && expenses == old(expenses) && expenseError == old(expenseError) && error == NoJobId
      ensures jobId != "" && jobReply.Rejected? ==>
        job == old(job) && expenses == old(expenses) && expenseError == old(expenseError) && error == FetchJobFailed
      ensures jobId != "" && jobReply.Fetched? ==>
        job == Some(jobReply.value) && error == "" &&
        (reply.Rejected? ==> expenses == old(expenses) && expenseError == FetchExpensesFailed) &&
        (reply.Fetched? ==> expenses == RefreshedExpenses(reply.value, auth, fetchModel) && expenseError == "")
    {
      error := "";
      if jobId == "" {
        error := NoJobId;
        return;
      }
      if jobReply.Rejected? {
        error := FetchJobFailed;
        return;
      }
      job := Some(jobReply.value);
      RefreshExpenses(auth, jobId, reply, fetchModel);
    }

    /** `goToModelExpenses()`: the path navigated to, if any. */
    method GoToModelExpenses(auth: AuthContext.State, jobId: string) returns (path: Option<string>)
      modifies this
      ensures var nav := ExpensesNavigation(auth, old(job), jobId);
        (path.Some? <==> nav.NavigateTo?) && (path.Some? ==> path.value == nav.path) &&
        expenseError == (if nav.ShowError? then nav.message else old(expenseError))
      ensures job == old(job) && expenses == old(expenses) && error == old(error)
    {
      var nav := ExpensesNavigation(auth, job, jobId);
      path := None;
      if nav.NavigateTo? {
        path := Some(nav.path);
      } else if nav.ShowError? {
        expenseError := nav.message;
      }
    }
  }
}

=== FILE: use_jobs_list.dfy ===
/**
 * src/hooks/useJobsList.js: the jobs page. A model (who is not also a
 * manager) sees only the jobs they are assigned to; a job id in the URL
 * selects that job; managers can add a model to a job, remove one, and delete
 * a job. Each backend call is an input (`Call`), and the confirmation dialog
 * is the boolean `confirmed`.
 */
module JobsList {
  import opened Js
  import opened Wrappers
  import opened Sequences
  import opened Entities
  import opened Api
  import AuthContext

  const FetchJobsFailed := "Failed to fetch jobs data"

  /** The jobs the page shows out of everything `/Jobs` returned. */
  function VisibleJobs(jobs: seq<Job>, auth: AuthContext.State): (r: seq<Job>)
    ensures IsSubseq(r, jobs)
    ensures AuthContext.IsModel(auth) && !AuthContext.IsManager(auth) && Truthy(AuthContext.GetModelId(auth)) ==>
      (forall j :: j in r <==> j in jobs && IsAssignedTo(j, AuthContext.GetModelId(auth))) &&
      (forall j :: multiset(r)[j] == if IsAssignedTo(j, AuthContext.GetModelId(auth)) then multiset(jobs)[j] else 0)
    ensures !(AuthContext.IsModel(auth) && !AuthContext.IsManager(auth) && Truthy(AuthContext.GetModelId(auth))) ==> r == jobs
  {
    if AuthContext.IsModel(auth) && !AuthContext.IsManager(auth) && Truthy(AuthContext.GetModelId(auth)) then
      JobsAssignedTo(jobs, AuthContext.GetModelId(auth))
    else
      SubseqOfItself(jobs);
      jobs
  }

  /** The job a URL id names: `filteredJobs.find(job => job.jobId.toString() === id)`. */
  function JobFromUrl(jobs: seq<Job>, id: string): (r: Pick<Job>)
    ensures r.Picked? ==>
      exists i :: 0 <= i < |jobs| && jobs[i] == r.value && !(jobs[i].jobId.Undefined? || jobs[i].jobId.Null?) &&
        ToStr(jobs[i].jobId) == id &&
        forall k :: 0 <= k < i ==> !(jobs[k].jobId.Undefined? || jobs[k].jobId.Null?) && ToStr(jobs[k].jobId) != id
    ensures r.NoMatch? <==>
      forall k :: 0 <= k < |jobs| ==> !(jobs[k].jobId.Undefined? || jobs[k].jobId.Null?) && ToStr(jobs[k].jobId) != id
    ensures r.Thrown? <==>
      exists i :: 0 <= i < |jobs| && (jobs[i].jobId.Undefined? || jobs[i].jobId.Null?) &&
        forall k :: 0 <= k < i ==> !(jobs[k].jobId.Undefined? || jobs[k].jobId.Null?) && ToStr(jobs[k].jobId) != id
  {
    FindByKeyText(jobs, (j: Job) => j.jobId, id)
  }

  /** A job list with a job whose `jobId` is missing makes the lookup throw
      unless a match comes first; once every job has an id, the lookup finds
      exactly the jobs whose id prints as the URL id. */
  lemma JobFromUrlThrowsOnlyOnMissingIds(jobs: seq<Job>, id: string)
    ensures JobFromUrl(jobs, id).Thrown? ==> exists k :: 0 <= k < |jobs| && (jobs[k].jobId.Undefined? || jobs[k].jobId.Null?)
    ensures (forall k :: 0 <= k < |jobs| ==> !jobs[k].jobId.Undefined? && !jobs[k].jobId.Null?) ==>
      (JobFromUrl(jobs, id).Picked? <==> exists k :: 0 <= k < |jobs| && ToStr(jobs[k].jobId) == id)
  {
    var r := FindByKeyText(jobs, (j: Job) => j.jobId, id);
    assert r == JobFromUrl(jobs, id);
  }

  /** After a refresh, a selected job with this `jobId` is replaced by its
      fresh copy (the first one in the new list), or by nothing if the job is
      gone; any other selection stays. */
  function RefreshedSelection(selected: Option<Job>, updated: seq<Job>, jobId: Value): (r: Option<Job>)
    ensures selected.Some? && selected.value.jobId == jobId ==>
      (r.Some? ==>
         exists i :: 0 <= i < |updated| && updated[i] == r.value && updated[i].jobId == jobId &&
           forall k :: 0 <= k < i ==> updated[k].jobId != jobId) &&
      (r.None? <==> forall k :: 0 <= k < |updated| ==> updated[k].jobId != jobId)
    ensures !(selected.Some? && selected.value.jobId == jobId) ==> r == selected
  {
    FindSpec(updated, (j: Job) => j.jobId == jobId);
    if selected.Some? && selected.value.jobId == jobId then Find(updated, (j: Job) => j.jobId == jobId)
    else selected
  }

  /** `jobs.filter(job => job.jobId !== jobId)`. */
  function WithoutJob(jobs: seq<Job>, jobId: Value): (r: seq<Job>)
    ensures forall j :: j in r <==> j in jobs && j.jobId != jobId
    ensures forall j :: multiset(r)[j] == if j.jobId != jobId then multiset(jobs)[j] else 0
    ensures IsSubseq(r, jobs)
  {
    FilterSpec(jobs, (j: Job) => j.jobId != jobId);
    Filter(jobs, (j: Job) => j.jobId != jobId)
  }

  /** Deleting a job keeps the selection inside the list: a selected job that
      was listed and not deleted is still listed, and a deleted one is
      unselected. */
  lemma DeleteKeepsSelectionListed(jobs: seq<Job>, selected: Option<Job>, jobId: Value)
    requires selected.Some? ==> selected.value in jobs
    ensures var after := if selected.Some? && selected.value.jobId == jobId then None else selected;
      after.Some? ==> after.value in WithoutJob(jobs, jobId)
  {
  }

  /** The hook's state (the loading flag is left out). */
  class JobsListPage {
    var jobs: seq<Job>
    var models: seq<ModelRecord>
    var error: string
    var selectedJob: Option<Job>
    var selectedModel: string

    constructor ()
      ensures jobs == [] && models == [] && error == "" && selectedJob.None? && selectedModel == ""
    {
      jobs := [];
      models := [];
      error := "";
      selectedJob := None;
      selectedModel := "";
    }

    /** The fetch effect for the URL id `id` ("" when there is none). The job
        list is stored before the URL lookup and the model fetch, so a failure
        in either leaves it in place beside the error. */
    method Load(auth: AuthContext.State, id: string, jobsReply: Call<seq<Job>>, modelsReply: Call<seq<ModelRecord>>)
      modifies this
      ensures jobsReply.Rejected? ==>
        jobs == old(jobs) && selectedJob == old(selectedJob) && models == old(models) && error == FetchJobsFailed
      ensures jobsReply.Fetched? ==> jobs == VisibleJobs(jobsReply.value, auth)
      ensures jobsReply.Fetched? && id != "" && JobFromUrl(jobs, id).Thrown? ==>
        selectedJob == old(selectedJob) && models == old(models) && error == FetchJobsFailed
      ensures jobsReply.Fetched? && !(id != "" && JobFromUrl(jobs, id).Thrown?) ==>
        selectedJob == (if id != "" && JobFromUrl(jobs, id).Picked? then Some(JobFromUrl(jobs, id).value) else old(selectedJob)) &&
        models == (if AuthContext.IsManager(auth) && modelsReply.Fetched? then modelsReply.value else old(models)) &&
        error == (if AuthContext.IsManager(auth) && modelsReply.Rejected? then FetchJobsFailed else "")
      ensures selectedModel == old(selectedModel)
    {
      error := "";
      if jobsReply.Rejected? {
        error := FetchJobsFailed;
        return;
      }
      jobs := VisibleJobs(jobsReply.value, auth);
      if id != "" {
        var fromUrl := JobFromUrl(jobs, id);
        if fromUrl.Thrown? {
          error := FetchJobsFailed;
          return;
        } else if fromUrl.Picked? {
          selectedJob := Some(fromUrl.value);
        }
      }
      if AuthContext.IsManager(auth) {
        if modelsReply.Fetched? {
          models := modelsReply.value;
        } else {
          error := FetchJobsFailed;
        }
      }
    }

    /** `addModelToJob(jobId)`: nothing happens until a model is chosen; then
        the assignment is posted and the whole (unfiltered) job list refetched. */
    method AddModelToJob(jobId: Value, added: Call<()>, refetched: Call<seq<Job>>)
      modifies this
      ensures old(selectedModel) == "" ==>
        jobs == old(jobs) && selectedJob == old(selectedJob) && error == old(error) && selectedModel == old(selectedModel)
      ensures old(selectedModel) != "" && (added.Rejected? || refetched.Rejected?) ==>
        jobs == old(jobs) && selectedJob == old(selectedJob) && selectedModel == old(selectedModel) &&
        error == "Failed to add model to job " + ToStr(jobId)
      ensures old(selectedModel) != "" && added.Fetched? && refetched.Fetched? ==>
        jobs == refetched.value && selectedJob == RefreshedSelection(old(selectedJob), refetched.value, jobId) &&
        selectedModel == "" && error == ""
      ensures models == old(models)
    {
      if selectedModel == "" {
        return;
      }
      error := "";
      if added.Rejected? || refetched.Rejected? {
        error := "Failed to add model to job " + ToStr(jobId);
        return;
      }
      jobs := refetched.value;
      selectedJob := RefreshedSelection(selectedJob, refetched.value, jobId);
      selectedModel := "";
    }

    /** `removeModelFromJob(jobId, modelId)`. */
    method RemoveModelFromJob(jobId: Value, removed: Call<()>, refetched: Call<seq<Job>>)
      modifies this
      ensures removed.Rejected? || refetched.Rejected? ==>
        jobs == old(jobs) && selectedJob == old(selectedJob) && error == "Failed to remove model from job " + ToStr(jobId)
      ensures removed.Fetched? && refetched.Fetched? ==>
        jobs == refetched.value && selectedJob == RefreshedSelection(old(selectedJob), refetched.value, jobId) && error == ""
      ensures models == old(models) && selectedModel == old(selectedModel)
    {
      error := "";
      if removed.Rejected? || refetched.Rejected? {
        error := "Failed to remove model from job " + ToStr(jobId);
        return;
      }
      jobs := refetched.value;
      selectedJob := RefreshedSelection(selectedJob, refetched.value, jobId);
    }

    /** `deleteJob(jobId)`, once the user has confirmed (or not). */
    method DeleteJob(confirmed: bool, jobId: Value, reply: Call<()>)
      modifies this
      ensures !confirmed ==> jobs == old(jobs) && selectedJob == old(selectedJob) && error == old(error)
      ensures confirmed && reply.Rejected? ==>
        jobs == old(jobs) && selectedJob == old(selectedJob) && error == "Failed to delete job " + ToStr(jobId)
      ensures confirmed && reply.Fetched? ==>
        jobs == WithoutJob(old(jobs), jobId) && error == "" &&
        selectedJob == (if old(selectedJob).Some? && old(selectedJob).value.jobId == jobId then None else old(selectedJob))
      ensures models == old(models) && selectedModel == old(selectedModel)
    {
      if !confirmed {
        return;
      }
      error := "";
      if reply.Rejected? {
        error := "Failed to delete job " + ToStr(jobId);
        return;
      }
      jobs := WithoutJob(jobs, jobId);
      if selectedJob.Some? && selectedJob.value.jobId == jobId {
        selectedJob := None;
      }
    }
  }
}

=== FILE: use_managers_list.dfy ===
/**
 * src/hooks/useManagersList.js: the managers page. The list is fetched once
 * per URL id; the URL id selects a manager, and without one the first manager
 * is selected. Deleting the selected manager moves the selection to another
 * manager of the list.
 */
module ManagersList {
  import opened Js
  import opened Wrappers
  import opened Sequences
  import opened Entities
  import opened Api

  const FetchManagersFailed := "Failed to fetch managers"
  const DeleteManagerFailed := "Failed to delete manager"

  /** `data.find(manager => manager.managerId.toString() === id)`. */
  function ManagerFromUrl(managers: seq<Manager>, id: string): (r: Pick<Manager>)
    ensures r.Picked? ==>
      exists i :: 0 <= i < |managers| && managers[i] == r.value &&
        !(managers[i].managerId.Undefined? || managers[i].managerId.Null?) && ToStr(managers[i].managerId) == id &&
        forall k :: 0 <= k < i ==> !(managers[k].managerId.Undefined? || managers[k].managerId.Null?) &&
                                   ToStr(managers[k].managerId) != id
    ensures r.NoMatch? <==>
      forall k :: 0 <= k < |managers| ==>
        !(managers[k].managerId.Undefined? || managers[k].managerId.Null?) && ToStr(managers[k].managerId) != id
    ensures r.Thrown? <==>
      exists i :: 0 <= i < |managers| && (managers[i].managerId.Undefined? || managers[i].managerId.Null?) &&
        forall k :: 0 <= k < i ==> !(managers[k].managerId.Undefined? || managers[k].managerId.Null?) &&
                                   ToStr(managers[k].managerId) != id
  {
    FindByKeyText(managers, (m: Manager) => m.managerId, id)
  }

  /** `managers.filter(manager => manager.managerId !== id)`. */
  function WithoutManager(managers: seq<Manager>, id: Value): (r: seq<Manager>)
    ensures forall m :: m in r <==> m in managers && m.managerId != id
    ensures forall m :: multiset(r)[m] == if m.managerId != id then multiset(managers)[m] else 0
    ensures IsSubseq(r, managers)
  {
    FilterSpec(managers, (m: Manager) => m.managerId != id);
    Filter(managers, (m: Manager) => m.managerId != id)
  }

  /** The selection after `id` was deleted from `managers` (the list as it was
      before the deletion): a selected manager with that id is replaced by the
      first manager with another id, provided the old list had more than one
      entry; any other selection stays. */
  function SelectionAfterDelete(managers: seq<Manager>, selected: Option<Manager>, id: Value): (r: Option<Manager>)
    ensures !(selected.Some? && selected.value.managerId == id) ==> r == selected
    ensures selected.Some? && selected.value.managerId == id && |managers| <= 1 ==> r.None?
    ensures selected.Some? && selected.value.managerId == id && |managers| > 1 ==>
      r == Find(managers, (m: Manager) => m.managerId != id)
  {
    if selected.Some? && selected.value.managerId == id then
      if |managers| > 1 then Find(managers, (m: Manager) => m.managerId != id) else None
    else selected
  }

  /** When the deleted manager was the selected one and it was listed, the
      selection moves to the head of the remaining list, or to nothing when
      no manager remains; it never points at a manager that is gone. */
  lemma SelectionMovesToFirstRemaining(managers: seq<Manager>, selected: Manager, id: Value)
    requires selected in managers && selected.managerId == id
    ensures var r := SelectionAfterDelete(managers, Some(selected), id);
      r == if WithoutManager(managers, id) == [] then None else Some(WithoutManager(managers, id)[0])
  {
    FindIsFirstKept(managers, (m: Manager) => m.managerId != id);
    if |managers| <= 1 {
      assert managers == [selected];
    }
  }

  /** Deleting a manager keeps the selection inside the list: if it was
      listed (or empty) before, it is listed (or empty) afterwards. */
  lemma DeleteKeepsSelectionListed(managers: seq<Manager>, selected: Option<Manager>, id: Value)
    requires selected.Some? ==> selected.value in managers
    ensures var r := SelectionAfterDelete(managers, selected, id);
      r.Some? ==> r.value in WithoutManager(managers, id)
  {
    if selected.Some? && selected.value.managerId == id {
      SelectionMovesToFirstRemaining(managers, selected.value, id);
    }
  }

  /** The hook's state (the loading flag is left out). */
  class ManagersPage {
    var managers: seq<Manager>
    var error: string
    var selectedManager: Option<Manager>

    constructor ()
      ensures managers == [] && error == "" && selectedManager.None?
    {
      managers := [];
      error := "";
      selectedManager := None;
    }

    /** The fetch effect for the URL id `id` ("" when there is none). The
        error is set on failure and never cleared here. */
    method Load(id: string, reply: Call<seq<Manager>>)
      modifies this
      ensures reply.Rejected? ==>
        managers == old(managers) && selectedManager == old(selectedManager) && error == FetchManagersFailed
      ensures reply.Fetched? ==> managers == reply.value
      ensures reply.Fetched? && id != "" ==>
        match ManagerFromUrl(reply.value, id)
        case Picked(m) => selectedManager == Some(m) && error == old(error)
        case NoMatch => selectedManager == old(selectedManager) && error == old(error)
        case Thrown => selectedManager == old(selectedManager) && error == FetchManagersFailed
      ensures reply.Fetched? && id == "" ==>
        error == old(error) &&
        selectedManager == if reply.value != [] then Some(reply.value[0]) else old(selectedManager)
    {
      if reply.Rejected? {
        error := FetchManagersFailed;
        return;
      }
      managers := reply.value;
      if id != "" {
        var fromUrl := ManagerFromUrl(reply.value, id);
        if fromUrl.Picked? {
          selectedManager := Some(fromUrl.value);
        } else if fromUrl.Thrown? {
          error := FetchManagersFailed;
        }
      } else if |reply.value| > 0 {
        selectedManager := Some(reply.value[0]);
      }
    }

    /** `deleteManager(id)`, once the user has confirmed (or not). */
    method DeleteManager(confirmed: bool, id: Value, reply: Call<()>)
      modifies this
      ensures !confirmed || reply.Rejected? ==>
        managers == old(managers) && selectedManager == old(selectedManager)
      ensures error == if confirmed && reply.Rejected? then DeleteManagerFailed else old(error)
      ensures confirmed && reply.Fetched? ==>
        managers == WithoutManager(old(managers), id) &&
        selectedManager == SelectionAfterDelete(old(managers), old(selectedManager), id)
    {
      if !confirmed {
        return;
      }
      if reply.Rejected? {
        error := DeleteManagerFailed;
        return;
      }
      var before := managers;
      managers := WithoutManager(before, id);
      selectedManager := SelectionAfterDelete(before, selectedManager, id);
    }
  }
}

=== FILE: use_model_expenses.dfy ===
/**
 * src/hooks/useModelExpenses.js: the expense page of one model. Who may see
 * and change the expenses, how the fetched list is normalised and cleared of
 * duplicate ids, the job and text filters, the job choices of the form, and
 * the add, edit and delete handlers.
 */
module ModelExpenses {
  import opened Js
  import opened Wrappers
  import opened Sequences
  import opened Entities
  import opened Api
  import AuthContext

  // ---------------------------------------------------------------------------
  // Permissions. `routeId` is the `:id` route parameter (a string, or
  // undefined); the auth values come from the session.

  /** `currentUser?.email && currentUser.email === id`. */
  predicate EmailIsRouteId(auth: AuthContext.State, routeId: Value) {
    auth.currentUser.Some? && Truthy(auth.currentUser.value.email) && auth.currentUser.value.email == routeId
  }

  /** `String(currentModelId) === String(id)` for a truthy `currentModelId`. */
  predicate ModelIdIsRouteId(auth: AuthContext.State, routeId: Value) {
    var cmid := AuthContext.GetModelId(auth);
    Truthy(cmid) && ToStr(cmid) == ToStr(routeId)
  }

  /** `canViewExpenses`. */
  predicate CanViewExpenses(auth: AuthContext.State, routeId: Value) {
    AuthContext.IsManager(auth) ||
    (AuthContext.IsModel(auth) && Truthy(AuthContext.GetModelId(auth)) &&
     (ModelIdIsRouteId(auth, routeId) || EmailIsRouteId(auth, routeId)))
  }

  /** `canModifyExpenses`. */
  predicate CanModifyExpenses(auth: AuthContext.State, routeId: Value) {
    AuthContext.IsModel(auth) && (ModelIdIsRouteId(auth, routeId) || EmailIsRouteId(auth, routeId))
  }

  /** Only a model may change expenses, and only expenses it may also see; a
      manager may see every model's expenses. */
  lemma PermissionsNest(auth: AuthContext.State, routeId: Value)
    ensures CanModifyExpenses(auth, routeId) ==> AuthContext.IsModel(auth)
    ensures CanModifyExpenses(auth, routeId) ==> CanViewExpenses(auth, routeId)
    ensures AuthContext.IsManager(auth) ==> CanViewExpenses(auth, routeId)
    ensures AuthContext.IsManager(auth) && !AuthContext.IsModel(auth) ==> !CanModifyExpenses(auth, routeId)
  {
    if CanModifyExpenses(auth, routeId) && EmailIsRouteId(auth, routeId) {
      AuthContext.ModelHasModelId(auth);
    }
  }

  // ---------------------------------------------------------------------------
  // Normalisation of the fetched list.

  /** The key a job is filed under in `jobLookup`: `String(job.id || job.jobId)`. */
  function LookupKey(job: Job): string {
    ToStr(Or(job.id, job.jobId))
  }

  /** `job.customer || job.name || `Job #${jobId}``. */
  function LookupCustomer(job: Job): (customer: string)
    ensures customer != ""
  {
    OrText(job.customer, OrText(job.name, "Job #" + LookupKey(job)))
  }

  /** The lookup `allJobs.forEach` builds; a later job with the same key wins. */
  function JobLookupOf(jobs: seq<Job>): map<string, string>
    decreases |jobs|
  {
    if jobs == [] then map[]
    else JobLookupOf(jobs[..|jobs| - 1])[LookupKey(jobs[|jobs| - 1]) := LookupCustomer(jobs[|jobs| - 1])]
  }

  /** A key is in the lookup exactly when some job has it. */
  lemma {:induction false} JobLookupKeys(jobs: seq<Job>, k: string)
    ensures k in JobLookupOf(jobs) <==> exists i :: 0 <= i < |jobs| && LookupKey(jobs[i]) == k
    decreases |jobs|
  {
    if jobs != [] {
      var n := |jobs| - 1;
      assert JobLookupOf(jobs) == JobLookupOf(jobs[..n])[LookupKey(jobs[n]) := LookupCustomer(jobs[n])];
      JobLookupKeys(jobs[..n], k);
      if exists i :: 0 <= i < n && LookupKey(jobs[..n][i]) == k {
        var i :| 0 <= i < n && LookupKey(jobs[..n][i]) == k;
        assert jobs[i] == jobs[..n][i];
      }
      if exists i :: 0 <= i < n && LookupKey(jobs[i]) == k {
        var i :| 0 <= i < n && LookupKey(jobs[i]) == k;
        assert jobs[..n][i] == jobs[i];
      }
    }
  }

  /** The customer filed under a key is that of the last job with the key. */
  lemma {:induction false} JobLookupLastWins(jobs: seq<Job>, i: int)
    requires 0 <= i < |jobs|
    requires forall i' :: i < i' < |jobs| ==> LookupKey(jobs[i']) != LookupKey(jobs[i])
    ensures LookupKey(jobs[i]) in JobLookupOf(jobs)
    ensures JobLookupOf(jobs)[LookupKey(jobs[i])] == LookupCustomer(jobs[i])
    decreases |jobs|
  {
    var n := |jobs| - 1;
    var prefix := jobs[..n];
    assert JobLookupOf(jobs) == JobLookupOf(prefix)[LookupKey(jobs[n]) := LookupCustomer(jobs[n])];
    if i < n {
      assert prefix[i] == jobs[i];
      forall i' | i < i' < n ensures LookupKey(prefix[i']) != LookupKey(prefix[i]) {
        assert prefix[i'] == jobs[i'];
      }
      JobLookupLastWins(prefix, i);
      assert LookupKey(jobs[n]) != LookupKey(jobs[i]);
    }
  }

  /** `allJobs.forEach(job => { jobLookup[jobId] = {customer} })`. */
  method BuildJobLookup(jobs: seq<Job>) returns (lookup: map<string, string>)
    ensures lookup == JobLookupOf(jobs)
  {
    lookup := map[];
    var i := 0;
    while i < |jobs|
      invariant 0 <= i <= |jobs|
      invariant lookup == JobLookupOf(jobs[..i])
    {
      assert jobs[..i + 1][..i] == jobs[..i];
      lookup := lookup[LookupKey(jobs[i]) := LookupCustomer(jobs[i])];
      i := i + 1;
    }
    assert jobs[..|jobs|] == jobs;
  }

  /** One fetched expense, normalised: `id = id || expenseId`, and
      `jobCustomer` = its own, else the job lookup's, else `Job #jobId`. */
  function NormalizeExpense(e: Expense, lookup: map<string, string>): (r: Expense)
    ensures r.id == Or(e.id, e.expenseId)
    ensures r.jobCustomer != ""
    ensures e.jobCustomer != "" ==> r.jobCustomer == e.jobCustomer
    ensures e.jobCustomer == "" && ToStr(e.jobId) in lookup && lookup[ToStr(e.jobId)] != "" ==>
      r.jobCustomer == lookup[ToStr(e.jobId)]
    ensures e.jobCustomer == "" && !(ToStr(e.jobId) in lookup && lookup[ToStr(e.jobId)] != "") ==>
      r.jobCustomer == "Job #" + ToStr(e.jobId)
    ensures r.(id := e.id, jobCustomer := e.jobCustomer) == e
  {
    var fromLookup := if ToStr(e.jobId) in lookup then lookup[ToStr(e.jobId)] else "";
    e.(id := Or(e.id, e.expenseId), jobCustomer := OrText(e.jobCustomer, OrText(fromLookup, "Job #" + ToStr(e.jobId))))
  }

  /** `expensesData.map(...)`. */
  function NormalizeAll(es: seq<Expense>, lookup: map<string, string>): (r: seq<Expense>)
    ensures |r| == |es|
    ensures forall i :: 0 <= i < |es| ==> r[i] == NormalizeExpense(es[i], lookup)
  {
    seq(|es|, i requires 0 <= i < |es| => NormalizeExpense(es[i], lookup))
  }

  // ---------------------------------------------------------------------------
  // Removing duplicate ids.

  /** No two entries share an id. */
  predicate UniqueIds(s: seq<Expense>) {
    forall i, j :: 0 <= i < j < |s| ==> s[i].id != s[j].id
  }

  function IdsOf(s: seq<Expense>): set<Value> {
    set e | e in s :: e.id
  }

  /** The entries of `s` whose id has not been seen before, in order. */
  function KeepFirst(s: seq<Expense>, seen: set<Value>): seq<Expense>
    decreases |s|
  {
    if s == [] then []
    else if s[0].id in seen then KeepFirst(s[1..], seen)
    else [s[0]] + KeepFirst(s[1..], seen + {s[0].id})
  }

  /** The entry at `i` is the first with its id, and that id was not seen. */
  predicate FirstWithId(s: seq<Expense>, seen: set<Value>, i: int)
    requires 0 <= i < |s|
  {
    s[i].id !in seen && forall j :: 0 <= j < i ==> s[j].id != s[i].id
  }

  /** An entry of the tail that is the first with its id, past ids that
      include the head's, is the first with its id in the whole list. */
  lemma FirstWithIdInTail(s: seq<Expense>, seen: set<Value>, seen': set<Value>, i: int)
    requires s != [] && 0 <= i < |s| - 1
    requires seen <= seen' && s[0].id in seen'
    requires FirstWithId(s[1..], seen', i)
    ensures s[i + 1] == s[1..][i] && FirstWithId(s, seen, i + 1)
  {
    forall j | 0 <= j < i + 1 ensures s[j].id != s[i + 1].id {
      if j > 0 { assert s[j] == s[1..][j - 1]; }
    }
  }

  /** Each entry `KeepFirst` keeps is the first of the list with its id. */
  lemma {:induction false} KeepFirstTakesFirsts(s: seq<Expense>, seen: set<Value>)
    ensures forall e :: e in KeepFirst(s, seen) ==>
      exists i :: 0 <= i < |s| && e == s[i] && FirstWithId(s, seen, i)
    decreases |s|
  {
    if s != [] {
      var seen' := seen + {s[0].id};
      var rest := KeepFirst(s[1..], seen');
      KeepFirstTakesFirsts(s[1..], seen');
      if s[0].id in seen {
        assert seen' == seen;
        assert KeepFirst(s, seen) == rest;
      } else {
        assert KeepFirst(s, seen) == [s[0]] + rest;
        assert FirstWithId(s, seen, 0);
      }
      forall e | e in rest ensures exists i :: 0 <= i < |s| && e == s[i] && FirstWithId(s, seen, i) {
        var i :| 0 <= i < |s[1..]| && e == s[1..][i] && FirstWithId(s[1..], seen', i);
        FirstWithIdInTail(s, seen, seen', i);
      }
    }
  }

  /** Keeping first occurrences keeps an order-preserving selection of the
      list, with unique ids, with every id of the list that was not seen yet,
      and each kept entry is the first of the list with its id. */
  lemma {:induction false} KeepFirstSpec(s: seq<Expense>, seen: set<Value>)
    ensures IsSubseq(KeepFirst(s, seen), s)
    ensures UniqueIds(KeepFirst(s, seen))
    ensures IdsOf(KeepFirst(s, seen)) == IdsOf(s) - seen
    ensures forall e :: e in KeepFirst(s, seen) ==>
      exists i :: 0 <= i < |s| && e == s[i] && FirstWithId(s, seen, i)
    decreases |s|
  {
    KeepFirstTakesFirsts(s, seen);
    if s != [] {
      var r := KeepFirst(s, seen);
      assert IdsOf(s) == {s[0].id} + IdsOf(s[1..]) by {
        assert forall e :: e in s <==> e == s[0] || e in s[1..];
      }
      if s[0].id in seen {
        KeepFirstSpec(s[1..], seen);
        SubseqOfTail(r, s);
      } else {
        var rest := KeepFirst(s[1..], seen + {s[0].id});
        KeepFirstSpec(s[1..], seen + {s[0].id});
        assert r == [s[0]] + rest;
        assert r[0] == s[0] && r[1..] == rest;
        assert forall e :: e in r <==> e == s[0] || e in rest;
        assert IdsOf(r) == {s[0].id} + IdsOf(rest);
        forall i, j | 0 <= i < j < |r| ensures r[i].id != r[j].id {
          if i == 0 {
            assert r[j] == rest[j - 1] && r[j].id in IdsOf(rest);
          } else {
            assert r[i] == rest[i - 1] && r[j] == rest[j - 1];
          }
        }
      }
    }
  }

  /** A list whose ids are already unique, and none of them seen, is kept whole. */
  lemma {:induction false} KeepFirstKeepsUnique(s: seq<Expense>, seen: set<Value>)
    requires UniqueIds(s)
    requires forall i :: 0 <= i < |s| ==> s[i].id !in seen
    ensures KeepFirst(s, seen) == s
    decreases |s|
  {
    if s != [] {
      assert s[0].id !in seen;
      forall i | 0 <= i < |s[1..]| ensures s[1..][i].id !in seen + {s[0].id} {
        assert s[1..][i] == s[i + 1];
      }
      assert UniqueIds(s[1..]) by {
        forall i, j | 0 <= i < j < |s[1..]| ensures s[1..][i].id != s[1..][j].id {
          assert s[1..][i] == s[i + 1] && s[1..][j] == s[j + 1];
        }
      }
      KeepFirstKeepsUnique(s[1..], seen + {s[0].id});
      assert s == [s[0]] + s[1..];
    }
  }

  /** `idCounts[exp.id]` after counting the entries of `s`: how many entries
      have this id once written as an object key. */
  function Occurrences(s: seq<Expense>, key: string): nat
    decreases |s|
  {
    if s == [] then 0
    else Occurrences(s[..|s| - 1], key) + (if ToStr(s[|s| - 1].id) == key then 1 else 0)
  }

  lemma {:induction false} OccursOnce(s: seq<Expense>, i: int)
    requires 0 <= i < |s|
    ensures Occurrences(s, ToStr(s[i].id)) >= 1
    decreases |s|
  {
    if i < |s| - 1 {
      assert s[..|s| - 1][i] == s[i];
      OccursOnce(s[..|s| - 1], i);
    }
  }

  lemma {:induction false} OccursTwice(s: seq<Expense>, i: int, j: int)
    requires 0 <= i < j < |s| && ToStr(s[i].id) == ToStr(s[j].id)
    ensures Occurrences(s, ToStr(s[j].id)) >= 2
    decreases |s|
  {
    var prefix := s[..|s| - 1];
    assert prefix[i] == s[i];
    if j == |s| - 1 {
      OccursOnce(prefix, i);
    } else {
      assert prefix[j] == s[j];
      OccursTwice(prefix, i, j);
    }
  }

  /** When no key is counted twice, no two entries share an id (equal ids
      print the same), so keeping first occurrences keeps everything. */
  lemma NoCountedDuplicates(s: seq<Expense>)
    requires forall k :: Occurrences(s, k) <= 1
    ensures UniqueIds(s)
    ensures KeepFirst(s, {}) == s
  {
    forall i, j | 0 <= i < j < |s| ensures s[i].id != s[j].id {
      if s[i].id == s[j].id {
        OccursTwice(s, i, j);
      }
    }
    KeepFirstKeepsUnique(s, {});
  }

  /** `KeepFirst` from nothing seen keeps the first entry of each id of the
      list, in order, and nothing else. */
  lemma DedupedSpec(es: seq<Expense>)
    ensures IsSubseq(KeepFirst(es, {}), es) && UniqueIds(KeepFirst(es, {}))
    ensures IdsOf(KeepFirst(es, {})) == IdsOf(es)
    ensures forall e :: e in KeepFirst(es, {}) ==>
      exists i :: 0 <= i < |es| && e == es[i] && forall j :: 0 <= j < i ==> es[j].id != es[i].id
  {
    KeepFirstSpec(es, {});
    forall e | e in KeepFirst(es, {})
      ensures exists i :: 0 <= i < |es| && e == es[i] && forall j :: 0 <= j < i ==> es[j].id != es[i].id
    {
      var i :| 0 <= i < |es| && e == es[i] && FirstWithId(es, {}, i);
    }
  }

  /** The duplicate check and removal: count the ids into `idCounts`; when some
      id is counted twice, rebuild the list keeping the first entry per id
      (tracked in the `seenIds` set); otherwise keep the list as it is.
      Either way the result is the list with its first occurrences kept. */
  method DedupeById(es: seq<Expense>) returns (r: seq<Expense>)
    ensures r == KeepFirst(es, {})
  {
    var idCounts: map<string, nat> := map[];
    var i := 0;
    while i < |es|
      invariant 0 <= i <= |es|
      invariant forall k :: k in idCounts <==> Occurrences(es[..i], k) > 0
      invariant forall k :: k in idCounts ==> idCounts[k] == Occurrences(es[..i], k)
    {
      assert es[..i + 1][..i] == es[..i];
      var key := ToStr(es[i].id);
      idCounts := idCounts[key := (if key in idCounts then idCounts[key] else 0) + 1];
      i := i + 1;
    }
    assert es[..|es|] == es;
    var hasDuplicates := exists k :: k in idCounts && idCounts[k] > 1;
    if !hasDuplicates {
      NoCountedDuplicates(es);
      r := es;
    } else {
      r := [];
      var seenIds: set<Value> := {};
      i := 0;
      while i < |es|
        invariant 0 <= i <= |es|
        invariant r + KeepFirst(es[i..], seenIds) == KeepFirst(es, {})
      {
        assert es[i..][1..] == es[i + 1..];
        if es[i].id !in seenIds {
          var rest := KeepFirst(es[i + 1..], seenIds + {es[i].id});
          assert KeepFirst(es[i..], seenIds) == [es[i]] + rest;
          AppendAssoc(r, [es[i]], rest);
          seenIds := seenIds + {es[i].id};
          r := r + [es[i]];
        }
        i := i + 1;
      }
    }
  }

  // ---------------------------------------------------------------------------
  // filteredExpenses.

  /** `!selectedJobId || String(expense.jobId) === String(selectedJobId)`. */
  predicate JobMatches(e: Expense, selectedJobId: string) {
    selectedJobId == "" || ToStr(e.jobId) == selectedJobId
  }

  /** The text filter: `text` or `jobCustomer` contains the filter, ignoring case. */
  predicate TextMatches(e: Expense, filter: string) {
    filter == "" ||
    (e.text != "" && Includes(Lower(e.text), Lower(filter))) ||
    (e.jobCustomer != "" && Includes(Lower(e.jobCustomer), Lower(filter)))
  }

  /** An expense both filters let through. */
  predicate Shown(e: Expense, selectedJobId: string, filter: string) {
    JobMatches(e, selectedJobId) && TextMatches(e, filter)
  }

  /** `filteredExpenses`: the job filter, then the text filter. */
  function FilteredExpenses(es: seq<Expense>, selectedJobId: string, filter: string): (r: seq<Expense>)
    ensures forall e :: e in r <==> e in es && JobMatches(e, selectedJobId) && TextMatches(e, filter)
    ensures forall e :: multiset(r)[e] == if JobMatches(e, selectedJobId) && TextMatches(e, filter) then multiset(es)[e] else 0
    ensures IsSubseq(r, es)
    ensures selectedJobId == "" && filter == "" ==> r == es
  {
    var both := (e: Expense) => Shown(e, selectedJobId, filter);
    FilterTwice(es, e => JobMatches(e, selectedJobId), e => TextMatches(e, filter), both);
    FilterSpec(es, both);
    if selectedJobId == "" && filter == "" then FilterAllPass(es, both); es
    else Filter(Filter(es, e => JobMatches(e, selectedJobId)), e => TextMatches(e, filter))
  }

  /** The text filter ignores the case of what was typed. */
  lemma TextFilterIgnoresCase(e: Expense, filter: string)
    ensures TextMatches(e, filter) == TextMatches(e, Lower(filter))
  {
    assert Lower(Lower(filter)) == Lower(filter);
  }

  // ---------------------------------------------------------------------------
  // expenseJobs: the job choices of the form.

  /** One entry of the job selector. */
  datatype JobOption = JobOption(id: Value, customer: string)

  /** An entry of `modelJobs`, as the model-job effect formats it. */
  datatype ModelJob = ModelJob(id: Value, jobId: Value, customer: string)

  function OptionIds(opts: seq<JobOption>): set<Value> {
    set o | o in opts :: o.id
  }

  predicate UniqueOptionIds(opts: seq<JobOption>) {
    forall i, j :: 0 <= i < j < |opts| ==> opts[i].id != opts[j].id
  }

  /** The entry an expense's job gets. */
  function ExpenseJobOption(e: Expense): (o: JobOption)
    ensures o.id == e.jobId && o.customer != ""
  {
    var nested := if e.job.Some? then OrText(e.job.value.customer, e.job.value.name) else "";
    JobOption(e.jobId, OrText(e.jobCustomer, OrText(nested, "Job #" + ToStr(e.jobId))))
  }

  /** The entry a model job gets. */
  function ModelJobOption(j: ModelJob): (o: JobOption)
    ensures o.id == Or(j.id, j.jobId) && o.customer != ""
  {
    JobOption(Or(j.id, j.jobId), OrText(j.customer, "Job #" + ToStr(Or(j.id, j.jobId))))
  }

  /** The first loop: one entry per job id of the expenses, in order of first appearance. */
  function WithExpenseJobs(acc: seq<JobOption>, es: seq<Expense>): seq<JobOption>
    decreases |es|
  {
    if es == [] then acc
    else WithExpenseJobs(if es[0].jobId in OptionIds(acc) then acc else acc + [ExpenseJobOption(es[0])], es[1..])
  }

  /** The second loop: the model's jobs whose `id` and `jobId` are both new. */
  function WithModelJobs(acc: seq<JobOption>, ms: seq<ModelJob>): seq<JobOption>
    decreases |ms|
  {
    if ms == [] then acc
    else WithModelJobs(if ms[0].id in OptionIds(acc) || ms[0].jobId in OptionIds(acc) then acc
                       else acc + [ModelJobOption(ms[0])], ms[1..])
  }

  /** `expenseJobs`. */
  function ExpenseJobs(es: seq<Expense>, ms: seq<ModelJob>): seq<JobOption> {
    WithModelJobs(WithExpenseJobs([], es), ms)
  }

  lemma OptionIdsAppend(acc: seq<JobOption>, o: JobOption)
    ensures OptionIds(acc + [o]) == OptionIds(acc) + {o.id}
    ensures o.id !in OptionIds(acc) && UniqueOptionIds(acc) ==> UniqueOptionIds(acc + [o])
  {
    assert forall x :: x in acc + [o] <==> x in acc || x == o;
    if o.id !in OptionIds(acc) && UniqueOptionIds(acc) {
      forall i, j | 0 <= i < j < |acc + [o]| ensures (acc + [o])[i].id != (acc + [o])[j].id {
        assert (acc + [o])[i] == acc[i] && acc[i] in acc;
      }
    }
  }

  /** The first loop extends what it is given, keeps ids unique, and files
      every expense's job id (`WithExpenseJobsPicks` says which entries, in
      which order). */
  lemma {:induction false} WithExpenseJobsSpec(acc: seq<JobOption>, es: seq<Expense>)
    requires UniqueOptionIds(acc)
    ensures UniqueOptionIds(WithExpenseJobs(acc, es))
    ensures acc <= WithExpenseJobs(acc, es)
    ensures OptionIds(WithExpenseJobs(acc, es)) == OptionIds(acc) + set e | e in es :: e.jobId
    decreases |es|
  {
    if es != [] {
      var next := if es[0].jobId in OptionIds(acc) then acc else acc + [ExpenseJobOption(es[0])];
      OptionIdsAppend(acc, ExpenseJobOption(es[0]));
      WithExpenseJobsSpec(next, es[1..]);
      JobIdsOfCons(es);
    }
  }

  lemma JobIdsOfCons(es: seq<Expense>)
    requires es != []
    ensures (set e | e in es :: e.jobId) == {es[0].jobId} + set e | e in es[1..] :: e.jobId
  {
    assert forall e :: e in es <==> e == es[0] || e in es[1..];
  }

  /** The second loop extends what it is given, keeps ids unique, and every
      model job ends up filed under its `id` or its `jobId` (`WithModelJobsPicks`
      says which entries, in which order). */
  lemma {:induction false} WithModelJobsSpec(acc: seq<JobOption>, ms: seq<ModelJob>)
    requires UniqueOptionIds(acc)
    ensures UniqueOptionIds(WithModelJobs(acc, ms))
    ensures acc <= WithModelJobs(acc, ms)
    ensures OptionIds(acc) <= OptionIds(WithModelJobs(acc, ms))
    ensures forall j :: j in ms ==> j.id in OptionIds(WithModelJobs(acc, ms)) || j.jobId in OptionIds(WithModelJobs(acc, ms))
    decreases |ms|
  {
    if ms != [] {
      var m := ms[0];
      var next := if m.id in OptionIds(acc) || m.jobId in OptionIds(acc) then acc else acc + [ModelJobOption(m)];
      OptionIdsAppend(acc, ModelJobOption(m));
      assert ModelJobOption(m).id in {m.id, m.jobId};
      WithModelJobsSpec(next, ms[1..]);
      assert forall j :: j in ms ==> j == m || j in ms[1..];
    }
  }

  /** Each index one further on, as the indices of a list that lost its head. */
  function Shifted(idx: seq<int>): (r: seq<int>)
    ensures |r| == |idx| && forall k :: 0 <= k < |idx| ==> r[k] == idx[k] + 1
  {
    seq(|idx|, k requires 0 <= k < |idx| => idx[k] + 1)
  }

  lemma ShiftedHas(idx: seq<int>, i: int)
    ensures i in Shifted(idx) <==> i - 1 in idx
  {
    if i - 1 in idx {
      var k :| 0 <= k < |idx| && idx[k] == i - 1;
      assert Shifted(idx)[k] == i;
    }
  }

  predicate InRange(idx: seq<int>, n: int) {
    forall k :: 0 <= k < |idx| ==> 0 <= idx[k] < n
  }

  predicate Increasing(idx: seq<int>) {
    forall k1, k2 :: 0 <= k1 < k2 < |idx| ==> idx[k1] < idx[k2]
  }

  /** The indices into a whole list, from those into its tail, with the head
      picked or not. */
  function StepIdx(pickHead: bool, idx: seq<int>): seq<int> {
    if pickHead then [0] + Shifted(idx) else Shifted(idx)
  }

  lemma StepIdxFacts(pickHead: bool, idx: seq<int>, n: int)
    requires 0 <= n && InRange(idx, n) && Increasing(idx)
    ensures InRange(StepIdx(pickHead, idx), n + 1) && Increasing(StepIdx(pickHead, idx))
    ensures 0 in StepIdx(pickHead, idx) <==> pickHead
    ensures forall i :: 0 < i ==> (i in StepIdx(pickHead, idx) <==> i - 1 in idx)
  {
    forall i | 0 <= i
      ensures i in StepIdx(pickHead, idx) <==> (pickHead && i == 0) || i - 1 in idx
    {
      ShiftedHas(idx, i);
    }
  }

  /** How many of the indices lie before `i`. */
  function CountBelow(idx: seq<int>, i: int): (c: nat)
    ensures c <= |idx|
    decreases |idx|
  {
    if idx == [] then 0 else (if idx[0] < i then 1 else 0) + CountBelow(idx[1..], i)
  }

  lemma {:induction false} CountBelowShifted(idx: seq<int>, i: int)
    ensures CountBelow(Shifted(idx), i) == CountBelow(idx, i - 1)
    decreases |idx|
  {
    if idx != [] {
      assert Shifted(idx)[1..] == Shifted(idx[1..]);
      CountBelowShifted(idx[1..], i);
    }
  }

  lemma {:induction false} CountBelowNone(idx: seq<int>, i: int)
    requires forall k :: 0 <= k < |idx| ==> i <= idx[k]
    ensures CountBelow(idx, i) == 0
    decreases |idx|
  {
    if idx != [] {
      CountBelowNone(idx[1..], i);
    }
  }

  /** The first loop files an expense's job when its id is not listed yet. */
  predicate NewExpenseJob(acc: seq<JobOption>, e: Expense) {
    e.jobId !in OptionIds(acc)
  }

  /** The second loop files a model job when neither of its ids is listed yet. */
  predicate NewModelJob(acc: seq<JobOption>, m: ModelJob) {
    m.id !in OptionIds(acc) && m.jobId !in OptionIds(acc)
  }

  /** The entries of the expenses at the indices `idx`, in that order. */
  function ExpenseOptionsAt(es: seq<Expense>, idx: seq<int>): seq<JobOption>
    requires InRange(idx, |es|)
  {
    seq(|idx|, k requires 0 <= k < |idx| => ExpenseJobOption(es[idx[k]]))
  }

  /** The entries of the model jobs at the indices `idx`, in that order. */
  function ModelOptionsAt(ms: seq<ModelJob>, idx: seq<int>): seq<JobOption>
    requires InRange(idx, |ms|)
  {
    seq(|idx|, k requires 0 <= k < |idx| => ModelJobOption(ms[idx[k]]))
  }

  lemma ExpenseOptionsAtStep(es: seq<Expense>, pickHead: bool, idx: seq<int>)
    requires es != [] && InRange(idx, |es| - 1) && Increasing(idx)
    ensures InRange(StepIdx(pickHead, idx), |es|)
    ensures ExpenseOptionsAt(es, StepIdx(pickHead, idx)) ==
      (if pickHead then [ExpenseJobOption(es[0])] else []) + ExpenseOptionsAt(es[1..], idx)
  {
    StepIdxFacts(pickHead, idx, |es| - 1);
    forall k | 0 <= k < |idx| ensures es[Shifted(idx)[k]] == es[1..][idx[k]] {}
  }

  lemma ModelOptionsAtStep(ms: seq<ModelJob>, pickHead: bool, idx: seq<int>)
    requires ms != [] && InRange(idx, |ms| - 1) && Increasing(idx)
    ensures InRange(StepIdx(pickHead, idx), |ms|)
    ensures ModelOptionsAt(ms, StepIdx(pickHead, idx)) ==
      (if pickHead then [ModelJobOption(ms[0])] else []) + ModelOptionsAt(ms[1..], idx)
  {
    StepIdxFacts(pickHead, idx, |ms| - 1);
    forall k | 0 <= k < |idx| ensures ms[Shifted(idx)[k]] == ms[1..][idx[k]] {}
  }

  /** Expense `i` is the first with its job id, and that id is not in `acc`. */
  predicate FirstNewJob(acc: seq<JobOption>, es: seq<Expense>, i: int)
    requires 0 <= i < |es|
  {
    es[i].jobId !in OptionIds(acc) && forall j :: 0 <= j < i ==> es[j].jobId != es[i].jobId
  }

  /** `r` is `acc` followed by the entries of the expenses at the increasing
      indices `idx`, and those are exactly the expenses that are the first
      with a job id not in `acc`. */
  predicate ExpensePicks(acc: seq<JobOption>, es: seq<Expense>, idx: seq<int>, r: seq<JobOption>) {
    InRange(idx, |es|) && Increasing(idx) && r == acc + ExpenseOptionsAt(es, idx) &&
    FirstNewJobsAt(acc, es, idx)
  }

  /** The indices are exactly those of the expenses that are the first with a
      job id not in `acc`. */
  predicate FirstNewJobsAt(acc: seq<JobOption>, es: seq<Expense>, idx: seq<int>) {
    forall i :: 0 <= i < |es| ==> (i in idx <==> FirstNewJob(acc, es, i))
  }

  lemma FirstNewJobInTail(acc: seq<JobOption>, es: seq<Expense>, i: int)
    requires 0 < i < |es|
    ensures FirstNewJob(if NewExpenseJob(acc, es[0]) then acc + [ExpenseJobOption(es[0])] else acc, es[1..], i - 1)
      == FirstNewJob(acc, es, i)
  {
    OptionIdsAppend(acc, ExpenseJobOption(es[0]));
    assert es[1..][i - 1] == es[i];
    assert forall j :: 0 < j < i ==> es[1..][j - 1] == es[j];
    assert forall j :: 0 <= j < i - 1 ==> es[1..][j] == es[j + 1];
  }

  lemma FirstNewJobsStep(acc: seq<JobOption>, es: seq<Expense>, idx: seq<int>)
    requires es != [] && InRange(idx, |es| - 1) && Increasing(idx)
    requires FirstNewJobsAt(if NewExpenseJob(acc, es[0]) then acc + [ExpenseJobOption(es[0])] else acc, es[1..], idx)
    ensures FirstNewJobsAt(acc, es, StepIdx(NewExpenseJob(acc, es[0]), idx))
  {
    StepIdxFacts(NewExpenseJob(acc, es[0]), idx, |es| - 1);
    forall i | 0 < i < |es| ensures i in StepIdx(NewExpenseJob(acc, es[0]), idx) <==> FirstNewJob(acc, es, i) {
      FirstNewJobInTail(acc, es, i);
    }
  }

  /** The first loop appends, in order, the entry of every expense that is the
      first with a job id not yet listed, and nothing else. */
  lemma {:induction false} WithExpenseJobsPicks(acc: seq<JobOption>, es: seq<Expense>)
    ensures exists idx :: ExpensePicks(acc, es, idx, WithExpenseJobs(acc, es))
    decreases |es|
  {
    if es == [] {
      assert WithExpenseJobs(acc, es) == acc + ExpenseOptionsAt(es, []);
      assert ExpensePicks(acc, es, [], WithExpenseJobs(acc, es));
    } else {
      var isNew := NewExpenseJob(acc, es[0]);
      var next := if isNew then acc + [ExpenseJobOption(es[0])] else acc;
      var r := WithExpenseJobs(acc, es);
      assert r == WithExpenseJobs(next, es[1..]);
      WithExpenseJobsPicks(next, es[1..]);
      var idx :| ExpensePicks(next, es[1..], idx, r);
      assert ExpensePicks(acc, es, StepIdx(isNew, idx), r) by {
        var tail := ExpenseOptionsAt(es[1..], idx);
        ExpenseOptionsAtStep(es, isNew, idx);
        if isNew {
          AppendAssoc(acc, [ExpenseJobOption(es[0])], tail);
        } else {
          assert [] + tail == tail;
        }
        FirstNewJobsStep(acc, es, idx);
      }
    }
  }

  /** Model job `i` finds neither of its ids among the entries `r` held when
      the second loop reached it. */
  predicate ModelJobNew(acc: seq<JobOption>, ms: seq<ModelJob>, idx: seq<int>, r: seq<JobOption>, i: int)
    requires 0 <= i < |ms| && |r| == |acc| + |idx|
  {
    var before := OptionIds(r[..|acc| + CountBelow(idx, i)]);
    ms[i].id !in before && ms[i].jobId !in before
  }

  /** `r` is `acc` followed by the entries of the model jobs at the increasing
      indices `idx`, and those are exactly the model jobs neither of whose ids
      was listed when the loop reached them. */
  predicate ModelPicks(acc: seq<JobOption>, ms: seq<ModelJob>, idx: seq<int>, r: seq<JobOption>) {
    InRange(idx, |ms|) && Increasing(idx) && r == acc + ModelOptionsAt(ms, idx) &&
    NewModelJobsAt(acc, ms, idx, r)
  }

  /** The indices are exactly those of the model jobs neither of whose ids
      was listed when the loop reached them. */
  predicate NewModelJobsAt(acc: seq<JobOption>, ms: seq<ModelJob>, idx: seq<int>, r: seq<JobOption>)
    requires |r| == |acc| + |idx|
  {
    forall i :: 0 <= i < |ms| ==> (i in idx <==> ModelJobNew(acc, ms, idx, r, i))
  }

  lemma NewModelJobsStep(acc: seq<JobOption>, ms: seq<ModelJob>, idx: seq<int>, r: seq<JobOption>)
    requires ms != [] && InRange(idx, |ms| - 1) && Increasing(idx)
    requires |acc| <= |r| && r[..|acc|] == acc
    requires var next := if NewModelJob(acc, ms[0]) then acc + [ModelJobOption(ms[0])] else acc;
      |r| == |next| + |idx| && r[..|next|] == next && NewModelJobsAt(next, ms[1..], idx, r)
    ensures |r| == |acc| + |StepIdx(NewModelJob(acc, ms[0]), idx)|
    ensures NewModelJobsAt(acc, ms, StepIdx(NewModelJob(acc, ms[0]), idx), r)
  {
    var isNew := NewModelJob(acc, ms[0]);
    var all := StepIdx(isNew, idx);
    StepIdxFacts(isNew, idx, |ms| - 1);
    forall i | 0 <= i < |ms| ensures i in all <==> ModelJobNew(acc, ms, all, r, i) {
      if i == 0 {
        CountBelowShifted(idx, 0);
        CountBelowNone(idx, -1);
      } else {
        ModelJobNewInTail(acc, ms, idx, r, i);
      }
    }
  }

  /** Past the head, a model job meets the same listed ids in the whole list
      as in the tail. */
  lemma ModelJobNewInTail(acc: seq<JobOption>, ms: seq<ModelJob>, idx: seq<int>, r: seq<JobOption>, i: int)
    requires 0 < i < |ms|
    requires var next := if NewModelJob(acc, ms[0]) then acc + [ModelJobOption(ms[0])] else acc;
      |r| == |next| + |idx|
    ensures |r| == |acc| + |StepIdx(NewModelJob(acc, ms[0]), idx)|
    ensures ModelJobNew(acc, ms, StepIdx(NewModelJob(acc, ms[0]), idx), r, i) ==
      ModelJobNew(if NewModelJob(acc, ms[0]) then acc + [ModelJobOption(ms[0])] else acc, ms[1..], idx, r, i - 1)
  {
    CountBelowShifted(idx, i);
    assert ms[1..][i - 1] == ms[i];
  }

  /** The second loop appends, in order, the entry of every model job neither
      of whose ids is listed by then, and nothing else. */
  lemma {:induction false} WithModelJobsPicks(acc: seq<JobOption>, ms: seq<ModelJob>)
    ensures exists idx :: ModelPicks(acc, ms, idx, WithModelJobs(acc, ms))
    decreases |ms|
  {
    if ms == [] {
      assert WithModelJobs(acc, ms) == acc + ModelOptionsAt(ms, []);
      assert ModelPicks(acc, ms, [], WithModelJobs(acc, ms));
    } else {
      var isNew := NewModelJob(acc, ms[0]);
      var next := if isNew then acc + [ModelJobOption(ms[0])] else acc;
      var r := WithModelJobs(acc, ms);
      assert r == WithModelJobs(next, ms[1..]);
      WithModelJobsPicks(next, ms[1..]);
      var idx :| ModelPicks(next, ms[1..], idx, r);
      assert ModelPicks(acc, ms, StepIdx(isNew, idx), r) by {
        var tail := ModelOptionsAt(ms[1..], idx);
        ModelOptionsAtStep(ms, isNew, idx);
        if isNew {
          AppendAssoc(acc, [ModelJobOption(ms[0])], tail);
        } else {
          assert [] + tail == tail;
        }
        assert r[..|acc|] == acc && r[..|next|] == next;
        NewModelJobsStep(acc, ms, idx, r);
      }
    }
  }

  /** The job choices have unique ids; they start with the entry of the first
      expense of each job id, in order of first appearance; the rest are the
      entries of the model's jobs, in order, each one whose ids were not
      listed yet when it was reached; there is nothing else. */
  lemma ExpenseJobsSpec(es: seq<Expense>, ms: seq<ModelJob>)
    ensures UniqueOptionIds(ExpenseJobs(es, ms))
    ensures WithExpenseJobs([], es) <= ExpenseJobs(es, ms)
    ensures OptionIds(WithExpenseJobs([], es)) == set e | e in es :: e.jobId
    ensures exists idx :: ExpensePicks([], es, idx, WithExpenseJobs([], es))
    ensures exists idx :: ModelPicks(WithExpenseJobs([], es), ms, idx, ExpenseJobs(es, ms))
    ensures forall j :: j in ms ==> j.id in OptionIds(ExpenseJobs(es, ms)) || j.jobId in OptionIds(ExpenseJobs(es, ms))
  {
    assert OptionIds([]) == {};
    WithExpenseJobsSpec([], es);
    WithModelJobsSpec(WithExpenseJobs([], es), ms);
    WithExpenseJobsPicks([], es);
    WithModelJobsPicks(WithExpenseJobs([], es), ms);
  }

  /** The two loops that build `expenseJobs`, with the `jobIds` set. */
  method BuildExpenseJobs(es: seq<Expense>, ms: seq<ModelJob>) returns (uniqueJobs: seq<JobOption>)
    ensures uniqueJobs == ExpenseJobs(es, ms)
  {
    uniqueJobs := [];
    var jobIds: set<Value> := {};
    var i := 0;
    while i < |es|
      invariant 0 <= i <= |es|
      invariant jobIds == OptionIds(uniqueJobs)
      invariant WithExpenseJobs(uniqueJobs, es[i..]) == WithExpenseJobs([], es)
    {
      assert es[i..][1..] == es[i + 1..];
      if es[i].jobId !in jobIds {
        OptionIdsAppend(uniqueJobs, ExpenseJobOption(es[i]));
        jobIds := jobIds + {es[i].jobId};
        uniqueJobs := uniqueJobs + [ExpenseJobOption(es[i])];
      }
      i := i + 1;
    }
    i := 0;
    while i < |ms|
      invariant 0 <= i <= |ms|
      invariant jobIds == OptionIds(uniqueJobs)
      invariant WithModelJobs(uniqueJobs, ms[i..]) == ExpenseJobs(es, ms)
    {
      assert ms[i..][1..] == ms[i + 1..];
      if ms[i].id !in jobIds && ms[i].jobId !in jobIds {
        var jobId := Or(ms[i].id, ms[i].jobId);
        OptionIdsAppend(uniqueJobs, ModelJobOption(ms[i]));
        jobIds := jobIds + {jobId};
        uniqueJobs := uniqueJobs + [ModelJobOption(ms[i])];
      }
      i := i + 1;
    }
  }

  // ---------------------------------------------------------------------------
  // The model's jobs.

  /** A job as the model-job effect formats it. */
  function FormatModelJob(job: Job): (m: ModelJob)
    ensures m.id == Or(job.id, job.jobId) && m.jobId == m.id && m.customer != ""
  {
    var jobId := Or(job.id, job.jobId);
    ModelJob(jobId, jobId, OrText(job.customer, OrText(job.name, "Job #" + ToStr(jobId))))
  }

  /** The jobs the model `target` is assigned to, formatted, in list order. */
  function ModelJobsFor(allJobs: seq<Job>, target: Value): (r: seq<ModelJob>)
    ensures |r| == |JobsAssignedTo(allJobs, target)|
    ensures forall i :: 0 <= i < |r| ==>
      r[i] == FormatModelJob(JobsAssignedTo(allJobs, target)[i]) &&
      JobsAssignedTo(allJobs, target)[i] in allJobs && IsAssignedTo(JobsAssignedTo(allJobs, target)[i], target)
  {
    var jobs := JobsAssignedTo(allJobs, target);
    seq(|jobs|, i requires 0 <= i < |jobs| => FormatModelJob(jobs[i]))
  }

  // ---------------------------------------------------------------------------
  // List updates.

  /** `expense.id || expense.expenseId`. */
  function CurrentId(e: Expense): Value {
    Or(e.id, e.expenseId)
  }

  /** The list after an edit: every entry whose id matches becomes `updated`. */
  function ReplaceById(es: seq<Expense>, id: Value, updated: Expense): (r: seq<Expense>)
    ensures |r| == |es|
    ensures forall i :: 0 <= i < |es| && CurrentId(es[i]) == id ==> r[i] == updated
    ensures forall i :: 0 <= i < |es| && CurrentId(es[i]) != id ==> r[i] == es[i]
  {
    seq(|es|, i requires 0 <= i < |es| => if CurrentId(es[i]) == id then updated else es[i])
  }

  /** The list after a delete. */
  function RemoveById(es: seq<Expense>, id: Value): (r: seq<Expense>)
    ensures forall e :: e in r <==> e in es && CurrentId(e) != id
    ensures forall e :: multiset(r)[e] == if CurrentId(e) != id then multiset(es)[e] else 0
    ensures IsSubseq(r, es)
  {
    FilterSpec(es, e => CurrentId(e) != id);
    Filter(es, e => CurrentId(e) != id)
  }

  /** Deleting an entry that was just edited (keeping its id) leaves the same
      list as deleting it straight away. */
  lemma {:induction false} RemoveAfterReplace(es: seq<Expense>, id: Value, updated: Expense)
    requires CurrentId(updated) == id
    ensures RemoveById(ReplaceById(es, id, updated), id) == RemoveById(es, id)
    decreases |es|
  {
    if es != [] {
      var r := ReplaceById(es, id, updated);
      assert r[1..] == ReplaceById(es[1..], id, updated);
      RemoveAfterReplace(es[1..], id, updated);
    }
  }

  /** An id that matches no entry changes nothing. */
  lemma UnknownIdChangesNothing(es: seq<Expense>, id: Value, updated: Expense)
    requires forall i :: 0 <= i < |es| ==> CurrentId(es[i]) != id
    ensures ReplaceById(es, id, updated) == es
    ensures RemoveById(es, id) == es
  {
    FilterAllPass(es, e => CurrentId(e) != id);
  }

  /** The updated expense as stored: `id` filled in from `expenseId` when missing. */
  function WithIdFilled(u: Expense): (r: Expense)
    ensures Truthy(u.expenseId) && !Truthy(u.id) ==> r == u.(id := u.expenseId)
    ensures !(Truthy(u.expenseId) && !Truthy(u.id)) ==> r == u
  {
    if Truthy(u.expenseId) && !Truthy(u.id) then u.(id := u.expenseId) else u
  }

  const NoPermissionView := "You do not have permission to view these expenses"
  const NoPermissionAdd := "You do not have permission to add expenses"
  const NoPermissionEdit := "You do not have permission to edit expenses"
  const NoPermissionDelete := "You do not have permission to delete expenses"

  /** The hook's list state. */
  class ExpensesPage {
    var expenses: seq<Expense>
    var modelJobs: seq<ModelJob>
    var error: string
    var editing: Option<Value>

    constructor ()
      ensures expenses == [] && modelJobs == [] && error == "" && editing.None?
    {
      expenses := [];
      modelJobs := [];
      error := "";
      editing := None;
    }

    /** The expense effect: with permission and the job list at hand, fetch,
        normalise and de-duplicate; without permission, only the error. */
    method Load(auth: AuthContext.State, routeId: Value, allJobs: seq<Job>, reply: Call<seq<Expense>>)
      modifies this
      ensures !CanViewExpenses(auth, routeId) ==>
        expenses == old(expenses) && error == NoPermissionView
      ensures CanViewExpenses(auth, routeId) && allJobs == [] ==>
        expenses == old(expenses) && error == old(error)
      ensures CanViewExpenses(auth, routeId) && allJobs != [] && !Truthy(routeId) && !Truthy(AuthContext.GetModelId(auth)) ==>
        expenses == old(expenses) && error == "No model ID available"
      ensures CanViewExpenses(auth, routeId) && allJobs != [] && (Truthy(routeId) || Truthy(AuthContext.GetModelId(auth))) ==>
        (reply.Rejected? ==> expenses == old(expenses) && error == "Failed to fetch expense data") &&
        (reply.Fetched? ==> expenses == KeepFirst(NormalizeAll(reply.value, JobLookupOf(allJobs)), {}) && error == "")
      ensures modelJobs == old(modelJobs) && editing == old(editing)
    {
      if !CanViewExpenses(auth, routeId) {
        error := NoPermissionView;
      } else if allJobs != [] {
        error := "";
        if !Truthy(routeId) && !Truthy(AuthContext.GetModelId(auth)) {
          error := "No model ID available";
        } else if reply.Rejected? {
          error := "Failed to fetch expense data";
        } else {
          var lookup := BuildJobLookup(allJobs);
          expenses := DedupeById(NormalizeAll(reply.value, lookup));
        }
      }
    }

    /** The model-job effect: the jobs of `id || currentModelId`. */
    method LoadModelJobs(auth: AuthContext.State, routeId: Value, allJobs: seq<Job>)
      modifies this
      ensures CanViewExpenses(auth, routeId) && allJobs != [] ==>
        modelJobs == ModelJobsFor(allJobs, Or(routeId, AuthContext.GetModelId(auth)))
      ensures !(CanViewExpenses(auth, routeId) && allJobs != []) ==> modelJobs == old(modelJobs)
      ensures expenses == old(expenses) && error == old(error) && editing == old(editing)
    {
      if CanViewExpenses(auth, routeId) && allJobs != [] {
        modelJobs := ModelJobsFor(allJobs, Or(routeId, AuthContext.GetModelId(auth)));
      }
    }

    /** `handleAddExpense`: the created expense is appended. */
    method AddExpense(auth: AuthContext.State, routeId: Value, created: Call<Expense>)
      modifies this
      ensures !CanModifyExpenses(auth, routeId) ==> expenses == old(expenses) && error == NoPermissionAdd
      ensures CanModifyExpenses(auth, routeId) && created.Fetched? ==>
        expenses == old(expenses) + [created.value] && error == old(error)
      ensures CanModifyExpenses(auth, routeId) && created.Rejected? ==>
        expenses == old(expenses) && error == "Failed to add expense"
      ensures modelJobs == old(modelJobs) && editing == old(editing)
    {
      if !CanModifyExpenses(auth, routeId) {
        error := NoPermissionAdd;
      } else if created.Fetched? {
        expenses := expenses + [created.value];
      } else {
        error := "Failed to add expense";
      }
    }

    /** `startEditExpense`: the expense being edited is remembered by id. */
    method StartEdit(auth: AuthContext.State, routeId: Value, e: Expense)
      modifies this
      ensures !CanModifyExpenses(auth, routeId) ==> editing == old(editing) && error == NoPermissionEdit
      ensures CanModifyExpenses(auth, routeId) ==> editing == Some(CurrentId(e)) && error == old(error)
      ensures expenses == old(expenses) && modelJobs == old(modelJobs)
    {
      if !CanModifyExpenses(auth, routeId) {
        error := NoPermissionEdit;
      } else {
        editing := Some(CurrentId(e));
      }
    }

    /** `saveEditExpense(expenseId)`: the entries with this id are replaced by
        the server's copy, and editing ends. */
    method SaveEdit(auth: AuthContext.State, routeId: Value, expenseId: Value, reply: Call<Expense>)
      modifies this
      ensures !CanModifyExpenses(auth, routeId) ==>
        expenses == old(expenses) && editing == old(editing) && error == NoPermissionEdit
      ensures CanModifyExpenses(auth, routeId) && (forall i :: 0 <= i < |old(expenses)| ==> CurrentId(old(expenses)[i]) != expenseId) ==>
        expenses == old(expenses) && editing == old(editing) && error == "Expense not found"
      ensures CanModifyExpenses(auth, routeId) && (exists i :: 0 <= i < |old(expenses)| && CurrentId(old(expenses)[i]) == expenseId) ==>
        (reply.Rejected? ==> expenses == old(expenses) && editing == old(editing) && error == "Failed to update expense") &&
        (reply.Fetched? ==> expenses == ReplaceById(old(expenses), expenseId, WithIdFilled(reply.value)) &&
                            editing.None? && error == old(error))
      ensures modelJobs == old(modelJobs)
    {
      if !CanModifyExpenses(auth, routeId) {
        error := NoPermissionEdit;
        return;
      }
      FindSpec(expenses, e => CurrentId(e) == expenseId);
      var original := Find(expenses, e => CurrentId(e) == expenseId);
      if original.None? {
        error := "Expense not found";
      } else if reply.Rejected? {
        error := "Failed to update expense";
      } else {
        expenses := ReplaceById(expenses, expenseId, WithIdFilled(reply.value));
        editing := None;
      }
    }

    /** `deleteExpense(expenseId)`, once the user has confirmed (or not). */
    method Delete(confirmed: bool, auth: AuthContext.State, routeId: Value, expenseId: Value, reply: Call<()>)
      modifies this
      ensures !confirmed ==> expenses == old(expenses) && error == old(error)
      ensures confirmed && !CanModifyExpenses(auth, routeId) ==> expenses == old(expenses) && error == NoPermissionDelete
      ensures confirmed && CanModifyExpenses(auth, routeId) && reply.Fetched? ==>
        expenses == RemoveById(old(expenses), expenseId) && error == old(error)
      ensures confirmed && CanModifyExpenses(auth, routeId) && reply.Rejected? ==>
        expenses == old(expenses) && error == "Failed to delete expense"
      ensures modelJobs == old(modelJobs) && editing == old(editing)
    {
      if !confirmed {
        return;
      }
      if !CanModifyExpenses(auth, routeId) {
        error := NoPermissionDelete;
      } else if reply.Fetched? {
        expenses := RemoveById(expenses, expenseId);
      } else {
        error := "Failed to delete expense";
      }
    }
  }
}

=== FILE: use_model_jobs.dfy ===
/**
 * src/hooks/useModelJobs.js: one model's jobs, for a manager or for that
 * model. The effect checks permission, asks for `/Models/{id}/jobs` and falls
 * back to `/Models/{id}` when that fails, makes sure the answer has a `jobs`
 * array, and turns a failure into a message by looking for status codes in
 * the error text. The route parameter `modelId` is a string.
 */
module ModelJobs {
  import opened Js
  import opened Wrappers
  import opened Entities
  import opened Api
  import AuthContext

  const DeniedMessage := "You do not have permission to view this model's jobs"
  const FetchModelJobsFailed := "Failed to fetch model jobs"
  const ModelNotFound := "Model not found"
  const UnauthorizedJobs := "Unauthorized: You don't have permission to view these jobs"
  const InvalidModelId := "Invalid model ID format"
  /** The engine's text for the `TypeError` that `toLowerCase` on a non-string
      email raises. */
  const EmailTypeErrorMessage := "currentUser?.email?.toLowerCase is not a function"

  // ---------------------------------------------------------------------------
  // Permission.

  /** `currentUser?.email?.toLowerCase() === modelId?.toLowerCase()`, or
      `None` where `toLowerCase` is called on an email that is not a string. */
  function EmailNamesModel(auth: AuthContext.State, modelId: string): (r: Option<bool>)
    ensures r.None? <==>
      auth.currentUser.Some? &&
      !(auth.currentUser.value.email.Str? || auth.currentUser.value.email.Undefined? || auth.currentUser.value.email.Null?)
    ensures r == Some(true) <==>
      auth.currentUser.Some? && auth.currentUser.value.email.Str? &&
      Lower(auth.currentUser.value.email.s) == Lower(modelId)
  {
    if auth.currentUser.None? then Some(false)
    else match auth.currentUser.value.email
      case Str(e) => Some(Lower(e) == Lower(modelId))
      case Undefined => Some(false)
      case Null => Some(false)
      case _ => None
  }

  /** `hasPermission` in the effect: `None` when evaluating it throws. */
  function EffectPermission(auth: AuthContext.State, modelId: string): (r: Option<bool>)
    ensures AuthContext.IsManager(auth) ==> r == Some(true)
    ensures !AuthContext.IsManager(auth) && !AuthContext.IsModel(auth) ==> r == Some(false)
    ensures !AuthContext.IsManager(auth) && !Truthy(AuthContext.GetModelId(auth)) ==> r == Some(false)
    ensures r == Some(true) && !AuthContext.IsManager(auth) ==>
      AuthContext.IsModel(auth) && Truthy(AuthContext.GetModelId(auth)) &&
      (ToStr(AuthContext.GetModelId(auth)) == modelId || EmailNamesModel(auth, modelId) == Some(true))
    ensures r == Some(true) <==>
      AuthContext.IsManager(auth) ||
      (AuthContext.IsModel(auth) && Truthy(AuthContext.GetModelId(auth)) &&
       (ToStr(AuthContext.GetModelId(auth)) == modelId || EmailNamesModel(auth, modelId) == Some(true)))
  {
    var cmid := AuthContext.GetModelId(auth);
    if AuthContext.IsManager(auth) then Some(true)
    else if !(AuthContext.IsModel(auth) && Truthy(cmid)) then Some(false)
    else if ToStr(cmid) == modelId then Some(true)
    else EmailNamesModel(auth, modelId)
  }

  /** `canViewModelJobs`, computed while rendering: the same test without the
      truthiness check on the model id (`None` when it throws). */
  function CanViewModelJobs(auth: AuthContext.State, modelId: string): (r: Option<bool>)
    ensures AuthContext.IsManager(auth) ==> r == Some(true)
    ensures !AuthContext.IsManager(auth) && !AuthContext.IsModel(auth) ==> r == Some(false)
    ensures r == Some(true) && !AuthContext.IsManager(auth) ==>
      AuthContext.IsModel(auth) &&
      (ToStr(AuthContext.GetModelId(auth)) == modelId || EmailNamesModel(auth, modelId) == Some(true))
  {
    if AuthContext.IsManager(auth) then Some(true)
    else if !AuthContext.IsModel(auth) then Some(false)
    else if ToStr(AuthContext.GetModelId(auth)) == modelId then Some(true)
    else EmailNamesModel(auth, modelId)
  }

  /** Whoever the effect lets through, the page also shows as allowed. */
  lemma EffectPermissionImpliesCanView(auth: AuthContext.State, modelId: string)
    requires EffectPermission(auth, modelId) == Some(true)
    ensures CanViewModelJobs(auth, modelId) == Some(true)
  {
  }

  /** The converse fails: a model without any model id, on the route
      `/models/null/jobs`, is shown as allowed while the effect refuses it. */
  lemma CanViewWithoutModelId(auth: AuthContext.State)
    requires AuthContext.IsModel(auth) && !AuthContext.IsManager(auth) && !Truthy(AuthContext.GetModelId(auth))
    ensures CanViewModelJobs(auth, "null") == Some(true)
    ensures EffectPermission(auth, "null") == Some(false)
  {
  }

  // ---------------------------------------------------------------------------
  // Error messages.

  /** `err.message`, empty when the thrown value has none (a thrown string). */
  function MessageOf(e: ErrorValue): string {
    match e
    case Text(_) => ""
    case ApiError(message, _, _) => message
    case JsError(message, _, _, _) => message
  }

  /** The user-facing text for the error message `message`. */
  function ClassifyError(message: string): (shown: string)
    ensures Includes(message, "404") ==> shown == ModelNotFound
    ensures !Includes(message, "404") && (Includes(message, "401") || Includes(message, "403")) ==> shown == UnauthorizedJobs
    ensures !Includes(message, "404") && !Includes(message, "401") && !Includes(message, "403") && Includes(message, "400") ==>
      shown == InvalidModelId
    ensures shown != message ==> Includes(message, "404") || Includes(message, "401") || Includes(message, "403") || Includes(message, "400")
  {
    if Includes(message, "404") then ModelNotFound
    else if Includes(message, "401") || Includes(message, "403") then UnauthorizedJobs
    else if Includes(message, "400") then InvalidModelId
    else message
  }

  /** The text shown for an error thrown out of the fetch. */
  function ShownError(e: ErrorValue): string {
    ClassifyError(OrText(MessageOf(e), FetchModelJobsFailed))
  }

  /** axios's own message for a failed status. */
  function AxiosStatusMessage(status: nat): string {
    "Request failed with status code " + NatToDecimal(status)
  }

  /** A 404 whose body carries no message keeps axios's own message through
      the interceptor and `getModel`'s `handleApiError`, and so is shown as
      'Model not found'. */
  lemma AxiosNotFoundShowsModelNotFound(raw: ErrorValue, data: Body, operation: string)
    requires raw.JsError? && raw.code != "ECONNABORTED"
    requires raw.response == Some(HttpResponse(404, data)) && BodyMessage(data) == ""
    requires raw.message == AxiosStatusMessage(404)
    ensures ShownError(HandleApiError(InterceptResponseError(raw).rejected, operation)) == ModelNotFound
  {
    var thrown := HandleApiError(InterceptResponseError(raw).rejected, operation);
    assert MessageOf(thrown) == raw.message;
    assert NatToDecimal(404) == "404";
    assert OccursAt(raw.message, "404", 32);
    IncludesAt(raw.message, "404");
  }

  /** When the server explains a 404 in its body, the explanation replaces
      axios's message and no status code is left to find, so the server's
      text is shown instead of 'Model not found'. */
  lemma ServerMessageShownAsIs(raw: ErrorValue, data: Body, operation: string)
    requires raw.JsError? && raw.code != "ECONNABORTED"
    requires raw.response == Some(HttpResponse(404, data)) && BodyMessage(data) != ""
    requires forall i :: !OccursAt(BodyMessage(data), "404", i) && !OccursAt(BodyMessage(data), "401", i) &&
                         !OccursAt(BodyMessage(data), "403", i) && !OccursAt(BodyMessage(data), "400", i)
    ensures ShownError(HandleApiError(InterceptResponseError(raw).rejected, operation)) == BodyMessage(data)
  {
    var m := BodyMessage(data);
    assert MessageOf(HandleApiError(InterceptResponseError(raw).rejected, operation)) == m;
    IncludesAt(m, "404");
    IncludesAt(m, "401");
    IncludesAt(m, "403");
    IncludesAt(m, "400");
  }

  // ---------------------------------------------------------------------------
  // The fetched model.

  /** The object the backend answered with; only its `jobs` field matters
      here, `None` when it is missing or is not an array. */
  class ModelDetails {
    var jobs: Option<seq<Job>>

    constructor (jobs: Option<seq<Job>>)
      ensures this.jobs == jobs
    {
      this.jobs := jobs;
    }

    /** `if (!data.jobs || !Array.isArray(data.jobs)) data.jobs = []`: an
        existing array, even an empty one, is kept. */
    method EnsureJobsArray()
      modifies this
      ensures jobs == Some(if old(jobs).Some? then old(jobs).value else [])
    {
      if jobs.None? {
        jobs := Some([]);
      }
    }
  }

  /** Where the data comes from: the jobs endpoint, or the model endpoint
      when that one failed. */
  function Answer(byJobs: Call<ModelDetails>, byModel: Call<ModelDetails>): Call<ModelDetails> {
    if byJobs.Fetched? then byJobs else byModel
  }

  /** The object the effect may write to. */
  function Answered(byJobs: Call<ModelDetails>, byModel: Call<ModelDetails>): set<ModelDetails> {
    if Answer(byJobs, byModel).Fetched? then {Answer(byJobs, byModel).value} else {}
  }

  /** The hook's state (the loading flag is left out). */
  class ModelJobsPage {
    var model: Option<ModelDetails>
    var error: string

    constructor ()
      ensures model.None? && error == ""
    {
      model := None;
      error := "";
    }

    /** The fetch effect. The error is never cleared on success. */
    method Load(auth: AuthContext.State, modelId: string, byJobs: Call<ModelDetails>, byModel: Call<ModelDetails>)
      modifies this, Answered(byJobs, byModel)
      ensures EffectPermission(auth, modelId) == Some(false) ==> model == old(model) && error == DeniedMessage
      ensures EffectPermission(auth, modelId).None? ==> model == old(model) && error == ClassifyError(EmailTypeErrorMessage)
      ensures EffectPermission(auth, modelId) == Some(true) && Answer(byJobs, byModel).Rejected? ==>
        model == old(model) && error == ShownError(byModel.error)
      ensures EffectPermission(auth, modelId) == Some(true) && Answer(byJobs, byModel).Fetched? ==>
        var data := Answer(byJobs, byModel).value;
        model == Some(data) && error == old(error) &&
        data.jobs == Some(if old(data.jobs).Some? then old(data.jobs).value else [])
    {
      var allowed := EffectPermission(auth, modelId);
      if allowed.None? {
        error := ClassifyError(EmailTypeErrorMessage);
        return;
      }
      if !allowed.value {
        error := DeniedMessage;
        return;
      }
      var answer := Answer(byJobs, byModel);
      if answer.Rejected? {
        error := ShownError(byModel.error);
        return;
      }
      var data := answer.value;
      data.EnsureJobsArray();
      model := Some(data);
    }
  }
}

=== FILE: use_models_list.dfy ===
/**
 * src/hooks/useModelsList.js: the models page, for managers only. A URL id
 * selects the model whose `id` or `modelId` prints as that id; deleting a
 * model removes every entry that carries the deleted id in either field.
 * `toLocaleDateString` is the parameter `localeDate`.
 */
module ModelsList {
  import opened Js
  import opened Wrappers
  import opened Sequences
  import opened Entities
  import opened Api
  import AuthContext

  const FetchModelsFailed := "Failed to fetch models"
  const DeleteModelFailed := "Failed to delete model"

  /** `(model.id && model.id.toString() === id) || (model.modelId && model.modelId.toString() === id)`. */
  predicate MatchesUrl(m: ModelRecord, id: string) {
    (Truthy(m.id) && ToStr(m.id) == id) || (Truthy(m.modelId) && ToStr(m.modelId) == id)
  }

  /** The model a URL id names; the truthiness guards keep `toString` from
      ever being called on a missing id. */
  function ModelFromUrl(models: seq<ModelRecord>, id: string): (r: Option<ModelRecord>)
    ensures r.Some? ==>
      exists i :: 0 <= i < |models| && models[i] == r.value && MatchesUrl(models[i], id) &&
        forall k :: 0 <= k < i ==> !MatchesUrl(models[k], id)
    ensures r.None? <==> forall k :: 0 <= k < |models| ==> !MatchesUrl(models[k], id)
  {
    FindSpec(models, (m: ModelRecord) => MatchesUrl(m, id));
    Find(models, (m: ModelRecord) => MatchesUrl(m, id))
  }

  /** The guards are truthiness tests, so a model whose ids are both the
      number 0 can never be selected from the URL, not even by "0". */
  lemma ZeroIdNeverMatches(models: seq<ModelRecord>, m: ModelRecord)
    requires m.id == Num(0) && m.modelId == Num(0)
    ensures !MatchesUrl(m, "0")
    ensures ModelFromUrl(models, "0") != Some(m)
  {
  }

  /** The delete filter: `model.id !== id && model.modelId !== id`. */
  predicate Survives(m: ModelRecord, id: Value) {
    m.id != id && m.modelId != id
  }

  /** The list after `id` was deleted. */
  function WithoutModel(models: seq<ModelRecord>, id: Value): (r: seq<ModelRecord>)
    ensures forall m :: m in r <==> m in models && Survives(m, id)
    ensures forall m :: multiset(r)[m] == if Survives(m, id) then multiset(models)[m] else 0
    ensures IsSubseq(r, models)
  {
    FilterSpec(models, (m: ModelRecord) => Survives(m, id));
    Filter(models, (m: ModelRecord) => Survives(m, id))
  }

  /** The selection after `id` was deleted: cleared exactly when the filter
      removed it. */
  function SelectionAfterDelete(selected: Option<ModelRecord>, id: Value): (r: Option<ModelRecord>)
    ensures r.None? <==> selected.None? || !Survives(selected.value, id)
    ensures r.Some? ==> r == selected
  {
    if selected.Some? && (selected.value.id == id || selected.value.modelId == id) then None else selected
  }

  /** The delete filter and the selection test agree, so a listed selection
      stays listed and a deleted one is dropped. */
  lemma DeleteKeepsSelectionListed(models: seq<ModelRecord>, selected: Option<ModelRecord>, id: Value)
    requires selected.Some? ==> selected.value in models
    ensures var r := SelectionAfterDelete(selected, id);
      r.Some? ==> r.value in WithoutModel(models, id)
  {
  }

  /** `formatDate(dateString)`: 'N/A' for an empty date, otherwise the
      locale's rendering. */
  function FormatDate(date: string, localeDate: string -> string): (shown: string)
    ensures date == "" ==> shown == "N/A"
    ensures date != "" ==> shown == localeDate(date)
  {
    if date == "" then "N/A" else localeDate(date)
  }

  /** The hook's state (the loading flag is left out). */
  class ModelsPage {
    var models: seq<ModelRecord>
    var error: string
    var selectedModel: Option<ModelRecord>

    constructor ()
      ensures models == [] && error == "" && selectedModel.None?
    {
      models := [];
      error := "";
      selectedModel := None;
    }

    /** The fetch effect for the URL id `id` ("" when there is none); only a
        manager fetches anything. */
    method Load(auth: AuthContext.State, id: string, reply: Call<seq<ModelRecord>>)
      modifies this
      ensures !AuthContext.IsManager(auth) || reply.Rejected? ==>
        models == old(models) && selectedModel == old(selectedModel)
      ensures error == if AuthContext.IsManager(auth) && reply.Rejected? then FetchModelsFailed else old(error)
      ensures AuthContext.IsManager(auth) && reply.Fetched? ==>
        models == reply.value &&
        selectedModel == if id != "" && ModelFromUrl(reply.value, id).Some? then ModelFromUrl(reply.value, id) else old(selectedModel)
    {
      if !AuthContext.IsManager(auth) {
        return;
      }
      if reply.Rejected? {
        error := FetchModelsFailed;
        return;
      }
      models := reply.value;
      if id != "" {
        var fromUrl := ModelFromUrl(reply.value, id);
        if fromUrl.Some? {
          selectedModel := fromUrl;
        }
      }
    }

    /** `deleteModel(id)`, once the user has confirmed (or not). */
    method DeleteModel(confirmed: bool, id: Value, reply: Call<()>)
      modifies this
      ensures !confirmed || reply.Rejected? ==> models == old(models) && selectedModel == old(selectedModel)
      ensures error == if confirmed && reply.Rejected? then DeleteModelFailed else old(error)
      ensures confirmed && reply.Fetched? ==>
        models == WithoutModel(old(models), id) && selectedModel == SelectionAfterDelete(old(selectedModel), id)
    {
      if !confirmed {
        return;
      }
      if reply.Rejected? {
        error := DeleteModelFailed;
        return;
      }
      models := WithoutModel(models, id);
      selectedModel := SelectionAfterDelete(selectedModel, id);
    }
  }
}

=== FILE: wrappers.dfy ===
/** Optional values and results, for lookups that may miss and steps that may fail. */
module Wrappers {

  datatype Option<+T> = None | Some(value: T)

  datatype Result<+T, +E> = Success(value: T) | Failure(error: E)

  /** The outcome of one backend call: the response body, or the error it rejected with. */
  datatype Fetch<+T, +E> = Fetched(value: T) | Rejected(error: E)
}
